=== FILE: README.md ===
# stabuse settlement core, modelled in Dafny

stabuse is a payment-settlement service. A merchant registers the networks
and token tickers it accepts. A payer asks for an unsigned transfer on
Solana, or for call data for an ERC-20 `transfer` on an EVM chain. The
service records the attempt as a *pending payment* and hands back a
short-lived payment credential. Once the payer has signed and broadcast
the transfer, a queue message carries the transaction hash. The consumer
fetches the transaction, checks it against the pending payment, moves the
row into the settled `payments` table and notifies the merchant's webhook.
Admins are bootstrapped once as a super-admin. More admins join by
invitation, and each admin signs in with a password followed by an
e-mailed one-time code.

This project models that core as pure functions over immutable state.
Each PostgreSQL table is a map with a serial counter and a `Valid`
invariant. A SERIAL default draws from its sequence before the unique
indexes are consulted, and the draw is not undone. So an insert into the
merchant or admin tables that is refused for a duplicate still advances
the counter. Each SQL statement the core issues is a function that returns
the new state together with the result or the database error. Everything
outside the process is a function-valued parameter:

- the RPC node, the ledger and the signature parser;
- the JSON parser, the JWT signer and the bcrypt hasher;
- the mailer, the clock and the random draw.

| file | module | what it models |
|---|---|---|
| wrappers.dfy | Wrappers | `Option` / `Result` with `?`-style propagation |
| text.dfy | Text | ASCII case mapping, substring search, `trim_start_matches`, UTF-8 byte length, decimal rendering and parsing, `i64` parsing |
| hex.dfy | Hex | hex encoding and decoding, `0x` quantities as JSON-RPC renders them |
| bytes.dfy | Bytes | little- and big-endian fixed-width integers |
| abi.dfy | Abi | the `transfer(address,uint256)` call data and address parsing |
| json.dfy | Json | JSON values, member lookup, string escaping |
| errors.dfy | Errors | the `StabuseError` taxonomy: display text, conversions, source, status code, response body |
| validation.dfy | Validation | address, e-mail, password, username, asset map, supported-network document validators |
| registry.dfy | Registry | ticker normalisation, the asset configuration lookup, the in-memory `Network` registry |
| credentials.dfy | Jwt | merchant, admin and payment credentials: issue, verify, request guards |
| payment_store.dfy | PaymentStore | the `pending_payments` and `payments` tables and their statements |
| solana.dfy | Solana | the SPL `TransferChecked` builder and the Solana verifier |
| evm.dfy | Evm | the ERC-20 payment request builder and the EVM verifier |
| timestamp.dfy | Timestamp | `to_rfc3339` of a UTC instant |
| queue.dfy | Queue | the verification-message consumer `handle_message` |
| merchants.dfy | Merchants | merchant sign-up and the `supported_networks` JSONB statements |
| admins.dfy | Admins | super-admin bootstrap, invitations, password login and the OTP flow |

## Model

| member | source | states |
|---|---|---|
| Text.Upper | src/utils/utils.rs:10-15 | upper-casing keeps the length and maps every ASCII lower-case letter to its capital, leaving other characters alone |
| Text.UpperIdempotent | src/utils/utils.rs:10-15 | upper-casing twice is upper-casing once, and the result has no lower-case letter left |
| Text.Contains | src/mq/mq.rs:77 | the substring test is true exactly when the needle occurs at some position of the text |
| Text.TrimStartMatches | src/core/evm/evm.rs:117-122 | stripping a prefix repeatedly leaves a suffix of the input that no longer starts with the prefix |
| Text.Utf8Len | src/utils/validation/input_validation.rs:16-29 | `str::len` counts bytes: never fewer than the characters, and zero only for the empty string |
| Text.Utf8LenAscii | src/utils/validation/input_validation.rs:31-53 | byte length equals character count exactly when the text is ASCII |
| Text.DecimalRoundTrip | src/db/migrations/payments/inserts_and_updates.rs:9-15 | the decimal text of an amount reads back as the same number |
| Text.ParseDecimal | src/db/migrations/payments/inserts_and_updates.rs:9-15 | on the texts the call sites bind, the decimal digits of a whole amount, the cast yields the number they spell; no other text is taken as an amount |
| Text.ParseI64OfDecimal | src/utils/validation/domain_validation.rs:23-64 | a chain id written in decimal and within `i64` parses back to itself |
| Hex.DecodeAccepts | src/core/evm/evm.rs:117-122 | hex decoding succeeds exactly on even-length texts made only of hex digits |
| Hex.EncodeDecode | src/core/evm/evm.rs:117-122 | decoding the lower-case hex rendering of bytes gives the bytes back |
| Hex.PrefixedQuantity | src/core/evm/evm.rs:90-100 | the `0x` quantity rendering of a number parses back to that number |
| Bytes.LittleEndianRoundTrip | src/core/sol/sol.rs:54-63 | a number below 256^width survives little-endian encoding and decoding |
| Bytes.BigEndianInjective | src/core/evm/evm.rs:21-26 | two numbers with the same big-endian word are equal |
| Abi.DecodeEncode | src/core/evm/evm.rs:52-56 | the `transfer` call data decodes back to the recipient and amount it was built from |
| Abi.EncodeTransferInjective | src/core/evm/evm.rs:165-170 | equal call data means equal recipient and equal amount, so comparing call data compares both |
| Abi.ParseAddress | src/core/evm/evm.rs:47-50 | an address parses exactly when its digits, with or without `0x`, are 40 hex digits, and it is their decoding |
| Abi.ParseRendered | src/core/evm/evm.rs:47-50 | a rendered address parses back to itself, with or without the prefix |
| Json.Lookup | src/types/types.rs:239-245 | a member is found exactly when some entry has that key, and the value found is that entry's value |
| Json.EscapeRoundTrip | src/mq/mq.rs:108 | unescaping the escaped form of a string gives back the string |
| Json.DebugScalarExamples | src/utils/validation/domain_validation.rs:45-48 | the `{:?}` form of a value names its variant and its payload: `Number(1)`, `Bool(true)`, `Null` |
| Json.DebugStringExample | src/utils/validation/domain_validation.rs:45-48 | a string value shows as `String("…")` with its inner quote escaped |
| Json.DebugArrayExample | src/utils/validation/domain_validation.rs:45-48 | an array shows as `Array [` its items' forms separated by `, ` `]` |
| Json.DebugEscapeAgrees | src/utils/validation/domain_validation.rs:45-48 | the debug escaping of a string agrees with JSON escaping on every character but the ASCII controls, where a backspace becomes `\u{8}` rather than `\b` |
| Errors.Display | src/error/mod.rs:33-56 | the display text is the variant's label followed by its payload, and an I/O error shows its payload alone |
| Errors.ServerFaultDisplay | src/error/mod.rs:39 | an error the database server reported displays behind both `Database error: ` and sqlx's `error returned from database: ` |
| Errors.DisplayAmbiguity | src/error/mod.rs:33-56 | an e-mail error and an SMTP error with the same payload display identically |
| Errors.FromForeign | src/error/mod.rs:58-122 | each foreign error type converts into exactly one variant and keeps its text as the payload |
| Errors.Source | src/error/mod.rs:124-133 | only database, hashing and HTTP errors expose a source, and it carries their payload |
| Errors.StatusCode | src/error/mod.rs:183-202 | the status is 400 exactly for client-data errors, 401 for authentication errors, 403 for `Forbidden`, 404 for environment and internal errors, and 500 for the rest |
| Errors.ErrorResponse | src/error/mod.rs:136-181 | the body is a one-member object under `error`: the bare payload for message-carrying variants; the full display text for database and hashing errors; for an HTTP error the cause behind `HTTP error: `, not the display's `Http Error: ` |
| Errors.ResponseStatusAgrees | src/error/mod.rs:136-202 | the response's status is the error's status code, for every variant |
| Validation.ValidateAddress | src/utils/validation/address_validation.rs:3-10 | accepts exactly the texts of 42 bytes that start with `0x`, whatever the other bytes are; otherwise an `InvalidData` naming the address |
| Validation.AddressShapeExamples | src/utils/validation/address_validation.rs:3-10 | non-hex letters pass, an upper-case `0X` fails, 39 characters fail |
| Validation.ValidateEmail | src/utils/validation/input_validation.rs:8-14 | accepts exactly the texts matching the e-mail pattern |
| Validation.CheckDomainMatchesGrammar | src/utils/validation/input_validation.rs:8-14 | the domain scanner accepts exactly the domain part of the pattern |
| Validation.AcceptedEmailShape | src/utils/validation/input_validation.rs:8-14 | an accepted address has exactly one `@`, neither first nor last |
| Validation.EmailExamples | src/utils/validation/input_validation.rs:8-14 | `a@b` passes; `@b`, with nothing before the `@`, fails |
| Validation.EmptyLabelExample | src/utils/validation/input_validation.rs:8-14 | `a@b..c`, with an empty domain label, fails |
| Validation.HyphenLabelExample | src/utils/validation/input_validation.rs:8-14 | `a@-b`, with a domain label starting with a hyphen, fails |
| Validation.ValidatePassword | src/utils/validation/input_validation.rs:16-29 | accepts exactly passwords of at least 8 bytes; the empty one and a short one get their own messages |
| Validation.ValidateUsername | src/utils/validation/input_validation.rs:31-53 | accepts exactly names of at least 3 bytes whose every character is Unicode alphanumeric, `_` or `-`; the empty name, a short one and a bad character each get their own `InvalidCredentials` message |
| Validation.UsernameByteLength | src/utils/validation/input_validation.rs:31-53 | length counts bytes and letters are Unicode: `éé` (4 bytes) passes, `é` (2 bytes) is too short |
| Validation.UsernameAsciiSpace | src/utils/validation/input_validation.rs:44-46 | on ASCII the class is the letters and digits, so `a b` is refused for its space |
| Validation.UsernameAsciiAccepted | src/utils/validation/input_validation.rs:44-46 | `a_1-Z`, of letters, a digit, `_` and `-`, passes |
| Validation.ValidateAssets | src/utils/validation/domain_validation.rs:6-21 | succeeds exactly when every ticker/address entry is well formed, otherwise reports the first bad entry |
| Validation.CheckAssets | src/utils/validation/domain_validation.rs:33-50 | a network's list passes exactly when every item is a string the lookup supports on that chain; otherwise the first failing item decides the error, a non-string being reported as "Asset is not a valid string: " and its `{:?}` form |
| Validation.ValidateSupportedNetworks | src/utils/validation/domain_validation.rs:23-64 | a document passes exactly when it is an object whose every key is an integer chain id and whose every value is an array of supported tickers |
| Validation.NetworksDocumentExamples | src/utils/validation/domain_validation.rs:23-64 | `{}` and an empty list pass; a non-numeric key gives "Invalid chain ID" |
| Validation.CheckSupportedAssets | src/utils/validation/domain_validation.rs:66-81 | passes exactly when the lookup answers yes for every ticker, upper-cased |
| Validation.ValidateSupportedAssets | src/utils/validation/domain_validation.rs:66-81 | the loop agrees with that definition and reports the first ticker the lookup rejects or fails on |
| Registry.TransformKeyOrigin | src/utils/utils.rs:10-15 | every key of the normalised map is the upper-cased ticker of some input entry, with that entry's address |
| Registry.TransformLastWins | src/utils/utils.rs:10-15 | an entry not followed by another with the same upper-cased ticker supplies that key's address |
| Registry.TransformSize | src/utils/utils.rs:10-15 | normalising never grows the map, and tickers that stay distinct after upper-casing lose nothing |
| Registry.TransformCollision | src/utils/utils.rs:10-15 | `usdc` and `USDC` collapse into one `USDC` entry |
| Registry.MapToJsonLookup | src/utils/utils.rs:17-22 | every ticker of a map with distinct keys can be looked up in its JSON object |
| Registry.GetAssetContractAddress | src/utils/utils.rs:29-44 | file and parse failures surface as I/O and serde errors; otherwise the configured address or `AssetNotFound` |
| Registry.ConfiguredAddressExample | src/utils/utils.rs:29-44 | the lookup is keyed by the decimal chain id and is case-sensitive in the ticker |
| Registry.NewNetwork | src/network/network.rs:13-21 | a new network keeps its fields and starts with no assets |
| Registry.AddAsset | src/network/network.rs:23-25 | adding stores the ticker upper-cased, keeps every other asset and touches no other field |
| Registry.GetAssetAddress | src/network/network.rs:27-29 | a ticker is found exactly when its upper-cased form is registered |
| Registry.GetSupportedAssets | src/network/network.rs:31-33 | the listed tickers are exactly the registered upper-case ones |
| Registry.AddThenGet | src/network/network.rs:23-29 | a ticker just added is found under any spelling of the same letters |
| Registry.AddKeepsOthers | src/network/network.rs:23-29 | adding one ticker changes no lookup of another |
| Registry.ReAddReplaces | src/network/network.rs:23-25 | adding the same ticker again replaces its address |
| Jwt.CheckExpiry | src/auth/jwt.rs:40-54 | a credential passes until its expiry plus the 60-second leeway |
| Jwt.Verify | src/auth/jwt.rs:40-54 | verification succeeds exactly when the signature checks and the expiry rule passes; every failure is a 401 "Invalid token: …" |
| Jwt.GenerateMerchantJwt | src/auth/jwt.rs:15-38 | the claims carry id and username and expire 24 hours on; an encoding failure is "Failed to create token: …" |
| Jwt.GenerateAdminJwt | src/auth/jwt.rs:82-106 | the claims carry e-mail and username and expire 2 hours on; an encoding failure is "Failed to generate JWT: …" |
| Jwt.GeneratePaymentJwt | src/auth/jwt.rs:150-176 | the claims carry the pending payment id, RPC URL and network and expire 30 minutes on |
| Jwt.MerchantSessionWindow | src/auth/jwt.rs:15-54 | a merchant session issued at t verifies exactly until t + 24 h + 60 s |
| Jwt.AdminSessionWindow | src/auth/jwt.rs:82-122 | an admin session issued at t verifies exactly until t + 2 h + 60 s |
| Jwt.PaymentCredentialWindow | src/auth/jwt.rs:150-192 | a payment credential issued at t verifies exactly until t + 30 min + 60 s |
| Jwt.MerchantJwtValidator | src/auth/jwt.rs:56-80 | the guard lets the request through carrying the claims exactly when verification succeeds, and otherwise rejects with a fixed 401 |
| Jwt.AdminJwtValidator | src/auth/jwt.rs:124-148 | the same for admin sessions |
| Jwt.PaymentJwtValidator | src/auth/jwt.rs:194-219 | the same for payment credentials |
| Jwt.FailuresLookAlike | src/auth/jwt.rs:194-219 | an expired credential and a forged one get the same rejection |
| PaymentStore.AddPendingPayment | src/db/migrations/payments/inserts_and_updates.rs:9-15 | inserts a fresh row exactly when the amount text casts to a number, leaving every other row alone |
| PaymentStore.GetPendingPayment | src/db/migrations/payments/select_queries.rs:9-13 | returns the row with that id, or the row-not-found database error |
| PaymentStore.FirstMissing | src/types/types.rs:227-237 | the first struct field the selected columns do not supply; none exactly when every field is supplied |
| PaymentStore.FetchPendingPayment | src/core/sol/sol.rs:108-112 | `fetch_one` then the derived `FromRow`: an absent id is row-not-found; a present row fails with column-not-found for the first `PendingPayment` field the select lacks, and otherwise is the stored row |
| PaymentStore.PendingSelectAsWrittenFails | src/db/migrations/payments/select_queries.rs:9-13 | the select as written leaves out `webhook_url`, so every present id fails to decode with column-not-found for that column |
| PaymentStore.CompletePendingSelectReads | src/db/migrations/payments/select_queries.rs:9-13 | with `webhook_url` selected too, the fetch returns the stored row |
| PaymentStore.DeletePendingPayment | src/db/migrations/payments/inserts_and_updates.rs:17-20 | removes that row only; settled rows and counters are unchanged |
| PaymentStore.DeleteAbsentIsNoOp | src/db/migrations/payments/inserts_and_updates.rs:17-20 | deleting a missing id changes nothing |
| PaymentStore.AddThenGetPending | src/db/migrations/payments/inserts_and_updates.rs:9-15 | a row just inserted reads back with the inserted values |
| PaymentStore.InsertPayment | src/db/migrations/payments/create_payments_table.rs:1-11 | the table's NOT NULL `time` and UNIQUE `tx_hash` constraints: the insert succeeds exactly when both hold |
| PaymentStore.AddPaymentAsWritten | src/db/migrations/payments/inserts_and_updates.rs:1-7 | the statement as written never supplies `time`, so every call fails and changes nothing |
| PaymentStore.AddPaymentAsWrittenNeverInserts | src/db/migrations/payments/inserts_and_updates.rs:1-7 | even a well-formed settlement is refused with the NOT NULL violation on `time` |
| PaymentStore.AddPayment | src/db/migrations/payments/inserts_and_updates.rs:1-7 | with `time` supplied: settles exactly when the amount casts and the hash is new |
| PaymentStore.SettleTwiceRefused | src/db/migrations/payments/create_payments_table.rs:7 | settling the same transaction hash twice is refused with the unique violation |
| PaymentStore.DeleteMerchantCascade | src/db/migrations/payments/create_payments_table.rs:4 | deleting a merchant removes exactly its settled payments and keeps every other row unchanged |
| Solana.AsU64 | src/core/sol/sol.rs:54-63 | `as u64` reinterprets a negative amount as its two's-complement value |
| Solana.UnpackPack | src/core/sol/sol.rs:226-229 | unpacking packed `TransferChecked` data gives back amount and decimals, whatever follows |
| Solana.TransferChecked | src/core/sol/sol.rs:54-63 | the built instruction targets the token program with source, mint, destination and authority, and its data unpacks to the amount and decimals |
| Solana.CompileMessage | src/core/sol/sol.rs:65 | the compiled message has the payer first and one required signature, and its single instruction resolves to the one given |
| Solana.NewUnsigned | src/core/sol/sol.rs:68 | one all-zero signature slot per required signer |
| Solana.FindMatching | src/core/sol/sol.rs:212-249 | finds the first instruction that matches the expected transfer, and none exactly when none does |
| Solana.OtherInstructionsIrrelevant | src/core/sol/sol.rs:212-249 | a matching transfer is found whatever instructions surround it |
| Solana.Confirmations | src/core/sol/sol.rs:136-146 | the saturating slot distance: zero when the transaction is not behind the tip, otherwise the exact distance |
| Solana.ExecutionGate | src/core/sol/sol.rs:142-157 | passes exactly with at least 12 confirmations and a successful status, failing in the code's order with its messages |
| Solana.ExpectedTransfer | src/core/sol/sol.rs:197-210 | derives both token accounts from the merchant address, the mint and the payer, failing when any of them does not parse |
| Solana.ValidateTransferInstruction | src/core/sol/sol.rs:190-256 | with instructions matched on their resolved program and account keys (the corrected reading of lines 213-240): succeeds exactly when the derived keys exist and some instruction matches them, else the "no valid transfer" error |
| Solana.Settle | src/core/sol/sol.rs:102-188 | with the corrected insert and instruction match: settles exactly when the pending row exists, every check passes and the hash is new; the pending row is deleted before the insert |
| Solana.DuplicateHashDropsPending | src/core/sol/sol.rs:170-185 | a hash already settled fails the insert after the pending row is gone |
| Solana.SettleReading | src/core/sol/sol.rs:102-112 | the verifier whose first read selects the given columns: a read that fails ends the call with the store untouched; a complete select makes it `Settle` |
| Solana.VerifySolAsWritten | src/core/sol/sol.rs:102-112 | the verifier with the select as written never succeeds and never changes the store |
| Solana.AsWrittenVerifierNeverSettles | src/core/sol/sol.rs:102-112 | for every present pending id the verifier as written fails with column-not-found for `webhook_url`, before any check; an absent id is row-not-found |
| Solana.CompleteSelectSettles | src/core/sol/sol.rs:102-112 | with `webhook_url` added to the select, the verifier is exactly `Settle` |
| Solana.VerifySolSignedTransaction | src/core/sol/sol.rs:102-188 | the verifier compares the mint against the pending row's asset text, otherwise as `Settle` with its corrections |
| Solana.TickerMintNeverSettles | src/core/sol/sol.rs:161-168 | a pending payment whose asset is a ticker never settles and leaves the store unchanged |
| Solana.UnparsedMintFails | src/core/sol/sol.rs:202-207 | a mint text that does not parse as a key fails validation |
| Solana.VerifySolWithLookedUpMint | src/core/sol/sol.rs:117-119 | the verifier comparing against the mint address the network lookup returns |
| Solana.ProgramIdAsWritten | src/core/sol/sol.rs:213-222 | the program id lookup as written indexes the per-instruction list with an account-key index |
| Solana.BuiltMessageProgramIdPanics | src/core/sol/sol.rs:213-222 | for the builder's own message that index is out of range |
| Solana.AccountIndexNeverParses | src/core/sol/sol.rs:232-240 | the decimal text of an account index never parses as a 32-byte key |
| Solana.PrepareTransfer | src/core/sol/sol.rs:31-68 | the prepared transaction pays the merchant's token account from the payer's, with the amount and the looked-up decimals |
| Solana.CreatePaymentTransaction | src/core/sol/sol.rs:31-100 | when preparing the transfer fails nothing is stored; once it succeeds exactly one pending row with the request's values is added, and the call fails exactly when the credential naming that row fails, which leaves the row in place |
| Solana.RecordPending | src/core/sol/sol.rs:74-99 | the pending insert always succeeds for an integer amount and adds exactly one row under a fresh id; the outcome is the credential for that id, and its failure does not remove the row |
| Solana.BuiltTransferMatches | src/core/sol/sol.rs:54-65 | the builder's instruction, once compiled, is the one the verifier looks for |
| Solana.BuiltTransactionValidates | src/core/sol/sol.rs:31-256 | a transaction built for a pending payment passes validation with the looked-up mint |
| Evm.ParseTxHash | src/core/evm/evm.rs:117-122 | a hash parses exactly when its text, stripped of leading `0x`, is valid hex |
| Evm.TxHashRoundTrip | src/core/evm/evm.rs:117-122 | a rendered hash parses back, with or without `0x` |
| Evm.TransactionChecks | src/core/evm/evm.rs:147-185 | passes exactly for a call to the token with the expected data and a successful receipt, failing in the code's order with its messages |
| Evm.ExpectedCall | src/core/evm/evm.rs:131-145 | the expected call targets the configured token and transfers to the merchant's address |
| Evm.VerifySignedTransaction | src/core/evm/evm.rs:103-188 | succeeds only for a fetched call matching the expected transfer, returning the merchant id; a missing transaction or bad hash gives its own error |
| Evm.VerifyAcceptsMatchingCall | src/core/evm/evm.rs:103-188 | conversely, a fetched call to the configured token carrying the transfer of the amount to the merchant, with a successful receipt, is accepted for the merchant |
| Evm.UserAddressIgnored | src/core/evm/evm.rs:103-188 | the payer's address plays no part in verification |
| Evm.FeeFields | src/core/evm/evm.rs:77-88 | fees are present exactly when a base fee was returned: max fee is base plus tip, the tip is the fixed priority fee |
| Evm.CreatePaymentRequest | src/core/evm/evm.rs:28-101 | an invalid payer address is refused first; a built request targets the token with `transfer` data for the merchant and amount, and its nonce, gas limit and fees are `0x` hex that reads back as the transaction count, the gas estimate for that call and the fee-history fees |
| Evm.RequestBuiltWhenReadingsSucceed | src/core/evm/evm.rs:28-101 | conversely, a well-formed payer address, a parsable RPC URL and every reading and address parse succeeding give a request |
| Evm.RequestDataDecodes | src/core/evm/evm.rs:52-56 | the request's data decodes back to the merchant address and amount |
| Evm.RequiredFieldsPresent | src/core/evm/evm.rs:90-100 | every required member is in the request JSON |
| Evm.OptionalFieldsPresent | src/core/evm/evm.rs:90-100 | each optional gas member is present exactly when its value is known |
| Timestamp.Fraction | src/mq/mq.rs:105 | the fractional part is empty for whole seconds and otherwise 3, 6 or 9 digits after a dot |
| Timestamp.FractionValue | src/mq/mq.rs:105 | the fraction's digits denote the nanoseconds |
| Timestamp.HeadFields | src/mq/mq.rs:105 | the date-time head's digit fields read back as year, month, day, hour, minute and second |
| Timestamp.Rfc3339Conforms | src/mq/mq.rs:105 | the rendering conforms to the RFC 3339 date-time grammar with offset `+00:00` |
| Timestamp.Rfc3339Length | src/mq/mq.rs:105 | the rendering is 25 characters plus the fraction |
| Queue.MessageFromJson | src/types/types.rs:239-245 | an object decodes exactly when each of its four members occurs once with the right type; an array exactly when it has four items of the right types in field order; nothing else decodes |
| Queue.MessageArrayRoundTrip | src/types/types.rs:239-245 | the sequence form of a message decodes back to it, and one item more or fewer is refused |
| Queue.MessageRoundTrip | src/types/types.rs:239-245 | the JSON of a message decodes back to it |
| Queue.UnknownMembersIgnored | src/types/types.rs:239-245 | extra members do not change the decoded message |
| Queue.MissingFieldRefused | src/types/types.rs:239-245 | a message missing a member, or repeating one, does not decode |
| Queue.PayloadFields | src/types/types.rs:253-259 | the webhook payload carries payment id, status `completed`, hash and timestamp, and no other member |
| Queue.Replies | src/mq/mq.rs:59-121 | the replies in a trace are its acks and nacks, in order |
| Queue.HandleMessage | src/mq/mq.rs:59-121 | an undecodable delivery is nacked and nothing else happens; otherwise the store is what the chosen verifier leaves |
| Queue.UndecodableRejectedOnce | src/mq/mq.rs:66-74 | an undecodable delivery gets exactly one nack, whatever the verifiers would do |
| Queue.RoutingByNetwork | src/mq/mq.rs:77-93 | the Solana verifier runs exactly when the lower-cased network contains `sol` |
| Queue.RoutingIgnoresCase | src/mq/mq.rs:77 | routing does not depend on the network name's case |
| Queue.SubstringRoutes | src/mq/mq.rs:77 | any network name containing `sol` goes to the Solana verifier |
| Queue.EvmNamesRoute | src/mq/mq.rs:77 | `ethereum` and the empty name go to the EVM verifier |
| Queue.RejectedThenAcknowledged | src/mq/mq.rs:112-119 | a failed verification is nacked and then acked |
| Queue.SettledAcknowledgedTwice | src/mq/mq.rs:96-119 | a settled payment is acked, the webhook is sent, and it is acked again |
| Queue.AnsweredOnceOnlyOnEarlyExit | src/mq/mq.rs:59-121 | a delivery is answered once only when it does not decode |
| Queue.StoreOnlyThroughVerifier | src/mq/mq.rs:59-121 | the store changes only through the verifier; the parser and the webhook do not touch it |
| Queue.HandleMessageOnce | src/mq/mq.rs:59-121 | the corrected handler: decoding, routing and store effects as before, each delivery answered once |
| Queue.AnsweredExactlyOnce | src/mq/mq.rs:59-121 | the corrected handler answers every delivery exactly once and agrees with the original on store and result |
| Queue.SolanaDeliverySettles | src/mq/mq.rs:77-110 | a decodable Solana delivery leaves the store the Solana verifier leaves, and its first reply is an ack exactly when the payment settled |
| Merchants.Dedup | src/db/migrations/merchants/insert_and_update_merchants.rs:69-87 | the de-duplicated list has the same tickers and no repeats |
| Merchants.WithAsset | src/db/migrations/merchants/insert_and_update_merchants.rs:69-87 | adding a ticker gives the old tickers plus the new one, without repeats |
| Merchants.Without | src/db/migrations/merchants/insert_and_update_merchants.rs:89-103 | removing a ticker drops every copy of it and keeps every other ticker with its count |
| Merchants.WithoutEmpty | src/db/migrations/merchants/insert_and_update_merchants.rs:89-103 | the filtered list is empty exactly when every ticker in it was the one removed |
| Merchants.SetAccepted | src/db/migrations/merchants/insert_and_update_merchants.rs:69-87 | `jsonb_set` on `accepted_assets`: no change under a missing chain, an error under a bare ticker list, otherwise only that chain's list changes |
| Merchants.SetAddress | src/db/migrations/merchants/insert_and_update_merchants.rs:105-115 | the same for `address` |
| Merchants.DocumentOf | src/merchant/merchant.rs:16-49 | the stored document has exactly the chain keys of the submitted object |
| Merchants.CheckSignup | src/merchant/merchant.rs:23-38 | passes exactly when username, e-mail, password, hash and networks document all pass, and then yields the hash and the document to store; the username's error comes first, then the e-mail's |
| Merchants.InsertMerchant | src/merchant/merchant.rs:40-48 | the insert succeeds exactly when username and e-mail are unused; the username index refuses first; every outcome draws one serial id |
| Merchants.CreateMerchantAccount | src/merchant/merchant.rs:16-49 | validates username, e-mail, password and networks in order, then inserts a merchant under the next serial id exactly when username and e-mail are unused; a refusal by either unique index (username first) keeps every row but uses up that id, as `nextval()` does, and an earlier failure changes nothing |
| Merchants.CreatedDocumentKeepsTickers | src/merchant/merchant.rs:16-49 | a chain's ticker list is stored as submitted |
| Merchants.DocumentLastWins | src/db/migrations/merchants/insert_and_update_merchants.rs:1-6 | a chain key that appears twice keeps its last list |
| Merchants.AddSupportedNetwork | src/merchant/merchant.rs:93-113 | after ticker and address validation, the merchant's chain entry becomes the given tickers and address and the other chains are kept |
| Merchants.AddNetworkAsset | src/merchant/merchant.rs:51-73 | an unsupported ticker is refused; otherwise the chain's list gains the upper-cased ticker |
| Merchants.AddNetworkAssetIdempotent | src/db/migrations/merchants/insert_and_update_merchants.rs:69-87 | adding the same ticker twice is adding it once |
| Merchants.RemoveNetworkAssetAsWritten | src/db/migrations/merchants/insert_and_update_merchants.rs:89-103 | the statement as written nulls the whole column when the remaining list is empty |
| Merchants.RemovingLastTickerErasesAll | src/db/migrations/merchants/insert_and_update_merchants.rs:89-103 | removing a chain's last ticker erases every chain's configuration |
| Merchants.RemovingFromUnknownChainErasesAll | src/db/migrations/merchants/insert_and_update_merchants.rs:89-103 | removing from a chain the merchant does not have erases everything too |
| Merchants.RemoveNetworkAsset | src/merchant/merchant.rs:75-91 | the corrected removal: only that chain's list changes, losing every copy of the ticker |
| Merchants.RemoveAgreesWhenTickersRemain | src/db/migrations/merchants/insert_and_update_merchants.rs:89-103 | where tickers remain, the statement as written and the corrected one agree |
| Merchants.AddThenRemove | src/merchant/merchant.rs:51-91 | adding then removing a ticker succeeds and leaves the chain with its earlier tickers minus that one |
| Merchants.UpdateNetworkAddress | src/merchant/merchant.rs:115-131 | an invalid address is refused; otherwise only that chain's address changes |
| Merchants.AddNetworkThenUpdateAddress | src/merchant/merchant.rs:93-131 | after adding a chain, updating its address keeps the tickers and sets the new address |
| Merchants.AddSupportedNetworkAsWritten | src/merchant/merchant.rs:93-113 | as written the username is bound to an integer `id` parameter, so the call always fails and changes nothing |
| Merchants.AddNetworkAssetAsWritten | src/merchant/merchant.rs:51-73 | the same failure for adding a ticker |
| Merchants.UpdateNetworkAddressAsWritten | src/merchant/merchant.rs:115-131 | the same failure for updating the address |
| Merchants.WhereIdNeverUpdates | src/merchant/merchant.rs:93-113 | an input the corrected operation accepts is refused by the statement as written |
| Admins.CreateSuperAdmin | src/admin/admin.rs:22-50 | succeeds exactly when there are no admins yet and hashing works, inserting a super-admin; otherwise `Forbidden` and no change |
| Admins.SecondSuperAdminForbidden | src/admin/admin.rs:22-50 | once a super-admin exists a second bootstrap is forbidden |
| Admins.GenerateAdminInvite | src/admin/admin.rs:52-66 | stores one invite per e-mail with its hashed token and a 10-minute expiry; a second invite for the same e-mail is a unique violation that keeps every row but uses up the next serial id |
| Admins.InsertInvitedAdmin | src/admin/admin.rs:99-113 | the insert and the invite's deletion: succeeds exactly when e-mail and username are both unused; every outcome draws one serial id |
| Admins.CreateAdminWithInvite | src/admin/admin.rs:68-114 | no invite, an expired invite (deleted), hashing and uniqueness failures in that order; on success inserts a non-super admin under the next serial id and consumes the invite; a unique refusal (e-mail before username) keeps the invite and the rows but uses up that id |
| Admins.InviteAcceptedOnce | src/admin/admin.rs:68-114 | an invite can be used once: the second acceptance finds none |
| Admins.ExpiredInviteDeleted | src/admin/admin.rs:89-96 | accepting an expired invite fails and deletes it |
| Admins.InviteTokenNotChecked | src/admin/admin.rs:68-114 | acceptance does not depend on the invite's token |
| Admins.GenerateOtp | src/auth/otp.rs:39-43 | the code is six decimal digits between 100000 and 999998 |
| Admins.SendOtp | src/auth/otp.rs:45-89 | the code's hash is stored with a 10-minute expiry before the mail is attempted; a pending code for the same e-mail is a unique violation that keeps the records but uses up the next serial id |
| Admins.VerifyOtp | src/auth/otp.rs:91-127 | missing, expired (deleted), wrong (kept) and right (deleted) codes, each with its outcome |
| Admins.OtpSingleUse | src/auth/otp.rs:91-127 | a code that verified once does not verify again |
| Admins.ExpiredOtpIgnoresCode | src/auth/otp.rs:107-114 | an expired record gives the same result whatever code is presented, and is gone afterwards |
| Admins.FindLogin | src/db/migrations/admins/select_queries.rs:1-6 | the row found matches by username or e-mail and is the first such row |
| Admins.AdminLoginRequest | src/admin/admin.rs:116-147 | unknown admin, hashing failure, wrong password, missing mail settings, then the OTP is sent; admins and invites never change |
| Admins.LoginSendsCode | src/admin/admin.rs:116-147 | conversely, the admin the text names with the right password, mail settings present and no code pending gets the OTP sent and the e-mail and username back, one code record being stored |
| Admins.WrongPasswordRefused | src/admin/admin.rs:116-147 | a wrong password is refused and changes nothing |
| Admins.SecondLoginRefusedWhileCodePending | src/admin/admin.rs:116-147 | while a code is pending a second login fails and changes no row (at most one serial id is used up) |
| Admins.VerifyOtpAndLogin | src/admin/admin.rs:149-163 | the code check decides; a missing secret panics with "JWT_SECRET not set: NotPresent"; otherwise an admin credential naming the e-mail and username |
| Admins.LoginThenVerifyIssuesToken | src/admin/admin.rs:116-163 | presenting the mailed code within ten minutes of login issues the admin credential and consumes the code |

## Left out

- Network, RPC and SMTP I/O: the Solana node, the EVM provider, the mail transport and the webhook are function parameters whose answers are given.
- `start_consumer` and `publish_message` (src/mq/mq.rs:15-57, 123-153): connection and channel setup only; the model starts at a delivery.
- `send_webhook_notification`: an HTTP call; the model records it in the trace.
- Ack and nack failures: the channel calls are assumed to succeed.
- The handlers, routes and `main`: they parse HTTP requests and call the modelled operations.
- Concurrency: each operation runs alone. The count-then-insert in `create_super_admin` and the delete-then-insert in the Solana verifier are not atomic, and the model does not explore interleavings.
- The JSON parser, the JWT signer, the bcrypt hasher and `is_asset_supported_on_network`: each is a parameter. Salted hashing is folded into the hash function.
- The random OTP draw, the invite UUID and the clock are parameters. Instants are whole seconds, and `timestamp` columns are read in UTC.
- Leap seconds in `to_rfc3339`.
- Integer widths: amounts and payment ids are unbounded. Where the source converts (`i64 as u64`), the model states it. Row ids are not wrapped at `i32`. network.rs's `Network::new` passes a `u64` to the `u8` field `chain_id`; the model keeps the id unbounded.
- Evm.VerifySignedTransaction: a node chain id above `i64::MAX` is excluded by a precondition; there the source panics in `chain_id.try_into().unwrap()` (src/core/evm/evm.rs:134).
- Evm.CreatePaymentRequest: the same exclusion for the chain id conversion at src/core/evm/evm.rs:45.
- Evm.RequestBuiltWhenReadingsSucceed: the same exclusion.
- Evm.VerifyAcceptsMatchingCall: the same exclusion; it is stated for chain ids within `i64`.
- Evm.UserAddressIgnored: the same exclusion.
- Evm.RequestDataDecodes: the same exclusion.
- VARCHAR width limits on the tables.
- Text.Upper: ASCII-only; Rust's `to_uppercase` also maps non-ASCII letters (and may lengthen the text, as `ß` to `SS`).
- Validation.ValidateUsername: Unicode's alphanumeric class is a parameter, not its tables; the model fixes it only on ASCII.
- Text.ParseDecimal: models the `::NUMERIC` cast on unsigned digit runs only. Signs, fractions, exponents, surrounding blanks and `NaN`, which PostgreSQL also accepts, are refused; the call sites bind the decimal text of a `u64` amount (src/core/sol/sol.rs:77) or of an amount so stored and read back (line 179).
- PaymentStore.AddPendingPayment: inherits the narrower cast of `Text.ParseDecimal`.
- PaymentStore.InsertPayment: a refused insert leaves the store's id counter where it was, while PostgreSQL's SERIAL default may already have drawn an id. Payment ids are promised only to be fresh, so no contract depends on which id is drawn.
- PaymentStore.AddPayment: inherits the narrower cast of `Text.ParseDecimal`.
- Json.Debug: escapes like Rust's `escape_debug` on ASCII only; non-ASCII characters that Rust shows as `\u{…}` (unprintable or grapheme-extending ones) are shown as themselves, since the Unicode tables are not modelled.
- Validation.CheckAssets: inherits that gap of `Json.Debug` in the non-string item's text.
- JSON object key order: `HashMap` iteration order is unspecified, so documents are maps.
- Merchants.Dedup: keeps first appearances in order. PostgreSQL's `DISTINCT` in the statement gives no order guarantee.
- Solana.CreatePaymentTransaction: the pending insert names five columns but binds six values. The model records the six fields the code means.
- Solana.Settle: reads the whole pending row. As written the select leaves out `webhook_url`, so the verifier fails with a database error for every pending payment before any check (Findings row 8, `Solana.VerifySolAsWritten`).
- Solana.Settle: composes the corrected `AddPayment` and the resolved-key instruction match; see Findings rows 1-3.
- Solana.VerifySolSignedTransaction: the same corrections as `Settle`; only the mint choice is as written (Findings row 4).
- Solana.ValidateTransferInstruction: matches instructions on resolved program and account keys, the corrected reading of src/core/sol/sol.rs:213-240 (Findings rows 2 and 3); as written that code panics or never matches.
- Evm.CreatePaymentRequest: records no pending payment, as in the source.
- Queue.HandleMessage: the consumer passes four arguments to an EVM verifier that takes more. The verifiers are parameters with the consumer's signature.
- Solana.Checks: the transaction decode and the signer flags are taken as given. The source unwraps the decode.
- Hex error texts: the decode error's message comes from the hex library and is a parameter.
- `ADD_OTP` and `DELETE_OTP` are imported by src/auth/otp.rs but not defined in the source files of this model. They are modelled as a plain insert and a delete by e-mail on `admin_otps`.
- Admins.FindLogin: when several rows match the login, PostgreSQL returns them in an unspecified order. The model takes the lowest id.
- Admins.CreateAdminWithInvite: the invite token is stored hashed but never compared, as in the source (see `InviteTokenNotChecked`).
- auth.rs duplicates the merchant functions of jwt.rs line for line. It is covered by the `Jwt` merchant members.

## Findings

| source | as written | input that shows it | evidently intended | confidence | as-written member | corrected member |
|---|---|---|---|---|---|---|
| src/db/migrations/payments/inserts_and_updates.rs:1-7 | `ADD_PAYMENT` inserts six columns and omits `time`, which src/db/migrations/payments/create_payments_table.rs:10 declares NOT NULL without a default | any settlement, e.g. amount 1 with a new hash | supply the settlement time | not executed | PaymentStore.AddPaymentAsWrittenNeverInserts | PaymentStore.SettleTwiceRefused |
| src/core/sol/sol.rs:213-222 | `program_ids()` has one entry per instruction but is indexed by the instruction's account-key index | the builder's own one-instruction message, whose token program sits at key index 4 or later | look the program up in the account keys | not executed | Solana.BuiltMessageProgramIdPanics | Solana.BuiltTransferMatches |
| src/core/sol/sol.rs:232-240 | an account index rendered with `to_string` is parsed as a base-58 public key | index 0, rendered as "0" | read the key at that index | not executed | Solana.AccountIndexNeverParses | Solana.BuiltTransferMatches |
| src/core/sol/sol.rs:161-168 | the mint passed to validation is the pending row's asset ticker; the mint the network lookup returns at lines 117-119 is discarded | a pending payment for "USDC" | compare against the looked-up mint address | not executed | Solana.TickerMintNeverSettles | Solana.BuiltTransactionValidates |
| src/mq/mq.rs:96-119 | after a settled payment the delivery is acked twice; after a failed one it is nacked and then acked | any decodable delivery | answer each delivery once | not executed | Queue.AnsweredOnceOnlyOnEarlyExit | Queue.AnsweredExactlyOnce |
| src/merchant/merchant.rs:93-113 | the merchant's username is bound to `WHERE id = $n` on an integer column | any username, e.g. "alice" | select the row by username | not executed | Merchants.WhereIdNeverUpdates | Merchants.AddNetworkThenUpdateAddress |
| src/db/migrations/merchants/insert_and_update_merchants.rs:89-103 | removing a chain's last ticker makes the aggregate NULL, and `jsonb_set` with NULL nulls the whole column | a merchant whose chain 1 accepts only "USDC", removing "usdc" | leave an empty list for that chain | not executed | Merchants.RemovingLastTickerErasesAll | Merchants.AddThenRemove |
| src/db/migrations/payments/select_queries.rs:9-13 | `GET_PENDING_PAYMENT` selects seven columns, but src/types/types.rs:227-237 decodes into `PendingPayment`, whose derived `FromRow` also needs `webhook_url`; src/core/sol/sol.rs:108-112 turns the failure into a database error | any pending payment, e.g. id 1 just created by `create_payment_transaction` | select `webhook_url` as well | not executed | Solana.AsWrittenVerifierNeverSettles | Solana.CompleteSelectSettles |

=== FILE: abi.dfy ===
/** The one contract call the EVM side makes: ERC-20 `transfer(address,
    uint256)`, encoded per the Solidity Contract ABI Specification
    ("Function Selector and Argument Encoding"): a 4-byte selector, then one
    32-byte word per argument. Also 20-byte addresses and their hex text. */
module Abi {
  import opened Wrappers
  import opened Hex
  import opened Bytes
  import Text

  const ADDRESS_BYTES: nat := 20
  const WORD_BYTES: nat := 32

  /** A 20-byte account address. */
  type Address = a: seq<Byte> | |a| == ADDRESS_BYTES witness seq(20, _ => 0)

  /** The first four bytes of keccak256("transfer(address,uint256)"). */
  const TRANSFER_SELECTOR: seq<Byte> := [0xa9, 0x05, 0x9c, 0xbb]

  const U256_LIMIT: nat := Pow256(32)

  /** An address argument: left-padded with zeros to a word. */
  function AddressWord(a: Address): (w: seq<Byte>)
    ensures |w| == WORD_BYTES && w[12..] == a
  {
    seq(12, _ => 0) + a
  }

  /** `IERC20::transferCall { to, value }.abi_encode()`. */
  function EncodeTransfer(to: Address, value: nat): (data: seq<Byte>)
    requires value < U256_LIMIT
    ensures |data| == 4 + 2 * WORD_BYTES
    ensures data[..4] == TRANSFER_SELECTOR
  {
    TRANSFER_SELECTOR + AddressWord(to) + BigEndian(value, WORD_BYTES)
  }

  /** The inverse of `EncodeTransfer`: exactly 68 bytes, the transfer
      selector, a zero-padded address word and a value word. */
  function DecodeTransfer(data: seq<Byte>): (r: Option<(Address, nat)>)
    ensures r.Some? ==> |data| == 4 + 2 * WORD_BYTES && data[..4] == TRANSFER_SELECTOR && r.value.1 < U256_LIMIT
  {
    if |data| == 4 + 2 * WORD_BYTES && data[..4] == TRANSFER_SELECTOR && data[4..16] == seq(12, _ => 0)
    then Some((data[16..36], FromBigEndian(data[36..68])))
    else None
  }

  lemma DecodeEncode(to: Address, value: nat)
    requires value < U256_LIMIT
    ensures DecodeTransfer(EncodeTransfer(to, value)) == Some((to, value))
  {
    var data := EncodeTransfer(to, value);
    assert data[4..16] == seq(12, _ => 0);
    assert data[16..36] == to;
    assert data[36..68] == BigEndian(value, WORD_BYTES);
    BigEndianRoundTrip(value, WORD_BYTES);
  }

  /** Equal call data means equal recipient and amount, so matching the
      expected call data pins down both. */
  lemma EncodeTransferInjective(to1: Address, value1: nat, to2: Address, value2: nat)
    requires value1 < U256_LIMIT && value2 < U256_LIMIT
    requires EncodeTransfer(to1, value1) == EncodeTransfer(to2, value2)
    ensures to1 == to2 && value1 == value2
  {
    DecodeEncode(to1, value1);
    DecodeEncode(to2, value2);
  }

  /** The text after an optional `0x` prefix. */
  function AddressDigits(s: string): string {
    if Text.StartsWith(s, "0x") then s[2..] else s
  }

  /** `Address::from_str`: an optional `0x`, then exactly 40 hex digits of
      either case. No checksum is checked. */
  function ParseAddress(s: string): (r: Option<Address>)
    ensures r.Some? <==> |AddressDigits(s)| == 2 * ADDRESS_BYTES && forall i :: 0 <= i < |AddressDigits(s)| ==> IsHexDigit(AddressDigits(s)[i])
    ensures r.Some? ==> Hex.Decode(AddressDigits(s)) == Some(r.value)
  {
    var digits := AddressDigits(s);
    DecodeAccepts(digits);
    if |digits| != 2 * ADDRESS_BYTES then None
    else match Hex.Decode(digits)
      case None => None
      case Some(bytes) => Some(bytes)
  }

  /** Rendering an address and parsing it back gives the address, with or
      without the prefix. */
  lemma ParseRendered(a: Address)
    ensures ParseAddress("0x" + Hex.Encode(a)) == Some(a)
    ensures ParseAddress(Hex.Encode(a)) == Some(a)
  {
    EncodeDecode(a);
    DecodeAccepts(Hex.Encode(a));
    var s := "0x" + Hex.Encode(a);
    assert s[2..] == Hex.Encode(a);
    assert !IsLowerHexDigit('x');
    assert AddressDigits(Hex.Encode(a)) == Hex.Encode(a);
  }
}

=== FILE: admins.dfy ===
/** Administrators: the first (super) admin, invitations for further admins,
    and the two-step login of password then one-time code by e-mail.
    Invitations and one-time codes are single-use records keyed by e-mail
    and expire strictly after their deadline. Instants are whole seconds;
    password hashing, its check, the random draws, the mail transport and
    the environment are parameters. */
module Admins {
  import opened Wrappers
  import opened Text
  import opened Errors
  import Jwt

  /** How long an invitation and a one-time code stay usable, in seconds. */
  const TEN_MINUTES: int := 600

  // ---------------------------------------------------------------------
  // The tables
  // ---------------------------------------------------------------------

  datatype Admin = Admin(email: string, username: string, passwordHash: string, isSuperAdmin: bool)

  /** An `admin_invites` row; `token` holds the hash of the invitation token. */
  datatype Invite = Invite(id: int, token: string, expiresAt: int)

  /** An `admin_otps` row. */
  datatype OtpRecord = OtpRecord(id: int, otpHash: string, expiresAt: int)

  /** `admins` by id; `admin_invites` and `admin_otps` by their UNIQUE e-mail. */
  datatype AdminStore = AdminStore(admins: map<int, Admin>, invites: map<string, Invite>, otps: map<string, OtpRecord>,
                                   nextAdminId: int, nextInviteId: int, nextOtpId: int)

  predicate Valid(s: AdminStore) {
    && 1 <= s.nextAdminId && 1 <= s.nextInviteId && 1 <= s.nextOtpId
    && (forall id :: id in s.admins ==> 1 <= id < s.nextAdminId)
    && (forall a, b :: a in s.admins && b in s.admins && a != b ==> s.admins[a].email != s.admins[b].email)
    && (forall a, b :: a in s.admins && b in s.admins && a != b ==> s.admins[a].username != s.admins[b].username)
  }

  /** bcrypt as the code uses it: `hash` may fail, and `verify` checks a
      plain text against a stored hash, or fails on a malformed hash. */
  datatype Hasher = Hasher(hash: string -> Result<string, string>, verify: (string, string) -> Result<bool, string>)

  /** A hash the hasher produced verifies against its own plain text. */
  ghost predicate Sound(h: Hasher) {
    forall p, ph :: h.hash(p) == Ok(ph) ==> h.verify(p, ph) == Ok(true)
  }

  /** `hash_password`. */
  function HashPassword(h: Hasher, plain: string): (r: Result<string, StabuseError>)
    ensures r.Ok? <==> h.hash(plain).Ok?
    ensures r.Ok? ==> r.value == h.hash(plain).value
  {
    h.hash(plain).MapErr(detail => HashError(detail))
  }

  // ---------------------------------------------------------------------
  // The first admin
  // ---------------------------------------------------------------------

  /** `create_super_admin`: refused once any admin exists; otherwise the
      password is hashed and a super admin inserted under a fresh id. */
  function CreateSuperAdmin(s: AdminStore, email: string, username: string, password: string, h: Hasher)
    : (out: (AdminStore, Result<int, StabuseError>))
    ensures Valid(s) ==> Valid(out.0)
    ensures |s.admins| > 0 ==>
      out == (s, Err(Forbidden("Admin already exists. Use an invite to create more admins.")))
    ensures out.1.Ok? <==> |s.admins| == 0 && h.hash(password).Ok?
    ensures out.1.Err? ==> out.0 == s
    ensures out.1.Ok? ==>
      && out.1.value == s.nextAdminId
      && out.0 == s.(admins := map[s.nextAdminId := Admin(email, username, h.hash(password).value, true)],
                     nextAdminId := s.nextAdminId + 1)
  {
    if |s.admins| > 0 then (s, Err(Forbidden("Admin already exists. Use an invite to create more admins.")))
    else match HashPassword(h, password)
      case Err(e) => (s, Err(e))
      case Ok(passwordHash) =>
        (s.(admins := s.admins[s.nextAdminId := Admin(email, username, passwordHash, true)],
            nextAdminId := s.nextAdminId + 1),
         Ok(s.nextAdminId))
  }

  /** Only the first admin can be created this way: a second attempt is
      refused and changes nothing. */
  lemma SecondSuperAdminForbidden(s: AdminStore, e1: string, u1: string, p1: string,
                                  e2: string, u2: string, p2: string, h: Hasher)
    requires CreateSuperAdmin(s, e1, u1, p1, h).1.Ok?
    ensures var first := CreateSuperAdmin(s, e1, u1, p1, h).0;
      && first.admins[s.nextAdminId].isSuperAdmin
      && CreateSuperAdmin(first, e2, u2, p2, h) == (first, Err(Forbidden("Admin already exists. Use an invite to create more admins.")))
  {
    var first := CreateSuperAdmin(s, e1, u1, p1, h).0;
    assert s.nextAdminId in first.admins;
  }

  // ---------------------------------------------------------------------
  // Invitations
  // ---------------------------------------------------------------------

  /** `generate_admin_invite`: the token (a fresh random UUID, passed in) is
      hashed and stored for the e-mail with a deadline ten minutes on. The
      e-mail column is unique, so a second invitation for an e-mail that
      still has one is refused; the SERIAL id drawn for the refused row is
      used up all the same. */
  function GenerateAdminInvite(s: AdminStore, email: string, token: string, h: Hasher, now: int)
    : (out: (AdminStore, Result<int, StabuseError>))
    ensures Valid(s) ==> Valid(out.0)
    ensures out.1.Ok? <==> h.hash(token).Ok? && email !in s.invites
    ensures h.hash(token).Err? ==> out.0 == s
    ensures h.hash(token).Ok? && email in s.invites ==>
      out == (s.(nextInviteId := s.nextInviteId + 1), Err(DatabaseError(DuplicateKey("admin_invites_email_key"))))
    ensures out.1.Ok? ==>
      && out.1.value == s.nextInviteId
      && out.0 == s.(invites := s.invites[email := Invite(s.nextInviteId, h.hash(token).value, now + TEN_MINUTES)],
                     nextInviteId := s.nextInviteId + 1)
  {
    match HashPassword(h, token)
    case Err(e) => (s, Err(e))
    case Ok(tokenHash) =>
      if email in s.invites then (s.(nextInviteId := s.nextInviteId + 1), Err(DatabaseError(DuplicateKey("admin_invites_email_key"))))
      else
        (s.(invites := s.invites[email := Invite(s.nextInviteId, tokenHash, now + TEN_MINUTES)],
            nextInviteId := s.nextInviteId + 1),
         Ok(s.nextInviteId))
  }

  /** `create_admin_with_invite`: the invitation for the e-mail must exist
      and not be past its deadline (an expired one is deleted); the new
      admin, never a super admin, gets the invitation's e-mail, and the
      invitation is then deleted. The invitation's token is not consulted.
      An insert refused by the unique e-mail or username index has drawn
      its SERIAL id already, and the invitation stays. */
  function CreateAdminWithInvite(s: AdminStore, email: string, username: string, password: string, h: Hasher, now: int)
    : (out: (AdminStore, Result<int, StabuseError>))
    ensures Valid(s) ==> Valid(out.0)
    ensures email !in s.invites ==> out == (s, Err(InvalidCredentials("No invite for this email")))
    ensures email in s.invites && now > s.invites[email].expiresAt ==>
      out == (s.(invites := s.invites - {email}), Err(Unauthorized("Invite has expired")))
    ensures out.1.Ok? <==>
      && email in s.invites && now <= s.invites[email].expiresAt
      && h.hash(password).Ok?
      && (forall id :: id in s.admins ==> s.admins[id].email != email && s.admins[id].username != username)
    ensures out.1.Ok? ==>
      && out.1.value == s.nextAdminId
      && out.0 == s.(admins := s.admins[s.nextAdminId := Admin(email, username, h.hash(password).value, false)],
                     invites := s.invites - {email},
                     nextAdminId := s.nextAdminId + 1)
    ensures out.1.Err? ==> out.0.admins == s.admins && out.0.otps == s.otps
    ensures email in s.invites && now <= s.invites[email].expiresAt && h.hash(password).Err? ==> out.0 == s
    ensures email in s.invites && now <= s.invites[email].expiresAt && h.hash(password).Ok?
            && (exists id :: id in s.admins && s.admins[id].email == email) ==>
      out == (s.(nextAdminId := s.nextAdminId + 1), Err(DatabaseError(DuplicateKey("admins_email_key"))))
    ensures email in s.invites && now <= s.invites[email].expiresAt && h.hash(password).Ok?
            && (forall id :: id in s.admins ==> s.admins[id].email != email)
            && (exists id :: id in s.admins && s.admins[id].username == username) ==>
      out == (s.(nextAdminId := s.nextAdminId + 1), Err(DatabaseError(DuplicateKey("admins_username_key"))))
  {
    if email !in s.invites then (s, Err(InvalidCredentials("No invite for this email")))
    else if now > s.invites[email].expiresAt then
      (s.(invites := s.invites - {email}), Err(Unauthorized("Invite has expired")))
    else match HashPassword(h, password)
      case Err(e) => (s, Err(e))
      case Ok(passwordHash) => InsertInvitedAdmin(s, email, username, passwordHash)
  }

  /** The insert of `create_admin_with_invite` and the invitation's deletion
      after it: the unique e-mail index is consulted before the username
      one, and either refusal keeps the invitation but uses up the id. */
  function InsertInvitedAdmin(s: AdminStore, email: string, username: string, passwordHash: string)
    : (out: (AdminStore, Result<int, StabuseError>))
    ensures Valid(s) ==> Valid(out.0)
    ensures out.0.otps == s.otps && out.0.nextAdminId == s.nextAdminId + 1
    ensures out.1.Ok? <==> forall id :: id in s.admins ==> s.admins[id].email != email && s.admins[id].username != username
    ensures out.1.Ok? ==>
      out == (s.(admins := s.admins[s.nextAdminId := Admin(email, username, passwordHash, false)],
                 invites := s.invites - {email},
                 nextAdminId := s.nextAdminId + 1),
              Ok(s.nextAdminId))
    ensures (exists id :: id in s.admins && s.admins[id].email == email) ==>
      out == (s.(nextAdminId := s.nextAdminId + 1), Err(DatabaseError(DuplicateKey("admins_email_key"))))
    ensures (forall id :: id in s.admins ==> s.admins[id].email != email)
            && (exists id :: id in s.admins && s.admins[id].username == username) ==>
      out == (s.(nextAdminId := s.nextAdminId + 1), Err(DatabaseError(DuplicateKey("admins_username_key"))))
  {
    if exists id :: id in s.admins && s.admins[id].email == email then
      (s.(nextAdminId := s.nextAdminId + 1), Err(DatabaseError(DuplicateKey("admins_email_key"))))
    else if exists id :: id in s.admins && s.admins[id].username == username then
      (s.(nextAdminId := s.nextAdminId + 1), Err(DatabaseError(DuplicateKey("admins_username_key"))))
    else
      (s.(admins := s.admins[s.nextAdminId := Admin(email, username, passwordHash, false)],
          invites := s.invites - {email},
          nextAdminId := s.nextAdminId + 1),
       Ok(s.nextAdminId))
  }

  /** An invitation is accepted up to and including its deadline, and only
      once: accepting it again finds no invitation. */
  lemma InviteAcceptedOnce(s: AdminStore, email: string, token: string, username: string, password: string,
                           h: Hasher, issued: int, now: int)
    requires Valid(s)
    requires GenerateAdminInvite(s, email, token, h, issued).1.Ok?
    requires now <= issued + TEN_MINUTES
    requires h.hash(password).Ok?
    requires forall id :: id in s.admins ==> s.admins[id].email != email && s.admins[id].username != username
    ensures var invited := GenerateAdminInvite(s, email, token, h, issued).0;
      var accepted := CreateAdminWithInvite(invited, email, username, password, h, now);
      && accepted.1.Ok?
      && !accepted.0.admins[accepted.1.value].isSuperAdmin
      && accepted.0.admins[accepted.1.value].email == email
      && email !in accepted.0.invites
      && CreateAdminWithInvite(accepted.0, email, username, password, h, now).1
         == Err(InvalidCredentials("No invite for this email"))
  {
    var invited := GenerateAdminInvite(s, email, token, h, issued).0;
    assert invited.invites[email].expiresAt == issued + TEN_MINUTES;
    var accepted := CreateAdminWithInvite(invited, email, username, password, h, now);
    assert accepted.1.value in accepted.0.admins;
  }

  /** Past its deadline an invitation is deleted and no admin is created. */
  lemma ExpiredInviteDeleted(s: AdminStore, email: string, token: string, username: string, password: string,
                             h: Hasher, issued: int, now: int)
    requires GenerateAdminInvite(s, email, token, h, issued).1.Ok?
    requires now > issued + TEN_MINUTES
    ensures var invited := GenerateAdminInvite(s, email, token, h, issued).0;
      var accepted := CreateAdminWithInvite(invited, email, username, password, h, now);
      && accepted.1 == Err(Unauthorized("Invite has expired"))
      && accepted.0.admins == s.admins
      && email !in accepted.0.invites
      && accepted.0.invites == s.invites
  {
    var invited := GenerateAdminInvite(s, email, token, h, issued).0;
    assert invited.invites - {email} == s.invites;
  }

  /** Acceptance depends only on the e-mail and the deadline: two
      invitations that differ in their token and id are accepted alike. */
  lemma InviteTokenNotChecked(s: AdminStore, email: string, username: string, password: string, h: Hasher, now: int,
                              other: Invite)
    requires email in s.invites && other.expiresAt == s.invites[email].expiresAt
    ensures var forged := s.(invites := s.invites[email := other]);
      && CreateAdminWithInvite(forged, email, username, password, h, now).1
         == CreateAdminWithInvite(s, email, username, password, h, now).1
      && CreateAdminWithInvite(forged, email, username, password, h, now).0.admins
         == CreateAdminWithInvite(s, email, username, password, h, now).0.admins
  {
    var forged := s.(invites := s.invites[email := other]);
    assert forged.invites - {email} == s.invites - {email};
  }

  // ---------------------------------------------------------------------
  // One-time codes
  // ---------------------------------------------------------------------

  /** `generate_otp`: `gen_range(100000..999999)` maps a random draw onto the
      half-open range; the code is its decimal text. */
  function GenerateOtp(draw: nat): (otp: string)
    ensures |otp| == 6 && AllDigits(otp)
    ensures 100000 <= DigitsValue(otp) < 999999
  {
    var n := 100000 + draw % 899999;
    assert Pow10(5) == 100000 && Pow10(6) == 1000000;
    DecimalTextLength(n, 6);
    DecimalRoundTrip(n);
    DecimalText(n)
  }

  /** The mail transport of `send_otp`. `configured` is
      `EmailConfig::from_env` (the name of a missing variable's error on
      failure); `send` stands for everything from the TLS parameters to the
      SMTP delivery, given the recipient and the body. */
  datatype Mailer = Mailer(configured: Result<(), string>, send: (string, string) -> Result<(), StabuseError>)

  function OtpMailBody(otp: string): string {
    "Your OTP is: " + otp + "\nThis OTP is valid for 10 minutes."
  }

  /** `send_otp`: the code's hash is stored with a deadline ten minutes on
      before any mail is attempted, so a failed delivery still leaves the
      record. The e-mail column is unique; a refused insert still uses up
      the SERIAL id it drew. */
  function SendOtp(s: AdminStore, email: string, draw: nat, h: Hasher, mail: Mailer, now: int)
    : (out: (AdminStore, Result<(), StabuseError>))
    ensures Valid(s) ==> Valid(out.0)
    ensures var otp := GenerateOtp(draw);
      && (out.0.otps != s.otps <==> h.hash(otp).Ok? && email !in s.otps)
      && (out.0.otps != s.otps ==>
           out.0 == s.(otps := s.otps[email := OtpRecord(s.nextOtpId, h.hash(otp).value, now + TEN_MINUTES)],
                       nextOtpId := s.nextOtpId + 1))
      && (out.1.Ok? <==> out.0.otps != s.otps && mail.send(email, OtpMailBody(otp)).Ok?)
      && (out.0.otps != s.otps && mail.send(email, OtpMailBody(otp)).Err? ==> out.1 == Err(mail.send(email, OtpMailBody(otp)).error))
      && (h.hash(otp).Ok? && email in s.otps ==>
           out == (s.(nextOtpId := s.nextOtpId + 1), Err(DatabaseError(DuplicateKey("admin_otps_email_key")))))
      && (h.hash(otp).Err? ==> out.0 == s)
  {
    var otp := GenerateOtp(draw);
    match HashPassword(h, otp)
    case Err(e) => (s, Err(e))
    case Ok(otpHash) =>
      if email in s.otps then (s.(nextOtpId := s.nextOtpId + 1), Err(DatabaseError(DuplicateKey("admin_otps_email_key"))))
      else
        var stored := s.(otps := s.otps[email := OtpRecord(s.nextOtpId, otpHash, now + TEN_MINUTES)],
                         nextOtpId := s.nextOtpId + 1);
        assert email in stored.otps;
        match mail.send(email, OtpMailBody(otp))
        case Err(e) => (stored, Err(e))
        case Ok(_) => (stored, Ok(()))
  }

  /** `verify_otp`: no record is refused; a record past its deadline is
      deleted and refused whatever code was supplied; a wrong code is
      refused and the record kept; the right code deletes the record. */
  function VerifyOtp(s: AdminStore, email: string, otp: string, h: Hasher, now: int)
    : (out: (AdminStore, Result<(), StabuseError>))
    ensures Valid(s) ==> Valid(out.0)
    ensures email !in s.otps ==> out == (s, Err(InvalidData("OTP record not found")))
    ensures email in s.otps && now > s.otps[email].expiresAt ==>
      out == (s.(otps := s.otps - {email}), Err(InvalidData("OTP has expired")))
    ensures email in s.otps && now <= s.otps[email].expiresAt && h.verify(otp, s.otps[email].otpHash) == Ok(false) ==>
      out == (s, Err(InvalidData("Invalid OTP")))
    ensures out.1.Ok? <==>
      email in s.otps && now <= s.otps[email].expiresAt && h.verify(otp, s.otps[email].otpHash) == Ok(true)
    ensures out.1.Ok? ==> out.0 == s.(otps := s.otps - {email})
    ensures out.0.admins == s.admins && out.0.invites == s.invites
  {
    if email !in s.otps then (s, Err(InvalidData("OTP record not found")))
    else
      var record := s.otps[email];
      if now > record.expiresAt then (s.(otps := s.otps - {email}), Err(InvalidData("OTP has expired")))
      else match h.verify(otp, record.otpHash)
        case Err(detail) => (s, Err(HashError(detail)))
        case Ok(matches) =>
          if !matches then (s, Err(InvalidData("Invalid OTP")))
          else (s.(otps := s.otps - {email}), Ok(()))
  }

  /** A code that was mailed verifies once within ten minutes; a second use
      finds no record. */
  lemma OtpSingleUse(s: AdminStore, email: string, draw: nat, h: Hasher, mail: Mailer, issued: int, now: int)
    requires Sound(h)
    requires SendOtp(s, email, draw, h, mail, issued).0.otps != s.otps
    requires issued <= now <= issued + TEN_MINUTES
    ensures var sent := SendOtp(s, email, draw, h, mail, issued).0;
      var first := VerifyOtp(sent, email, GenerateOtp(draw), h, now);
      && first.1.Ok?
      && email !in first.0.otps
      && VerifyOtp(first.0, email, GenerateOtp(draw), h, now) == (first.0, Err(InvalidData("OTP record not found")))
  {
    var sent := SendOtp(s, email, draw, h, mail, issued).0;
    var otp := GenerateOtp(draw);
    assert sent.otps[email].otpHash == h.hash(otp).value;
    assert h.verify(otp, sent.otps[email].otpHash) == Ok(true);
  }

  /** After the deadline the outcome does not depend on the code supplied. */
  lemma ExpiredOtpIgnoresCode(s: AdminStore, email: string, a: string, b: string, h: Hasher, now: int)
    requires email in s.otps && now > s.otps[email].expiresAt
    ensures VerifyOtp(s, email, a, h, now) == VerifyOtp(s, email, b, h, now)
    ensures email !in VerifyOtp(s, email, a, h, now).0.otps
  {
  }

  // ---------------------------------------------------------------------
  // Login
  // ---------------------------------------------------------------------

  /** `LOGIN_ATTEMPT`'s condition: the text is the admin's username or e-mail. */
  predicate Identifies(a: Admin, who: string) {
    a.username == who || a.email == who
  }

  /** The first matching admin in id order, searching ids in [from, upto). */
  function FindLogin(admins: map<int, Admin>, who: string, from: int, upto: int): (r: Option<int>)
    ensures r.Some? ==> from <= r.value < upto && r.value in admins && Identifies(admins[r.value], who)
    ensures r.Some? ==> forall id :: from <= id < r.value && id in admins ==> !Identifies(admins[id], who)
    ensures r.None? <==> forall id :: from <= id < upto && id in admins ==> !Identifies(admins[id], who)
    decreases upto - from
  {
    if from >= upto then None
    else if from in admins && Identifies(admins[from], who) then Some(from)
    else FindLogin(admins, who, from + 1, upto)
  }

  /** `admin_login_request`: the admin named by username or e-mail must
      exist and the password must match its hash; then, with the mail
      settings present, a one-time code is sent to the admin's e-mail and
      the admin's e-mail and username are returned. */
  function AdminLoginRequest(s: AdminStore, who: string, password: string, h: Hasher, mail: Mailer, draw: nat, now: int)
    : (out: (AdminStore, Result<(string, string), StabuseError>))
    requires Valid(s)
    ensures Valid(out.0)
    ensures (forall id :: id in s.admins ==> !Identifies(s.admins[id], who)) ==>
      out == (s, Err(InvalidCredentials("Admin doesnt exist")))
    ensures out.1.Ok? ==>
      var id := FindLogin(s.admins, who, 1, s.nextAdminId).value;
      && Identifies(s.admins[id], who)
      && h.verify(password, s.admins[id].passwordHash) == Ok(true)
      && mail.configured.Ok?
      && out.1.value == (s.admins[id].email, s.admins[id].username)
      && out.0 == SendOtp(s, s.admins[id].email, draw, h, mail, now).0
      && SendOtp(s, s.admins[id].email, draw, h, mail, now).1.Ok?
    ensures out.0.admins == s.admins && out.0.invites == s.invites
  {
    match FindLogin(s.admins, who, 1, s.nextAdminId)
    case None => (s, Err(InvalidCredentials("Admin doesnt exist")))
    case Some(id) =>
      var admin := s.admins[id];
      match h.verify(password, admin.passwordHash)
      case Err(detail) => (s, Err(HashError(detail)))
      case Ok(matches) =>
        if !matches then (s, Err(InvalidCredentials("Incorrect Password")))
        else if mail.configured.Err? then (s, Err(EnvError(mail.configured.error)))
        else
          var sent := SendOtp(s, admin.email, draw, h, mail, now);
          match sent.1
          case Err(e) => (sent.0, Err(e))
          case Ok(_) => (sent.0, Ok((admin.email, admin.username)))
  }

  /** When one admin has the text as username or e-mail, that admin is the
      one whose password is checked; a wrong password is refused with
      nothing changed. */
  lemma WrongPasswordRefused(s: AdminStore, id: int, who: string, password: string, h: Hasher, mail: Mailer, draw: nat, now: int)
    requires Valid(s)
    requires id in s.admins && Identifies(s.admins[id], who)
    requires forall other :: other in s.admins && other != id ==> !Identifies(s.admins[other], who)
    requires h.verify(password, s.admins[id].passwordHash) == Ok(false)
    ensures AdminLoginRequest(s, who, password, h, mail, draw, now) == (s, Err(InvalidCredentials("Incorrect Password")))
  {
    assert FindLogin(s.admins, who, 1, s.nextAdminId) == Some(id);
  }

  /** The converse: the lowest-numbered admin the text names, a matching
      password, the mail settings present, no code outstanding for that
      admin's e-mail, and a code that hashes and mails: then the login
      succeeds with the admin's e-mail and username, and exactly one code
      record is stored. */
  lemma LoginSendsCode(s: AdminStore, id: int, who: string, password: string, h: Hasher, mail: Mailer, draw: nat, now: int)
    requires Valid(s)
    requires id in s.admins && Identifies(s.admins[id], who)
    requires forall other :: other in s.admins && other < id ==> !Identifies(s.admins[other], who)
    requires h.verify(password, s.admins[id].passwordHash) == Ok(true)
    requires mail.configured.Ok?
    requires s.admins[id].email !in s.otps
    requires h.hash(GenerateOtp(draw)).Ok?
    requires mail.send(s.admins[id].email, OtpMailBody(GenerateOtp(draw))).Ok?
    ensures var out := AdminLoginRequest(s, who, password, h, mail, draw, now);
      && out.1 == Ok((s.admins[id].email, s.admins[id].username))
      && out.0 == s.(otps := s.otps[s.admins[id].email := OtpRecord(s.nextOtpId, h.hash(GenerateOtp(draw)).value, now + TEN_MINUTES)],
                     nextOtpId := s.nextOtpId + 1)
  {
    var found := FindLogin(s.admins, who, 1, s.nextAdminId);
    assert found.Some?;
    assert found == Some(id);
  }

  /** While a code is outstanding for the admin, a second login cannot store
      another: the e-mail already has a record. At most the refused insert's
      SERIAL id is used up. */
  lemma SecondLoginRefusedWhileCodePending(s: AdminStore, who: string, password: string, h: Hasher, mail: Mailer,
                                           draw: nat, now: int)
    requires Valid(s)
    requires (forall id :: id in s.admins && Identifies(s.admins[id], who) ==> s.admins[id].email in s.otps)
    ensures AdminLoginRequest(s, who, password, h, mail, draw, now).1.Err?
    ensures AdminLoginRequest(s, who, password, h, mail, draw, now).0 == s
         || AdminLoginRequest(s, who, password, h, mail, draw, now).0 == s.(nextOtpId := s.nextOtpId + 1)
  {
  }

  /** A JWT whose outcome may also be a panic: `JWT_SECRET` is read with
      `expect`. */
  datatype Outcome<T> = Returned(result: Result<T, StabuseError>) | Panicked(message: string)

  /** `verify_otp_and_login`: the code is checked first; only then is the
      secret read and an admin token issued for the given e-mail and
      username. */
  function VerifyOtpAndLogin(s: AdminStore, email: string, username: string, otp: string, h: Hasher, now: int,
                             secret: Option<string>, clock: Jwt.Clock, signer: Jwt.Signer<Jwt.AdminClaims>)
    : (out: (AdminStore, Outcome<string>))
    ensures out.0 == VerifyOtp(s, email, otp, h, now).0
    ensures VerifyOtp(s, email, otp, h, now).1.Err? ==> out.1 == Returned(Err(VerifyOtp(s, email, otp, h, now).1.error))
    ensures VerifyOtp(s, email, otp, h, now).1.Ok? && secret.None? ==> out.1 == Panicked("JWT_SECRET not set: NotPresent")
    ensures out.1.Returned? && out.1.result.Ok? ==>
      && VerifyOtp(s, email, otp, h, now).1.Ok?
      && secret.Some?
      && out.1.result == Jwt.GenerateAdminJwt(email, username, secret.value, clock, signer)
  {
    var verified := VerifyOtp(s, email, otp, h, now);
    match verified.1
    case Err(e) => (verified.0, Returned(Err(e)))
    case Ok(_) =>
      match secret
      case None => (verified.0, Panicked("JWT_SECRET not set: NotPresent"))
      case Some(key) => (verified.0, Returned(Jwt.GenerateAdminJwt(email, username, key, clock, signer)))
  }

  /** Password, then code, then token: an admin who logs in and returns the
      mailed code within ten minutes is issued a token naming the admin's
      e-mail, and the code is spent. */
  lemma LoginThenVerifyIssuesToken(s: AdminStore, who: string, password: string, h: Hasher, mail: Mailer, draw: nat,
                                   issued: int, now: int, secret: string, clock: Jwt.Clock,
                                   signer: Jwt.Signer<Jwt.AdminClaims>)
    requires Valid(s) && Sound(h)
    requires AdminLoginRequest(s, who, password, h, mail, draw, issued).1.Ok?
    requires issued <= now <= issued + TEN_MINUTES
    ensures var login := AdminLoginRequest(s, who, password, h, mail, draw, issued);
      var (email, username) := login.1.value;
      var verified := VerifyOtpAndLogin(login.0, email, username, GenerateOtp(draw), h, now, Some(secret), clock, signer);
      && verified.1 == Returned(Jwt.GenerateAdminJwt(email, username, secret, clock, signer))
      && email !in verified.0.otps
  {
    var login := AdminLoginRequest(s, who, password, h, mail, draw, issued);
    var email := login.1.value.0;
    OtpSingleUse(s, email, draw, h, mail, issued, now);
  }
}

=== FILE: bytes.dfy ===
/** Fixed-width unsigned integers as byte strings: little-endian for the
    SPL Token instruction layout, big-endian for Solidity ABI words. */
module Bytes {
  import opened Hex

  function Pow256(k: nat): (p: nat)
    ensures p >= 1
  {
    if k == 0 then 1 else 256 * Pow256(k - 1)
  }

  lemma {:induction false} Pow256Monotone(a: nat, b: nat)
    requires a <= b
    ensures Pow256(a) <= Pow256(b)
    decreases b
  {
    if a < b {
      Pow256Monotone(a, b - 1);
    }
  }

  /** The `width` least significant bytes of `n`, lowest first. */
  function LittleEndian(n: nat, width: nat): (bs: seq<Byte>)
    ensures |bs| == width
  {
    if width == 0 then [] else [n % 256] + LittleEndian(n / 256, width - 1)
  }

  function FromLittleEndian(bs: seq<Byte>): (n: nat)
    ensures n < Pow256(|bs|)
  {
    if |bs| == 0 then 0 else bs[0] + 256 * FromLittleEndian(bs[1..])
  }

  /** Little-endian encoding loses nothing for a value that fits. */
  lemma {:induction false} LittleEndianRoundTrip(n: nat, width: nat)
    requires n < Pow256(width)
    ensures FromLittleEndian(LittleEndian(n, width)) == n
  {
    if width > 0 {
      LittleEndianRoundTrip(n / 256, width - 1);
      assert LittleEndian(n, width)[1..] == LittleEndian(n / 256, width - 1);
    }
  }

  /** The `width` least significant bytes of `n`, most significant first. */
  function BigEndian(n: nat, width: nat): (bs: seq<Byte>)
    ensures |bs| == width
  {
    if width == 0 then [] else BigEndian(n / 256, width - 1) + [n % 256]
  }

  function FromBigEndian(bs: seq<Byte>): (n: nat)
    ensures n < Pow256(|bs|)
  {
    if |bs| == 0 then 0 else 256 * FromBigEndian(bs[..|bs| - 1]) + bs[|bs| - 1]
  }

  lemma {:induction false} BigEndianRoundTrip(n: nat, width: nat)
    requires n < Pow256(width)
    ensures FromBigEndian(BigEndian(n, width)) == n
  {
    if width > 0 {
      BigEndianRoundTrip(n / 256, width - 1);
      var bs := BigEndian(n, width);
      assert bs[..|bs| - 1] == BigEndian(n / 256, width - 1);
    }
  }

  /** Two values that fit the width encode differently. */
  lemma BigEndianInjective(a: nat, b: nat, width: nat)
    requires a < Pow256(width) && b < Pow256(width)
    requires BigEndian(a, width) == BigEndian(b, width)
    ensures a == b
  {
    BigEndianRoundTrip(a, width);
    BigEndianRoundTrip(b, width);
  }
}

=== FILE: credentials.dfy ===
/** Signed bearer credentials: issuing merchant, admin and pending-payment
    tokens, verifying them, and the request guards that attach the verified
    claims to a request. Signing and signature checking are an opaque
    `Signer`; the expiry rule applied on decode is modelled explicitly (the
    `exp` check of section 4.1.4 of RFC 7519, with the library's default
    leeway of 60 seconds). */
module Jwt {
  import opened Wrappers
  import opened Errors

  /** Token lifetimes, in seconds. */
  const MERCHANT_LIFETIME: int := 24 * 3600
  const ADMIN_LIFETIME: int := 2 * 3600
  const PAYMENT_LIFETIME: int := 30 * 60

  /** Clock skew the default validation tolerates past `exp`, in seconds. */
  const LEEWAY: int := 60

  /** Merchant session claims: `sub` is the merchant id. */
  datatype Claims = Claims(sub: int, username: string, exp: int, iat: int)

  /** Admin session claims: `sub` is the admin's e-mail address. */
  datatype AdminClaims = AdminClaims(sub: string, username: string, exp: int, iat: int)

  /** Claims of a credential that lets a payer submit one pending payment. */
  datatype PaymentClaims = PaymentClaims(pendingPaymentId: int, network: string, rpc: string, exp: int, iat: int)

  /** An issuer reads the wall clock twice: once for the expiry, once for
      the issued-at time. */
  datatype Clock = Clock(expReading: int, iatReading: int)

  /** HS256 signing with a shared secret, for one claims type: `encode`
      yields the compact token or the library error's text; `decode` checks
      the signature and parses the claims, or yields the error's text. */
  datatype Signer<!C> = Signer(encode: (C, string) -> Result<string, string>,
                              decode: (string, string) -> Result<C, string>)

  /** Decoding a token the same signer issued under the same secret gives
      back the claims. */
  ghost predicate RoundTrips<C(!new)>(signer: Signer<C>) {
    forall c, secret :: signer.encode(c, secret).Ok? ==>
      signer.decode(signer.encode(c, secret).value, secret) == Ok(c)
  }

  /** A verification failure: an HTTP error with its status and message. */
  datatype Rejection = Rejection(status: int, message: string)

  // ---------------------------------------------------------------------
  // Expiry
  // ---------------------------------------------------------------------

  /** The default validation's expiry rule: a token is rejected once its
      `exp` lies more than the leeway in the past. */
  function CheckExpiry(exp: int, now: int): (r: Result<(), string>)
    ensures r.Ok? <==> now <= exp + LEEWAY
    ensures r.Err? ==> r.error == "ExpiredSignature"
  {
    if exp < now - LEEWAY then Err("ExpiredSignature") else Ok(())
  }

  /** The decode step shared by the three verifiers: signature and parsing
      by the signer, then the expiry rule; any failure is a 401 whose
      message is "Invalid token: " and the failure's text. */
  function Verify<C>(token: string, secret: string, now: int, signer: Signer<C>, exp: C -> int): (r: Result<C, Rejection>)
    ensures r.Ok? <==> signer.decode(token, secret).Ok? && now <= exp(signer.decode(token, secret).value) + LEEWAY
    ensures r.Ok? ==> r.value == signer.decode(token, secret).value
    ensures r.Err? ==> r.error.status == UNAUTHORIZED
    ensures signer.decode(token, secret).Err? ==> r == Err(Rejection(UNAUTHORIZED, "Invalid token: " + signer.decode(token, secret).error))
    ensures signer.decode(token, secret).Ok? && r.Err? ==> r.error.message == "Invalid token: ExpiredSignature"
  {
    match signer.decode(token, secret)
    case Err(e) => Err(Rejection(UNAUTHORIZED, "Invalid token: " + e))
    case Ok(claims) =>
      match CheckExpiry(exp(claims), now)
      case Err(e) => Err(Rejection(UNAUTHORIZED, "Invalid token: " + e))
      case Ok(_) => Ok(claims)
  }

  function ClaimsExp(c: Claims): int { c.exp }
  function AdminClaimsExp(c: AdminClaims): int { c.exp }
  function PaymentClaimsExp(c: PaymentClaims): int { c.exp }

  // ---------------------------------------------------------------------
  // Merchant sessions
  // ---------------------------------------------------------------------

  /** `generate_merchant_jwt`: claims expiring 24 hours after the first clock
      reading; an encoding failure is a `JWTError`. */
  function GenerateMerchantJwt(merchantId: int, username: string, secret: string, clock: Clock,
                               signer: Signer<Claims>): (r: Result<string, StabuseError>)
    ensures var c := Claims(merchantId, username, clock.expReading + MERCHANT_LIFETIME, clock.iatReading);
      && (r.Ok? <==> signer.encode(c, secret).Ok?)
      && (r.Ok? ==> r.value == signer.encode(c, secret).value)
      && (r.Err? ==> r.error == JWTError("Failed to create token: " + signer.encode(c, secret).error))
  {
    var claims := Claims(merchantId, username, clock.expReading + MERCHANT_LIFETIME, clock.iatReading);
    match signer.encode(claims, secret)
    case Ok(token) => Ok(token)
    case Err(e) => Err(JWTError("Failed to create token: " + e))
  }

  /** `verify_merchant_jwt`. */
  function VerifyMerchantJwt(token: string, secret: string, now: int, signer: Signer<Claims>): (r: Result<Claims, Rejection>)
    ensures r.Ok? <==> signer.decode(token, secret).Ok? && now <= signer.decode(token, secret).value.exp + LEEWAY
    ensures r.Ok? ==> r.value == signer.decode(token, secret).value
    ensures r.Err? ==> r.error.status == UNAUTHORIZED
  {
    Verify(token, secret, now, signer, ClaimsExp)
  }

  // ---------------------------------------------------------------------
  // Admin sessions
  // ---------------------------------------------------------------------

  /** `generate_admin_jwt`: claims naming the admin by e-mail, expiring two
      hours after the first clock reading. */
  function GenerateAdminJwt(email: string, username: string, secret: string, clock: Clock,
                            signer: Signer<AdminClaims>): (r: Result<string, StabuseError>)
    ensures var c := AdminClaims(email, username, clock.expReading + ADMIN_LIFETIME, clock.iatReading);
      && (r.Ok? <==> signer.encode(c, secret).Ok?)
      && (r.Ok? ==> r.value == signer.encode(c, secret).value)
      && (r.Err? ==> r.error == JWTError("Failed to generate JWT: " + signer.encode(c, secret).error))
  {
    var claims := AdminClaims(email, username, clock.expReading + ADMIN_LIFETIME, clock.iatReading);
    var token :- signer.encode(claims, secret).MapErr(e => JWTError("Failed to generate JWT: " + e));
    Ok(token)
  }

  /** `verify_admin_jwt`. */
  function VerifyAdminJwt(token: string, secret: string, now: int, signer: Signer<AdminClaims>): (r: Result<AdminClaims, Rejection>)
    ensures r.Ok? <==> signer.decode(token, secret).Ok? && now <= signer.decode(token, secret).value.exp + LEEWAY
    ensures r.Ok? ==> r.value == signer.decode(token, secret).value
    ensures r.Err? ==> r.error.status == UNAUTHORIZED
  {
    Verify(token, secret, now, signer, AdminClaimsExp)
  }

  // ---------------------------------------------------------------------
  // Pending-payment credentials
  // ---------------------------------------------------------------------

  /** `generate_payment_jwt`: claims naming the pending payment, its network
      and RPC endpoint, expiring 30 minutes after the first clock reading. */
  function GeneratePaymentJwt(pendingPaymentId: int, secret: string, rpc: string, network: string, clock: Clock,
                              signer: Signer<PaymentClaims>): (r: Result<string, StabuseError>)
    ensures var c := PaymentClaims(pendingPaymentId, network, rpc, clock.expReading + PAYMENT_LIFETIME, clock.iatReading);
      && (r.Ok? <==> signer.encode(c, secret).Ok?)
      && (r.Ok? ==> r.value == signer.encode(c, secret).value)
      && (r.Err? ==> r.error == JWTError("Failed to generate JWT: " + signer.encode(c, secret).error))
  {
    var claims := PaymentClaims(pendingPaymentId, network, rpc, clock.expReading + PAYMENT_LIFETIME, clock.iatReading);
    var token :- signer.encode(claims, secret).MapErr(e => JWTError("Failed to generate JWT: " + e));
    Ok(token)
  }

  /** `verify_pending_payment_jwt`. */
  function VerifyPaymentJwt(token: string, secret: string, now: int, signer: Signer<PaymentClaims>): (r: Result<PaymentClaims, Rejection>)
    ensures r.Ok? <==> signer.decode(token, secret).Ok? && now <= signer.decode(token, secret).value.exp + LEEWAY
    ensures r.Ok? ==> r.value == signer.decode(token, secret).value
    ensures r.Err? ==> r.error.status == UNAUTHORIZED
  {
    Verify(token, secret, now, signer, PaymentClaimsExp)
  }

  // ---------------------------------------------------------------------
  // Lifetimes
  // ---------------------------------------------------------------------

  /** A payment credential issued at `t` is accepted up to and including
      `t + 31 min` (its 30-minute lifetime plus the leeway) and rejected
      afterwards, by a secret-keyed signer that reads back what it signs. */
  lemma PaymentCredentialWindow(id: int, secret: string, rpc: string, network: string, t: int, now: int,
                                signer: Signer<PaymentClaims>)
    requires RoundTrips(signer)
    requires GeneratePaymentJwt(id, secret, rpc, network, Clock(t, t), signer).Ok?
    ensures var token := GeneratePaymentJwt(id, secret, rpc, network, Clock(t, t), signer).value;
      (VerifyPaymentJwt(token, secret, now, signer).Ok? <==> now <= t + 31 * 60)
      && (VerifyPaymentJwt(token, secret, now, signer).Ok? ==>
            VerifyPaymentJwt(token, secret, now, signer).value == PaymentClaims(id, network, rpc, t + PAYMENT_LIFETIME, t))
  {
    var c := PaymentClaims(id, network, rpc, t + PAYMENT_LIFETIME, t);
    assert signer.decode(signer.encode(c, secret).value, secret) == Ok(c);
  }

  /** A merchant session issued at `t` is accepted until `t + 24 h + 60 s`. */
  lemma MerchantSessionWindow(id: int, username: string, secret: string, t: int, now: int, signer: Signer<Claims>)
    requires RoundTrips(signer)
    requires GenerateMerchantJwt(id, username, secret, Clock(t, t), signer).Ok?
    ensures var token := GenerateMerchantJwt(id, username, secret, Clock(t, t), signer).value;
      (VerifyMerchantJwt(token, secret, now, signer).Ok? <==> now <= t + MERCHANT_LIFETIME + LEEWAY)
      && (VerifyMerchantJwt(token, secret, now, signer).Ok? ==> VerifyMerchantJwt(token, secret, now, signer).value.sub == id)
  {
    var c := Claims(id, username, t + MERCHANT_LIFETIME, t);
    assert signer.decode(signer.encode(c, secret).value, secret) == Ok(c);
  }

  /** An admin session issued at `t` is accepted until `t + 2 h + 60 s`. */
  lemma AdminSessionWindow(email: string, username: string, secret: string, t: int, now: int, signer: Signer<AdminClaims>)
    requires RoundTrips(signer)
    requires GenerateAdminJwt(email, username, secret, Clock(t, t), signer).Ok?
    ensures var token := GenerateAdminJwt(email, username, secret, Clock(t, t), signer).value;
      (VerifyAdminJwt(token, secret, now, signer).Ok? <==> now <= t + ADMIN_LIFETIME + LEEWAY)
      && (VerifyAdminJwt(token, secret, now, signer).Ok? ==> VerifyAdminJwt(token, secret, now, signer).value.sub == email)
  {
    var c := AdminClaims(email, username, t + ADMIN_LIFETIME, t);
    assert signer.decode(signer.encode(c, secret).value, secret) == Ok(c);
  }

  // ---------------------------------------------------------------------
  // Request guards
  // ---------------------------------------------------------------------

  /** The part of a request the guards touch: its target and the typed
      extension slots a guard fills with verified claims. */
  datatype Request = Request(target: string, merchant: Option<Claims>, admin: Option<AdminClaims>,
                             payment: Option<PaymentClaims>)

  /** What a guard does with a request: forward it (with the claims
      attached) or answer with the bearer-scheme 401 challenge. */
  datatype GuardOutcome = Forwarded(request: Request) | Challenged(status: int, request: Request)

  /** `merchant_jwt_validator`: the verification's own message is only logged;
      every failure gives the same challenge and the request back untouched. */
  function MerchantJwtValidator(req: Request, token: string, secret: string, now: int, signer: Signer<Claims>): (r: GuardOutcome)
    ensures r.Forwarded? <==> VerifyMerchantJwt(token, secret, now, signer).Ok?
    ensures r.Forwarded? ==> r.request == req.(merchant := Some(VerifyMerchantJwt(token, secret, now, signer).value))
    ensures r.Challenged? ==> r == Challenged(UNAUTHORIZED, req)
  {
    match VerifyMerchantJwt(token, secret, now, signer)
    case Ok(claims) => Forwarded(req.(merchant := Some(claims)))
    case Err(_) => Challenged(UNAUTHORIZED, req)
  }

  /** `admin_jwt_validator`. */
  function AdminJwtValidator(req: Request, token: string, secret: string, now: int, signer: Signer<AdminClaims>): (r: GuardOutcome)
    ensures r.Forwarded? <==> VerifyAdminJwt(token, secret, now, signer).Ok?
    ensures r.Forwarded? ==> r.request == req.(admin := Some(VerifyAdminJwt(token, secret, now, signer).value))
    ensures r.Challenged? ==> r == Challenged(UNAUTHORIZED, req)
  {
    match VerifyAdminJwt(token, secret, now, signer)
    case Ok(claims) => Forwarded(req.(admin := Some(claims)))
    case Err(_) => Challenged(UNAUTHORIZED, req)
  }

  /** `pending_payment_jwt_validator`. */
  function PaymentJwtValidator(req: Request, token: string, secret: string, now: int, signer: Signer<PaymentClaims>): (r: GuardOutcome)
    ensures r.Forwarded? <==> VerifyPaymentJwt(token, secret, now, signer).Ok?
    ensures r.Forwarded? ==> r.request == req.(payment := Some(VerifyPaymentJwt(token, secret, now, signer).value))
    ensures r.Challenged? ==> r == Challenged(UNAUTHORIZED, req)
  {
    match VerifyPaymentJwt(token, secret, now, signer)
    case Ok(claims) => Forwarded(req.(payment := Some(claims)))
    case Err(_) => Challenged(UNAUTHORIZED, req)
  }

  /** An expired credential and a forged one are indistinguishable to the
      caller: both get the same challenge. */
  lemma FailuresLookAlike(req: Request, expired: string, forged: string, secret: string, now: int, signer: Signer<PaymentClaims>)
    requires signer.decode(forged, secret).Err?
    requires signer.decode(expired, secret).Ok? && signer.decode(expired, secret).value.exp + LEEWAY < now
    ensures PaymentJwtValidator(req, expired, secret, now, signer) == PaymentJwtValidator(req, forged, secret, now, signer)
  {
  }
}

=== FILE: errors.dfy ===
/** The service's error taxonomy (`StabuseError`): its display text, its
    conversions from library errors, its error source, and the HTTP response
    each variant turns into. */
module Errors {
  import opened Wrappers
  import Json

  /** What went wrong inside the database driver. `detail` is the driver's own
      display text, which the model does not fix. */
  datatype DbFaultKind = RowNotFound | ColumnNotFound | UniqueViolation | NotNullViolation | OtherDbFault
  datatype DbFault = DbFault(kind: DbFaultKind, detail: string)

  /** sqlx shows an error the server returned behind this prefix. */
  const SERVER_ERROR_PREFIX: string := "error returned from database: "

  /** A fault the server reported with `message`, as sqlx displays it. */
  function ServerFault(kind: DbFaultKind, message: string): (f: DbFault)
    ensures f.kind == kind
    ensures |f.detail| == |SERVER_ERROR_PREFIX| + |message|
    ensures f.detail[..|SERVER_ERROR_PREFIX|] == SERVER_ERROR_PREFIX && f.detail[|SERVER_ERROR_PREFIX|..] == message
  {
    DbFault(kind, SERVER_ERROR_PREFIX + message)
  }

  /** The server's refusal of an insert or update that would repeat a value
      of a UNIQUE column, naming the constraint. */
  function DuplicateKey(constraint: string): DbFault {
    ServerFault(UniqueViolation, "duplicate key value violates unique constraint \"" + constraint + "\"")
  }

  /** `StabuseError`. Variants that wrap a library error keep that error's
      display text in `detail`. */
  datatype StabuseError =
    | InvalidCredentials(msg: string)
    | InvalidData(msg: string)
    | DatabaseError(fault: DbFault)
    | SerdeError(msg: string)
    | HashError(detail: string)
    | StdError(detail: string)
    | InvalidAssetFormat(msg: string)
    | AssetNotSupportedonNetwork(msg: string)
    | JWTError(msg: string)
    | HttpError(detail: string)
    | Forbidden(msg: string)
    | Unauthorized(msg: string)
    | Internal(msg: string)
    | EmailError(msg: string)
    | SmtpError(msg: string)
    | EnvError(msg: string)

  /** The text a variant carries, whether a message or a wrapped error's text. */
  function Payload(e: StabuseError): string {
    match e
    case DatabaseError(f) => f.detail
    case HashError(d) => d
    case StdError(d) => d
    case HttpError(d) => d
    case InvalidCredentials(m) => m
    case InvalidData(m) => m
    case SerdeError(m) => m
    case InvalidAssetFormat(m) => m
    case AssetNotSupportedonNetwork(m) => m
    case JWTError(m) => m
    case Forbidden(m) => m
    case Unauthorized(m) => m
    case Internal(m) => m
    case EmailError(m) => m
    case SmtpError(m) => m
    case EnvError(m) => m
  }

  /** The fixed label `Display` writes before the payload (the spelling
      "Fobidden" is the source's). */
  function Label(e: StabuseError): string {
    match e
    case InvalidCredentials(_) => "Invalid Credentials: "
    case InvalidData(_) => "Invalid Data: "
    case SerdeError(_) => "Serialization error: "
    case DatabaseError(_) => "Database error: "
    case HashError(_) => "Hashing error: "
    case InvalidAssetFormat(_) => "Invalid asset: "
    case AssetNotSupportedonNetwork(_) => "Asset not supported in network: "
    case JWTError(_) => "JWT Error: "
    case HttpError(_) => "Http Error: "
    case Forbidden(_) => "Fobidden: "
    case Unauthorized(_) => "Unauthorized: "
    case Internal(_) => "Internal: "
    case EmailError(_) => "Error sending mail: "
    case SmtpError(_) => "Error sending mail: "
    case EnvError(_) => "Error reading from env: "
    case StdError(_) => ""
  }

  /** `impl Display for StabuseError`. */
  function Display(e: StabuseError): (r: string)
    ensures |r| == |Label(e)| + |Payload(e)|
    ensures r[|Label(e)|..] == Payload(e)
    ensures e.StdError? ==> r == e.detail
  {
    Label(e) + Payload(e)
  }

  /** A server-reported fault reaches the caller behind both prefixes:
      `StabuseError`'s label and sqlx's. */
  lemma ServerFaultDisplay(kind: DbFaultKind, message: string)
    ensures Display(DatabaseError(ServerFault(kind, message))) == "Database error: " + SERVER_ERROR_PREFIX + message
  {
    var e := DatabaseError(ServerFault(kind, message));
    assert Label(e) == "Database error: ";
    assert Payload(e) == SERVER_ERROR_PREFIX + message;
    ConcatAssoc(Label(e), SERVER_ERROR_PREFIX, message);
  }

  lemma ConcatAssoc<T>(a: seq<T>, b: seq<T>, c: seq<T>)
    ensures a + (b + c) == (a + b) + c
  {
  }


  /** Display determines the error except between the two mail variants,
      which share a label, so an e-mail address fault and an SMTP fault with
      the same text print identically. */
  lemma DisplayAmbiguity(m: string)
    ensures Display(EmailError(m)) == Display(SmtpError(m))
    ensures Display(InvalidData(m)) != Display(InvalidCredentials(m))
  {
    assert Display(InvalidData(m))[8] == 'D';
    assert Display(InvalidCredentials(m))[8] == 'C';
  }

  // ---------------------------------------------------------------------
  // Conversions (`From` impls)
  // ---------------------------------------------------------------------

  /** The library errors the service converts with `?`. */
  datatype ForeignError =
    | SqlxError(fault: DbFault)
    | BcryptError(text: string)
    | ActixHttpError(text: string)
    | MailAddressError(text: string)
    | SmtpTransportError(text: string)
    | EnvVarError(text: string)
    | RpcTransportError(text: string)
    | AbiParserError(text: string)
    | IoError(text: string)
    | SerdeJsonError(text: string)
    | BoxedError(text: string)

  function ForeignText(f: ForeignError): string {
    if f.SqlxError? then f.fault.detail else f.text
  }

  /** `impl From<…> for StabuseError`: every conversion keeps the library
      error's text, and each library error lands in one fixed variant. */
  function FromForeign(f: ForeignError): (e: StabuseError)
    ensures Payload(e) == ForeignText(f)
    ensures f.SqlxError? <==> e.DatabaseError?
    ensures f.BcryptError? <==> e.HashError?
    ensures f.ActixHttpError? <==> e.HttpError?
    ensures f.MailAddressError? <==> e.EmailError?
    ensures f.SmtpTransportError? <==> e.SmtpError?
    ensures (f.EnvVarError? || f.BoxedError?) <==> e.EnvError?
    ensures (f.RpcTransportError? || f.AbiParserError?) <==> e.Internal?
    ensures f.IoError? <==> e.StdError?
    ensures f.SerdeJsonError? <==> e.SerdeError?
    ensures e.DatabaseError? ==> e.fault == f.fault
  {
    match f
    case SqlxError(fault) => DatabaseError(fault)
    case BcryptError(t) => HashError(t)
    case ActixHttpError(t) => HttpError(t)
    case MailAddressError(t) => EmailError(t)
    case SmtpTransportError(t) => SmtpError(t)
    case EnvVarError(t) => EnvError(t)
    case RpcTransportError(t) => Internal(t)
    case AbiParserError(t) => Internal(t)
    case IoError(t) => StdError(t)
    case SerdeJsonError(t) => SerdeError(t)
    case BoxedError(t) => EnvError(t)
  }

  /** `Error::source`: only the variants wrapping a structured library error
      expose it. */
  function Source(e: StabuseError): (r: Option<string>)
    ensures r.Some? <==> e.DatabaseError? || e.HashError? || e.HttpError?
    ensures r.Some? ==> r.value == Payload(e)
  {
    match e
    case DatabaseError(f) => Some(f.detail)
    case HashError(d) => Some(d)
    case HttpError(d) => Some(d)
    case _ => None
  }

  // ---------------------------------------------------------------------
  // HTTP mapping (`ResponseError`)
  // ---------------------------------------------------------------------

  const BAD_REQUEST: int := 400
  const UNAUTHORIZED: int := 401
  const FORBIDDEN: int := 403
  const NOT_FOUND: int := 404
  const INTERNAL_SERVER_ERROR: int := 500

  predicate IsClientDataError(e: StabuseError) {
    e.InvalidData? || e.SerdeError? || e.InvalidAssetFormat? || e.AssetNotSupportedonNetwork?
  }

  predicate IsAuthError(e: StabuseError) {
    e.JWTError? || e.InvalidCredentials? || e.Unauthorized?
  }

  /** `ResponseError::status_code`. */
  function StatusCode(e: StabuseError): (code: int)
    ensures code == BAD_REQUEST <==> IsClientDataError(e)
    ensures code == UNAUTHORIZED <==> IsAuthError(e)
    ensures code == FORBIDDEN <==> e.Forbidden?
    ensures code == NOT_FOUND <==> e.EnvError? || e.Internal?
    ensures code == INTERNAL_SERVER_ERROR <==>
      e.DatabaseError? || e.HashError? || e.HttpError? || e.StdError? || e.EmailError? || e.SmtpError?
  {
    match e
    case DatabaseError(_) => INTERNAL_SERVER_ERROR
    case InvalidData(_) => BAD_REQUEST
    case SerdeError(_) => BAD_REQUEST
    case HashError(_) => INTERNAL_SERVER_ERROR
    case InvalidAssetFormat(_) => BAD_REQUEST
    case AssetNotSupportedonNetwork(_) => BAD_REQUEST
    case JWTError(_) => UNAUTHORIZED
    case HttpError(_) => INTERNAL_SERVER_ERROR
    case InvalidCredentials(_) => UNAUTHORIZED
    case Forbidden(_) => FORBIDDEN
    case Unauthorized(_) => UNAUTHORIZED
    case StdError(_) => INTERNAL_SERVER_ERROR
    case EmailError(_) => INTERNAL_SERVER_ERROR
    case SmtpError(_) => INTERNAL_SERVER_ERROR
    case EnvError(_) => NOT_FOUND
    case Internal(_) => NOT_FOUND
  }

  datatype HttpResponse = HttpResponse(status: int, body: Json.Json)

  function ErrorBody(text: string): Json.Json {
    Json.Object([("error", Json.Str(text))])
  }

  /** `ResponseError::error_response`: a JSON body `{"error": …}` whose text is
      the raw message for message-carrying variants and a prefixed rendering
      for wrapped library errors. */
  function ErrorResponse(e: StabuseError): (r: HttpResponse)
    ensures r.body.Object? && |r.body.entries| == 1 && r.body.entries[0].0 == "error"
    ensures !(e.DatabaseError? || e.HashError? || e.HttpError?) ==> r.body == ErrorBody(Payload(e))
    ensures e.DatabaseError? || e.HashError? ==> r.body == ErrorBody(Display(e))
    ensures e.HttpError? ==> r.body == ErrorBody("HTTP error: " + Payload(e))
  {
    match e
    case DatabaseError(f) => HttpResponse(INTERNAL_SERVER_ERROR, ErrorBody("Database error: " + f.detail))
    case InvalidData(m) => HttpResponse(BAD_REQUEST, ErrorBody(m))
    case SerdeError(m) => HttpResponse(BAD_REQUEST, ErrorBody(m))
    case HashError(d) => HttpResponse(INTERNAL_SERVER_ERROR, ErrorBody("Hashing error: " + d))
    case InvalidAssetFormat(m) => HttpResponse(BAD_REQUEST, ErrorBody(m))
    case AssetNotSupportedonNetwork(m) => HttpResponse(BAD_REQUEST, ErrorBody(m))
    case JWTError(m) => HttpResponse(UNAUTHORIZED, ErrorBody(m))
    case HttpError(d) => HttpResponse(INTERNAL_SERVER_ERROR, ErrorBody("HTTP error: " + d))
    case InvalidCredentials(m) => HttpResponse(UNAUTHORIZED, ErrorBody(m))
    case Forbidden(m) => HttpResponse(FORBIDDEN, ErrorBody(m))
    case Unauthorized(m) => HttpResponse(UNAUTHORIZED, ErrorBody(m))
    case StdError(d) => HttpResponse(INTERNAL_SERVER_ERROR, ErrorBody(d))
    case EmailError(m) => HttpResponse(INTERNAL_SERVER_ERROR, ErrorBody(m))
    case SmtpError(m) => HttpResponse(INTERNAL_SERVER_ERROR, ErrorBody(m))
    case EnvError(m) => HttpResponse(NOT_FOUND, ErrorBody(m))
    case Internal(m) => HttpResponse(NOT_FOUND, ErrorBody(m))
  }

  /** The two hand-written tables agree: every variant's response carries the
      status `status_code` reports. */
  lemma ResponseStatusAgrees(e: StabuseError)
    ensures ErrorResponse(e).status == StatusCode(e)
  {
  }
}

=== FILE: evm.dfy ===
/** EVM settlement: the builder that prepares an ERC-20 transfer request for
    the payer's wallet, and the verifier that checks a submitted transaction
    pays the merchant. Provider calls (chain id, nonce, gas estimate, fee
    history, transaction and receipt fetch), the merchant address lookup and
    the asset configuration file are readings passed in. */
module Evm {
  import opened Wrappers
  import opened Text
  import opened Hex
  import opened Errors
  import opened Abi
  import Json
  import Validation
  import Registry

  const U64_LIMIT: nat := 0x1_0000_0000_0000_0000

  /** One gwei, the priority fee the builder offers. */
  const PRIORITY_FEE: nat := 1_000_000_000

  /** Whether a transaction calls an address or creates a contract. */
  datatype TxKind = Create | Call(to: Address)

  datatype EvmTransaction = EvmTransaction(kind: TxKind, input: seq<Byte>)

  datatype Receipt = Receipt(succeeded: bool)

  /** The provider and the service lookups. Provider failures carry the
      RPC error's text; `addressError` is the text of the parse error for a
      string that is not an address. */
  datatype EvmEnv = EvmEnv(
    parseRpcUrl: string -> Result<(), string>,
    chainId: Result<nat, string>,
    transactionByHash: seq<Byte> -> Result<Option<EvmTransaction>, string>,
    receipt: seq<Byte> -> Result<Option<Receipt>, string>,
    transactionCount: Address -> Result<nat, string>,
    estimateGas: (Address, Address, seq<Byte>) -> Result<nat, string>,
    baseFees: Result<seq<nat>, string>,
    merchantAddress: (int, int) -> Result<string, StabuseError>,
    assetsFile: Result<string, string>,
    parseConfig: string -> Result<Json.Json, string>,
    addressError: string -> string)

  /** The code converts the chain id to i64 with `unwrap`. */
  predicate ChainIdFits(env: EvmEnv) {
    env.chainId.Ok? ==> env.chainId.value <= I64_MAX
  }

  /** A provider failure, converted by `?` through `From<RpcError>`. */
  function RpcFailure(text: string): (e: StabuseError)
    ensures e == Internal(text)
  {
    FromForeign(RpcTransportError(text))
  }

  function TokenAddress(env: EvmEnv, asset: string, chainId: nat): Result<string, StabuseError> {
    Registry.GetAssetContractAddress(env.assetsFile, env.parseConfig, asset, chainId)
  }

  // ---------------------------------------------------------------------
  // Transaction hash
  // ---------------------------------------------------------------------

  /** The hash text with every leading `0x` removed, hex-decoded, which must
      give exactly 32 bytes. */
  function ParseTxHash(txHash: string): (r: Result<seq<Byte>, StabuseError>)
    ensures var decoded := Hex.Decode(TrimStartMatches(txHash, "0x"));
      && (r.Ok? <==> decoded.Some? && |decoded.value| == 32)
      && (r.Ok? ==> r.value == decoded.value)
      && (decoded.None? ==> r == Err(InvalidData("Invalid transaction hash")))
      && (decoded.Some? && |decoded.value| != 32 ==> r == Err(InvalidData("Invalid transaction hash length")))
  {
    match Hex.Decode(TrimStartMatches(txHash, "0x"))
    case None => Err(InvalidData("Invalid transaction hash"))
    case Some(bytes) => if |bytes| != 32 then Err(InvalidData("Invalid transaction hash length")) else Ok(bytes)
  }

  /** A 32-byte hash rendered in hex parses back, with or without `0x`. */
  lemma TxHashRoundTrip(hash: seq<Byte>)
    requires |hash| == 32
    ensures ParseTxHash(Hex.Encode(hash)) == Ok(hash)
    ensures ParseTxHash("0x" + Hex.Encode(hash)) == Ok(hash)
  {
    EncodeDecode(hash);
    var s := "0x" + Hex.Encode(hash);
    assert !IsLowerHexDigit('x');
    assert !StartsWith(Hex.Encode(hash), "0x");
    assert s[2..] == Hex.Encode(hash);
    assert TrimStartMatches(s, "0x") == TrimStartMatches(Hex.Encode(hash), "0x");
  }

  // ---------------------------------------------------------------------
  // Verifier
  // ---------------------------------------------------------------------

  /** The checks on the fetched transaction, in the code's order: the call
      target, then the call data, then the receipt. */
  function TransactionChecks(tx: EvmTransaction, expectedTo: Address, expectedData: seq<Byte>,
                             receipt: Result<Option<Receipt>, string>): (r: Result<(), StabuseError>)
    ensures r.Ok? <==> tx.kind == Call(expectedTo) && tx.input == expectedData && receipt == Ok(Some(Receipt(true)))
    ensures tx.kind.Create? ==> r == Err(InvalidData("Unsupported transaction kind."))
    ensures tx.kind.Call? && tx.kind.to != expectedTo ==> r == Err(InvalidData("Transaction recipient (to) address does not match."))
    ensures tx.kind == Call(expectedTo) && tx.input != expectedData ==>
      r == Err(InvalidData("Transaction data does not match the expected data."))
    ensures tx.kind == Call(expectedTo) && tx.input == expectedData ==>
      && (receipt.Err? ==> r == Err(Internal("Failed to fetch transaction receipt: " + receipt.error)))
      && (receipt == Ok(None) ==> r == Err(InvalidData("Transaction receipt not found.")))
      && (receipt == Ok(Some(Receipt(false))) ==> r == Err(InvalidData("Transaction execution failed.")))
  {
    match tx.kind
    case Create => Err(InvalidData("Unsupported transaction kind."))
    case Call(to) =>
      if to != expectedTo then Err(InvalidData("Transaction recipient (to) address does not match."))
      else if tx.input != expectedData then Err(InvalidData("Transaction data does not match the expected data."))
      else
        var found :- receipt.MapErr(e => Internal("Failed to fetch transaction receipt: " + e));
        if found.None? then Err(InvalidData("Transaction receipt not found."))
        else if !found.value.succeeded then Err(InvalidData("Transaction execution failed."))
        else Ok(())
  }

  /** The addresses the verifier expects, derived in the code's order: the
      merchant's address on the chain, the asset's token contract, then both
      parsed. */
  datatype Expectation = Expectation(tokenContract: Address, merchant: Address)

  function ExpectedCall(merchantId: int, asset: string, chainId: nat, env: EvmEnv): (r: Result<Expectation, StabuseError>)
    requires chainId <= I64_MAX
    ensures r.Ok? <==>
      && env.merchantAddress(merchantId, chainId).Ok?
      && TokenAddress(env, asset, chainId).Ok?
      && ParseAddress(TokenAddress(env, asset, chainId).value).Some?
      && ParseAddress(env.merchantAddress(merchantId, chainId).value).Some?
    ensures r.Ok? ==>
      && r.value.tokenContract == ParseAddress(TokenAddress(env, asset, chainId).value).value
      && r.value.merchant == ParseAddress(env.merchantAddress(merchantId, chainId).value).value
  {
    var merchantText :- env.merchantAddress(merchantId, chainId);
    var tokenText :- TokenAddress(env, asset, chainId);
    var tokenContract :- ParseAddress(tokenText).ToResult(Internal("Invalid token address: " + env.addressError(tokenText)));
    var merchant :- ParseAddress(merchantText).ToResult(Internal("Invalid merchant address: " + env.addressError(merchantText)));
    Ok(Expectation(tokenContract, merchant))
  }

  /** `verify_signed_transaction`: the transaction named by the hash must
      call the asset's token contract with exactly the transfer of `amount`
      to the merchant, and its receipt must report success. Nothing is
      written, and `userAddress` is never read. */
  function VerifySignedTransaction(merchantId: int, amount: nat, userAddress: string, rpcUrl: string, asset: string,
                                   txHash: string, env: EvmEnv): (r: Result<int, StabuseError>)
    requires amount < U64_LIMIT && ChainIdFits(env)
    ensures r.Ok? ==> r.value == merchantId
    ensures r.Ok? ==>
      && env.parseRpcUrl(rpcUrl).Ok?
      && ParseTxHash(txHash).Ok?
      && var hash := ParseTxHash(txHash).value;
      && env.transactionByHash(hash).Ok? && env.transactionByHash(hash).value.Some?
      && env.chainId.Ok?
      && ExpectedCall(merchantId, asset, env.chainId.value, env).Ok?
      && var expected := ExpectedCall(merchantId, asset, env.chainId.value, env).value;
      && var tx := env.transactionByHash(hash).value.value;
      && tx.kind == Call(expected.tokenContract)
      && DecodeTransfer(tx.input) == Some((expected.merchant, amount))
      && env.receipt(hash) == Ok(Some(Receipt(true)))
    ensures env.parseRpcUrl(rpcUrl).Ok? && ParseTxHash(txHash).Err? ==> r == Err(ParseTxHash(txHash).error)
    ensures env.parseRpcUrl(rpcUrl).Ok? && ParseTxHash(txHash).Ok? && env.transactionByHash(ParseTxHash(txHash).value) == Ok(None) ==>
      r == Err(Internal("Transaction not found"))
  {
    var _ :- env.parseRpcUrl(rpcUrl).MapErr(e => Internal("Invalid RPC URL: " + e));
    var hash :- ParseTxHash(txHash);
    var fetched :- env.transactionByHash(hash).MapErr(RpcFailure);
    var tx :- fetched.ToResult(Internal("Transaction not found"));
    var chainId :- env.chainId.MapErr(RpcFailure);
    var expected :- ExpectedCall(merchantId, asset, chainId, env);
    U256Fits(amount);
    var expectedData := EncodeTransfer(expected.merchant, amount);
    var _ :- TransactionChecks(tx, expected.tokenContract, expectedData, env.receipt(hash));
    DecodeEncode(expected.merchant, amount);
    Ok(merchantId)
  }

  /** The converse: a fetched transaction that calls the asset's token
      contract with the transfer of `amount` to the merchant, and whose
      receipt reports success, is accepted for the merchant. */
  lemma VerifyAcceptsMatchingCall(merchantId: int, amount: nat, userAddress: string, rpcUrl: string, asset: string,
                                  txHash: string, env: EvmEnv, tx: EvmTransaction)
    requires amount < U64_LIMIT && ChainIdFits(env)
    requires env.parseRpcUrl(rpcUrl).Ok? && ParseTxHash(txHash).Ok?
    requires env.transactionByHash(ParseTxHash(txHash).value) == Ok(Some(tx))
    requires env.chainId.Ok? && ExpectedCall(merchantId, asset, env.chainId.value, env).Ok?
    requires tx.kind == Call(ExpectedCall(merchantId, asset, env.chainId.value, env).value.tokenContract)
    requires tx.input == EncodeTransfer(ExpectedCall(merchantId, asset, env.chainId.value, env).value.merchant, amount)
    requires env.receipt(ParseTxHash(txHash).value) == Ok(Some(Receipt(true)))
    ensures VerifySignedTransaction(merchantId, amount, userAddress, rpcUrl, asset, txHash, env) == Ok(merchantId)
  {
    U256Fits(amount);
  }

  lemma U256Fits(amount: nat)
    requires amount < U64_LIMIT
    ensures amount < U256_LIMIT
  {
    assert U64_LIMIT == Bytes.Pow256(8);
    Bytes.Pow256Monotone(8, 32);
  }

  /** The payer's address plays no part in the verdict. */
  lemma UserAddressIgnored(merchantId: int, amount: nat, user1: string, user2: string, rpcUrl: string, asset: string,
                           txHash: string, env: EvmEnv)
    requires amount < U64_LIMIT && ChainIdFits(env)
    ensures VerifySignedTransaction(merchantId, amount, user1, rpcUrl, asset, txHash, env)
         == VerifySignedTransaction(merchantId, amount, user2, rpcUrl, asset, txHash, env)
  {
  }

  // ---------------------------------------------------------------------
  // Builder
  // ---------------------------------------------------------------------

  /** `CreatePaymentTransaction`: what the payer's wallet is asked to sign. */
  datatype PaymentRequest = PaymentRequest(to: string, from: string, data: string, value: string, nonce: string,
                                           chainId: nat, gasLimit: Option<string>, maxFeePerGas: Option<string>,
                                           maxPriorityFeePerGas: Option<string>)

  /** Fee fields from the first base fee of the fee history: base fee plus one
      gwei as the cap and one gwei as the tip; neither without a base fee. */
  function FeeFields(baseFees: seq<nat>): (fees: (Option<nat>, Option<nat>))
    ensures fees.0.Some? <==> |baseFees| > 0
    ensures fees.1.Some? <==> |baseFees| > 0
    ensures |baseFees| > 0 ==> fees.0.value == baseFees[0] + PRIORITY_FEE && fees.1.value == PRIORITY_FEE
    ensures |baseFees| > 0 ==> fees.0.value - fees.1.value == baseFees[0]
  {
    if |baseFees| > 0 then (Some(baseFees[0] + PRIORITY_FEE), Some(PRIORITY_FEE)) else (None, None)
  }

  function Rendered(q: Option<nat>): (r: Option<string>)
    ensures r.Some? <==> q.Some?
    ensures r.Some? ==> ParsePrefixedQuantity(r.value) == Some(q.value)
  {
    if q.Some? then Some(PrefixedQuantity(q.value)) else None
  }

  /** `create_payment_request`: validate the payer's address, read the chain
      and the addresses, encode the transfer call, then read nonce, gas
      estimate and fee history, and render every quantity as `0x` hex. */
  function CreatePaymentRequest(merchantId: int, amount: nat, userAddress: string, rpcUrl: string, asset: string,
                                env: EvmEnv): (r: Result<PaymentRequest, StabuseError>)
    requires amount < U64_LIMIT && ChainIdFits(env)
    ensures Validation.ValidateAddress(userAddress).Err? ==> r == Err(Validation.ValidateAddress(userAddress).error)
    ensures r.Ok? ==>
      && Validation.AddressShape(userAddress)
      && env.parseRpcUrl(rpcUrl).Ok?
      && env.chainId.Ok?
      && var chainId := env.chainId.value;
      && env.merchantAddress(merchantId, chainId).Ok?
      && TokenAddress(env, asset, chainId).Ok?
      && ParseAddress(env.merchantAddress(merchantId, chainId).value).Some?
      && ParseAddress(userAddress).Some?
      && env.transactionCount(ParseAddress(userAddress).value).Ok?
      && env.baseFees.Ok?
      && var merchant := ParseAddress(env.merchantAddress(merchantId, chainId).value).value;
      && var fees := FeeFields(env.baseFees.value);
      && r.value.to == TokenAddress(env, asset, chainId).value
      && r.value.from == userAddress
      && Hex.Decode(r.value.data) == Some(EncodeTransfer(merchant, amount))
      && r.value.value == "0x0"
      && ParsePrefixedQuantity(r.value.nonce) == Some(env.transactionCount(ParseAddress(userAddress).value).value)
      && r.value.chainId == chainId
      && ParseAddress(TokenAddress(env, asset, chainId).value).Some?
      && var gas := env.estimateGas(ParseAddress(userAddress).value, ParseAddress(TokenAddress(env, asset, chainId).value).value,
                                    EncodeTransfer(merchant, amount));
      && gas.Ok?
      && r.value.gasLimit.Some? && ParsePrefixedQuantity(r.value.gasLimit.value) == Some(gas.value)
      && r.value.maxFeePerGas == Rendered(fees.0)
      && r.value.maxPriorityFeePerGas == Rendered(fees.1)
  {
    var _ :- Validation.ValidateAddress(userAddress);
    var _ :- env.parseRpcUrl(rpcUrl).MapErr(e => Internal("Invalid RPC URL: " + e));
    var chainId :- env.chainId.MapErr(RpcFailure);
    var merchantText :- env.merchantAddress(merchantId, chainId);
    var tokenText :- TokenAddress(env, asset, chainId);
    var from :- ParseAddress(userAddress).ToResult(Internal("Invalid user address: " + env.addressError(userAddress)));
    var merchant :- ParseAddress(merchantText).ToResult(Internal("Invalid merchant address: " + env.addressError(merchantText)));
    U256Fits(amount);
    var callData := EncodeTransfer(merchant, amount);
    var nonce :- env.transactionCount(from).MapErr(RpcFailure);
    var token :- ParseAddress(tokenText).ToResult(Internal(env.addressError(tokenText)));
    var gas :- env.estimateGas(from, token, callData).MapErr(RpcFailure);
    var baseFees :- env.baseFees.MapErr(RpcFailure);
    Ok(Assemble(tokenText, userAddress, callData, nonce, chainId, gas, FeeFields(baseFees)))
  }

  /** The request's fields, the call data as hex and every quantity as
      `0x` hex. */
  function Assemble(to: string, from: string, callData: seq<Byte>, nonce: nat, chainId: nat, gas: nat,
                    fees: (Option<nat>, Option<nat>)): (req: PaymentRequest)
    ensures req.to == to && req.from == from && req.chainId == chainId && req.value == "0x0"
    ensures Hex.Decode(req.data) == Some(callData)
    ensures ParsePrefixedQuantity(req.nonce) == Some(nonce)
    ensures req.gasLimit.Some? && ParsePrefixedQuantity(req.gasLimit.value) == Some(gas)
    ensures req.maxFeePerGas == Rendered(fees.0) && req.maxPriorityFeePerGas == Rendered(fees.1)
  {
    EncodeDecode(callData);
    PaymentRequest(to, from, Hex.Encode(callData), "0x0", PrefixedQuantity(nonce), chainId,
                   Some(PrefixedQuantity(gas)), Rendered(fees.0), Rendered(fees.1))
  }

  /** The converse: a well-formed payer address, a parsable RPC URL and
      every reading and address parse succeeding give a request. */
  lemma RequestBuiltWhenReadingsSucceed(merchantId: int, amount: nat, userAddress: string, rpcUrl: string, asset: string,
                                        env: EvmEnv)
    requires amount < U64_LIMIT && ChainIdFits(env)
    requires Validation.AddressShape(userAddress) && env.parseRpcUrl(rpcUrl).Ok?
    requires env.chainId.Ok?
    requires env.merchantAddress(merchantId, env.chainId.value).Ok?
    requires TokenAddress(env, asset, env.chainId.value).Ok?
    requires ParseAddress(userAddress).Some?
    requires ParseAddress(env.merchantAddress(merchantId, env.chainId.value).value).Some?
    requires ParseAddress(TokenAddress(env, asset, env.chainId.value).value).Some?
    requires env.transactionCount(ParseAddress(userAddress).value).Ok?
    requires env.estimateGas(ParseAddress(userAddress).value, ParseAddress(TokenAddress(env, asset, env.chainId.value).value).value,
                             EncodeTransfer(ParseAddress(env.merchantAddress(merchantId, env.chainId.value).value).value, amount)).Ok?
    requires env.baseFees.Ok?
    ensures CreatePaymentRequest(merchantId, amount, userAddress, rpcUrl, asset, env).Ok?
  {
    U256Fits(amount);
  }

  /** The request the builder produces is exactly what the verifier later
      accepts as call data: decoding it names the merchant and the amount. */
  lemma RequestDataDecodes(merchantId: int, amount: nat, userAddress: string, rpcUrl: string, asset: string, env: EvmEnv)
    requires amount < U64_LIMIT && ChainIdFits(env)
    requires CreatePaymentRequest(merchantId, amount, userAddress, rpcUrl, asset, env).Ok?
    ensures var req := CreatePaymentRequest(merchantId, amount, userAddress, rpcUrl, asset, env).value;
      var merchant := ParseAddress(env.merchantAddress(merchantId, env.chainId.value).value).value;
      Hex.Decode(req.data).Some? && DecodeTransfer(Hex.Decode(req.data).value) == Some((merchant, amount))
  {
    var merchant := ParseAddress(env.merchantAddress(merchantId, env.chainId.value).value).value;
    U256Fits(amount);
    DecodeEncode(merchant, amount);
  }

  const REQUIRED_FIELDS: seq<string> := ["to", "from", "data", "value", "nonce", "chain_id"]

  function RequiredEntries(req: PaymentRequest): (entries: seq<(string, Json.Json)>)
    ensures |entries| == |REQUIRED_FIELDS|
    ensures forall i :: 0 <= i < |entries| ==> entries[i].0 == REQUIRED_FIELDS[i]
  {
    [("to", Json.Str(req.to)), ("from", Json.Str(req.from)), ("data", Json.Str(req.data)),
     ("value", Json.Str(req.value)), ("nonce", Json.Str(req.nonce)), ("chain_id", Json.Number(req.chainId))]
  }

  function OptionalField(key: string, value: Option<string>): (entries: seq<(string, Json.Json)>)
    ensures |entries| <= 1
    ensures forall i :: 0 <= i < |entries| ==> entries[i].0 == key
    ensures value.Some? ==> entries == [(key, Json.Str(value.value))]
    ensures value.None? ==> entries == []
  {
    if value.Some? then [(key, Json.Str(value.value))] else []
  }

  /** `serde_json` form of the request: the six fields always written, then
      each optional field only when present. */
  function RequestJson(req: PaymentRequest): (j: Json.Json)
    ensures j.Object?
  {
    Json.Object(RequiredEntries(req) + OptionalField("gas_limit", req.gasLimit)
                + OptionalField("max_fee_per_gas", req.maxFeePerGas)
                + OptionalField("max_priority_fee_per_gas", req.maxPriorityFeePerGas))
  }

  /** A key is absent from entries all carrying another key. */
  lemma AbsentKey(entries: seq<(string, Json.Json)>, other: string, key: string)
    requires forall i :: 0 <= i < |entries| ==> entries[i].0 == other
    requires key != other
    ensures Json.Lookup(entries, key).None?
  {
  }

  /** The serialised request always has the six required fields. */
  lemma RequiredFieldsPresent(req: PaymentRequest)
    ensures forall i :: 0 <= i < |REQUIRED_FIELDS| ==> Json.Get(RequestJson(req), REQUIRED_FIELDS[i]).Some?
  {
    var required := RequiredEntries(req);
    var rest := OptionalField("gas_limit", req.gasLimit) + OptionalField("max_fee_per_gas", req.maxFeePerGas)
                + OptionalField("max_priority_fee_per_gas", req.maxPriorityFeePerGas);
    assert RequestJson(req).entries == required + rest;
    forall i | 0 <= i < |REQUIRED_FIELDS|
      ensures Json.Get(RequestJson(req), REQUIRED_FIELDS[i]).Some?
    {
      assert required[i].0 == REQUIRED_FIELDS[i];
      Json.LookupAppendFirst(required, rest, REQUIRED_FIELDS[i]);
    }
  }

  /** The serialised request has each optional field exactly when it is
      present. */
  lemma OptionalFieldsPresent(req: PaymentRequest)
    ensures Json.Get(RequestJson(req), "gas_limit").Some? <==> req.gasLimit.Some?
    ensures Json.Get(RequestJson(req), "max_fee_per_gas").Some? <==> req.maxFeePerGas.Some?
    ensures Json.Get(RequestJson(req), "max_priority_fee_per_gas").Some? <==> req.maxPriorityFeePerGas.Some?
  {
    var required := RequiredEntries(req);
    var gas := OptionalField("gas_limit", req.gasLimit);
    var maxFee := OptionalField("max_fee_per_gas", req.maxFeePerGas);
    var tip := OptionalField("max_priority_fee_per_gas", req.maxPriorityFeePerGas);
    assert RequestJson(req).entries == required + (gas + maxFee + tip);
    GasLimitPresence(required, gas, maxFee, tip, req.gasLimit);
    MaxFeePresence(required, gas, maxFee, tip, req.maxFeePerGas);
    TipPresence(required, gas, maxFee, tip, req.maxPriorityFeePerGas);
  }

  /** Each optional key is found only in its own run, and there exactly
      when its value is present. */
  lemma GasLimitPresence(required: seq<(string, Json.Json)>, gas: seq<(string, Json.Json)>,
                         maxFee: seq<(string, Json.Json)>, tip: seq<(string, Json.Json)>, value: Option<string>)
    requires forall i :: 0 <= i < |required| ==> required[i].0 in REQUIRED_FIELDS
    requires gas == OptionalField("gas_limit", value)
    requires forall i :: 0 <= i < |maxFee| ==> maxFee[i].0 == "max_fee_per_gas"
    requires forall i :: 0 <= i < |tip| ==> tip[i].0 == "max_priority_fee_per_gas"
    ensures Json.Lookup(required + (gas + maxFee + tip), "gas_limit").Some? <==> value.Some?
  {
    OptionalFieldPresence(required, gas, maxFee, tip, "gas_limit");
    AbsentKey(maxFee, "max_fee_per_gas", "gas_limit");
    AbsentKey(tip, "max_priority_fee_per_gas", "gas_limit");
    if value.Some? { assert gas[0].0 == "gas_limit"; }
  }

  lemma MaxFeePresence(required: seq<(string, Json.Json)>, gas: seq<(string, Json.Json)>,
                       maxFee: seq<(string, Json.Json)>, tip: seq<(string, Json.Json)>, value: Option<string>)
    requires forall i :: 0 <= i < |required| ==> required[i].0 in REQUIRED_FIELDS
    requires forall i :: 0 <= i < |gas| ==> gas[i].0 == "gas_limit"
    requires maxFee == OptionalField("max_fee_per_gas", value)
    requires forall i :: 0 <= i < |tip| ==> tip[i].0 == "max_priority_fee_per_gas"
    ensures Json.Lookup(required + (gas + maxFee + tip), "max_fee_per_gas").Some? <==> value.Some?
  {
    OptionalFieldPresence(required, gas, maxFee, tip, "max_fee_per_gas");
    AbsentKey(gas, "gas_limit", "max_fee_per_gas");
    AbsentKey(tip, "max_priority_fee_per_gas", "max_fee_per_gas");
    if value.Some? { assert maxFee[0].0 == "max_fee_per_gas"; }
  }

  lemma TipPresence(required: seq<(string, Json.Json)>, gas: seq<(string, Json.Json)>,
                    maxFee: seq<(string, Json.Json)>, tip: seq<(string, Json.Json)>, value: Option<string>)
    requires forall i :: 0 <= i < |required| ==> required[i].0 in REQUIRED_FIELDS
    requires forall i :: 0 <= i < |gas| ==> gas[i].0 == "gas_limit"
    requires forall i :: 0 <= i < |maxFee| ==> maxFee[i].0 == "max_fee_per_gas"
    requires tip == OptionalField("max_priority_fee_per_gas", value)
    ensures Json.Lookup(required + (gas + maxFee + tip), "max_priority_fee_per_gas").Some? <==> value.Some?
  {
    OptionalFieldPresence(required, gas, maxFee, tip, "max_priority_fee_per_gas");
    AbsentKey(gas, "gas_limit", "max_priority_fee_per_gas");
    AbsentKey(maxFee, "max_fee_per_gas", "max_priority_fee_per_gas");
    if value.Some? { assert tip[0].0 == "max_priority_fee_per_gas"; }
  }

  /** An optional field's key is present in the whole object exactly when
      one of the optional runs carries it: the required run never does. */
  lemma OptionalFieldPresence(required: seq<(string, Json.Json)>, gas: seq<(string, Json.Json)>,
                              maxFee: seq<(string, Json.Json)>, tip: seq<(string, Json.Json)>, key: string)
    requires forall i :: 0 <= i < |required| ==> required[i].0 in REQUIRED_FIELDS
    requires key !in REQUIRED_FIELDS
    ensures Json.Lookup(required + (gas + maxFee + tip), key).Some? <==>
      Json.Lookup(gas, key).Some? || Json.Lookup(maxFee, key).Some? || Json.Lookup(tip, key).Some?
  {
    Json.LookupAppend(required, gas + maxFee + tip, key);
    Json.LookupAppend(gas, maxFee, key);
    Json.LookupAppend(gas + maxFee, tip, key);
  }
}

=== FILE: hex.dfy ===
/** Bytes and hexadecimal text: the `hex::encode` / `hex::decode` codec used
    for call data and transaction hashes, and the `{:x}` rendering used for
    quantities such as nonces and fees. */
module Hex {
  import opened Wrappers
  import Text

  type Byte = b: int | 0 <= b < 256

  predicate IsHexDigit(c: char) {
    Text.IsDigit(c) || 'a' <= c <= 'f' || 'A' <= c <= 'F'
  }

  predicate IsLowerHexDigit(c: char) {
    Text.IsDigit(c) || 'a' <= c <= 'f'
  }

  function HexValue(c: char): (v: nat)
    requires IsHexDigit(c)
    ensures v < 16
  {
    if Text.IsDigit(c) then c as int - '0' as int
    else if 'a' <= c <= 'f' then c as int - 'a' as int + 10
    else c as int - 'A' as int + 10
  }

  function HexChar(d: nat): (c: char)
    requires d < 16
    ensures IsLowerHexDigit(c) && IsHexDigit(c) && HexValue(c) == d
  {
    if d < 10 then ('0' as int + d) as char else ('a' as int + d - 10) as char
  }

  // ---------------------------------------------------------------------
  // Byte strings
  // ---------------------------------------------------------------------

  /** `hex::encode`: two lower-case digits per byte, no prefix. */
  function Encode(bytes: seq<Byte>): (s: string)
    ensures |s| == 2 * |bytes|
    ensures forall i :: 0 <= i < |s| ==> IsLowerHexDigit(s[i])
  {
    if |bytes| == 0 then []
    else [HexChar(bytes[0] / 16), HexChar(bytes[0] % 16)] + Encode(bytes[1..])
  }

  /** `hex::decode`: fails on an odd length or on any non-hex character;
      both letter cases are accepted. */
  function Decode(s: string): (r: Option<seq<Byte>>)
    ensures r.Some? ==> 2 * |r.value| == |s|
    decreases |s|
  {
    if |s| == 0 then Some([])
    else if |s| < 2 || !IsHexDigit(s[0]) || !IsHexDigit(s[1]) then None
    else
      match Decode(s[2..])
      case None => None
      case Some(rest) => Some([(HexValue(s[0]) * 16 + HexValue(s[1])) as Byte] + rest)
  }

  /** Decoding accepts exactly the even-length strings of hex digits. */
  lemma {:induction false} DecodeAccepts(s: string)
    ensures Decode(s).Some? <==> |s| % 2 == 0 && forall i :: 0 <= i < |s| ==> IsHexDigit(s[i])
    decreases |s|
  {
    if |s| >= 2 {
      DecodeAccepts(s[2..]);
      assert forall i :: 2 <= i < |s| ==> s[i] == s[2..][i - 2];
    }
  }

  /** `hex::decode` inverts `hex::encode`. */
  lemma {:induction false} EncodeDecode(bytes: seq<Byte>)
    ensures Decode(Encode(bytes)) == Some(bytes)
  {
    if |bytes| > 0 {
      var s := Encode(bytes);
      assert s[2..] == Encode(bytes[1..]);
      EncodeDecode(bytes[1..]);
      assert HexValue(s[0]) * 16 + HexValue(s[1]) == bytes[0];
      assert [bytes[0]] + bytes[1..] == bytes;
    }
  }

  // ---------------------------------------------------------------------
  // Quantities
  // ---------------------------------------------------------------------

  /** `format!("{:x}", n)`: lower-case hex without leading zeros ("0" for zero). */
  function QuantityText(n: nat): (s: string)
    ensures |s| > 0
    ensures forall i :: 0 <= i < |s| ==> IsLowerHexDigit(s[i]) && IsHexDigit(s[i])
    decreases n
  {
    if n < 16 then [HexChar(n)] else QuantityText(n / 16) + [HexChar(n % 16)]
  }

  function HexDigitsValue(s: string): nat
    requires forall i :: 0 <= i < |s| ==> IsHexDigit(s[i])
    decreases |s|
  {
    if |s| == 0 then 0 else HexDigitsValue(s[..|s| - 1]) * 16 + HexValue(s[|s| - 1])
  }

  /** Reads a `0x`-prefixed quantity back: the prefix, then one or more hex digits. */
  function ParsePrefixedQuantity(s: string): (r: Option<nat>)
    ensures r.Some? ==> Text.StartsWith(s, "0x") && |s| > 2
  {
    if |s| > 2 && Text.StartsWith(s, "0x") && forall i :: 2 <= i < |s| ==> IsHexDigit(s[i])
    then Some(HexDigitsValue(s[2..]))
    else None
  }

  lemma {:induction false} QuantityRoundTrip(n: nat)
    ensures HexDigitsValue(QuantityText(n)) == n
    decreases n
  {
    var s := QuantityText(n);
    if n < 16 {
      assert s[..0] == [];
    } else {
      QuantityRoundTrip(n / 16);
      assert s[..|s| - 1] == QuantityText(n / 16);
    }
  }

  /** `format!("0x{:x}", n)`, the rendering of every quantity field. */
  function PrefixedQuantity(n: nat): (s: string)
    ensures ParsePrefixedQuantity(s) == Some(n)
    ensures forall i :: 2 <= i < |s| ==> IsLowerHexDigit(s[i])
  {
    var digits := QuantityText(n);
    var s := "0x" + digits;
    assert s[2..] == digits;
    QuantityRoundTrip(n);
    s
  }
}

=== FILE: json.dfy ===
/** The slice of `serde_json` the service touches: a `Value` datatype, object
    lookup, and the compact text form of strings, numbers and flat objects
    (`serde_json::to_string`), with its string escaping. */
module Json {
  import opened Wrappers
  import Text
  import Hex

  /** `serde_json::Value`. An object is its entries in iteration order; a
      `serde_json::Map` holds each key once. Numbers are the integers the
      service exchanges. */
  datatype Json =
    | Null
    | Bool(b: bool)
    | Number(n: int)
    | Str(s: string)
    | Array(items: seq<Json>)
    | Object(entries: seq<(string, Json)>)

  /** `Map::get`: the value stored under `key`, if any. */
  function Lookup(entries: seq<(string, Json)>, key: string): (r: Option<Json>)
    ensures r.Some? <==> exists i :: 0 <= i < |entries| && entries[i].0 == key
    ensures r.Some? ==> exists i :: 0 <= i < |entries| && entries[i] == (key, r.value)
  {
    if |entries| == 0 then None
    else if entries[0].0 == key then Some(entries[0].1)
    else
      var r := Lookup(entries[1..], key);
      assert forall i :: 1 <= i < |entries| ==> entries[i] == entries[1..][i - 1];
      r
  }

  /** A key is present in two runs of entries placed end to end exactly when
      it is present in one of them. */
  lemma LookupAppend(a: seq<(string, Json)>, b: seq<(string, Json)>, key: string)
    ensures Lookup(a + b, key).Some? <==> Lookup(a, key).Some? || Lookup(b, key).Some?
  {
    if Lookup(a + b, key).Some? {
      var i :| 0 <= i < |a + b| && (a + b)[i].0 == key;
      if i < |a| {
        assert a[i].0 == key;
      } else {
        assert b[i - |a|].0 == key;
      }
    }
    if Lookup(a, key).Some? {
      var i :| 0 <= i < |a| && a[i].0 == key;
      assert (a + b)[i].0 == key;
    }
    if Lookup(b, key).Some? {
      var i :| 0 <= i < |b| && b[i].0 == key;
      assert (a + b)[|a| + i].0 == key;
    }
  }

  /** Entries appended after a present key do not change what it reads. */
  lemma {:induction false} LookupAppendFirst(a: seq<(string, Json)>, b: seq<(string, Json)>, key: string)
    requires Lookup(a, key).Some?
    ensures Lookup(a + b, key) == Lookup(a, key)
  {
    if a[0].0 != key {
      assert (a + b)[1..] == a[1..] + b;
      LookupAppendFirst(a[1..], b, key);
    }
  }

  /** `Value::get(key)`: only an object has members. */
  function Get(v: Json, key: string): Option<Json> {
    if v.Object? then Lookup(v.entries, key) else None
  }

  /** `value[key]` (the `Index` impl): a missing member reads as `Null`. */
  function Index(v: Json, key: string): Json {
    Get(v, key).GetOr(Null)
  }

  // ---------------------------------------------------------------------
  // String escaping
  // ---------------------------------------------------------------------

  /** How `serde_json` writes one character inside a string literal: quote and
      backslash are escaped, control characters use their short escape or
      `\u00XX` with lower-case hex, everything else is written as is. */
  function EscapeChar(c: char): (r: string)
    ensures |r| > 0
  {
    if c == '"' then "\\\""
    else if c == '\\' then "\\\\"
    else if c == '\U{8}' then "\\b"
    else if c == '\U{C}' then "\\f"
    else if c == '\n' then "\\n"
    else if c == '\r' then "\\r"
    else if c == '\t' then "\\t"
    else if (c as int) < 0x20 then "\\u00" + [Hex.HexChar((c as int) / 16), Hex.HexChar((c as int) % 16)]
    else [c]
  }

  function Escape(s: string): (r: string)
    ensures |r| >= |s|
  {
    if |s| == 0 then [] else EscapeChar(s[0]) + Escape(s[1..])
  }

  /** The quoted literal `serde_json` writes for a string. */
  function Quote(s: string): string {
    "\"" + Escape(s) + "\""
  }

  /** Reads the body of a JSON string literal (the text between the quotes)
      back into the string it denotes. Surrogate escapes are not decoded. */
  function Unescape(s: string): (r: Option<string>)
    decreases |s|
  {
    if |s| == 0 then Some([])
    else if s[0] == '"' || (s[0] as int) < 0x20 then None
    else if s[0] != '\\' then
      match Unescape(s[1..])
      case None => None
      case Some(rest) => Some([s[0]] + rest)
    else if |s| < 2 then None
    else
      var e := s[1];
      var simple :=
        if e == '"' then Some('"')
        else if e == '\\' then Some('\\')
        else if e == '/' then Some('/')
        else if e == 'b' then Some('\U{8}')
        else if e == 'f' then Some('\U{C}')
        else if e == 'n' then Some('\n')
        else if e == 'r' then Some('\r')
        else if e == 't' then Some('\t')
        else None;
      if simple.Some? then
        match Unescape(s[2..])
        case None => None
        case Some(rest) => Some([simple.value] + rest)
      else if e == 'u' && |s| >= 6 && Hex.IsHexDigit(s[2]) && Hex.IsHexDigit(s[3])
                 && Hex.IsHexDigit(s[4]) && Hex.IsHexDigit(s[5]) then
        var code := Hex.HexValue(s[2]) * 4096 + Hex.HexValue(s[3]) * 256
                    + Hex.HexValue(s[4]) * 16 + Hex.HexValue(s[5]);
        if 0xD800 <= code < 0xE000 then None
        else
          match Unescape(s[6..])
          case None => None
          case Some(rest) => Some([code as char] + rest)
      else None
  }

  lemma UnescapeStep(c: char, t: string)
    ensures Unescape(EscapeChar(c) + t) ==
      (match Unescape(t) case None => None case Some(rest) => Some([c] + rest))
  {
    var s := EscapeChar(c) + t;
    if c == '"' || c == '\\' || c == '\U{8}' || c == '\U{C}' || c == '\n' || c == '\r' || c == '\t' {
      assert s[2..] == t;
    } else if (c as int) < 0x20 {
      assert s[6..] == t;
      assert s[2] == '0' && s[3] == '0';
    } else {
      assert s[1..] == t;
    }
  }

  /** Reading a written string literal back gives the original string. */
  lemma {:induction false} EscapeRoundTrip(s: string)
    ensures Unescape(Escape(s)) == Some(s)
  {
    if |s| > 0 {
      EscapeRoundTrip(s[1..]);
      UnescapeStep(s[0], Escape(s[1..]));
      assert [s[0]] + s[1..] == s;
    }
  }

  // ---------------------------------------------------------------------
  // Compact text of flat values
  // ---------------------------------------------------------------------

  predicate IsScalar(v: Json) {
    v.Null? || v.Bool? || v.Number? || v.Str?
  }

  function ScalarText(v: Json): string
    requires IsScalar(v)
  {
    match v
    case Null => "null"
    case Bool(b) => if b then "true" else "false"
    case Number(n) => Text.IntText(n)
    case Str(s) => Quote(s)
  }

  predicate IsFlatObject(entries: seq<(string, Json)>) {
    forall i :: 0 <= i < |entries| ==> IsScalar(entries[i].1)
  }

  function MembersText(entries: seq<(string, Json)>): string
    requires IsFlatObject(entries)
  {
    if |entries| == 0 then ""
    else
      var member := Quote(entries[0].0) + ":" + ScalarText(entries[0].1);
      if |entries| == 1 then member else member + "," + MembersText(entries[1..])
  }

  /** `serde_json::to_string` of an object whose members are scalars: members
      in order, no whitespace. */
  function FlatObjectText(entries: seq<(string, Json)>): string
    requires IsFlatObject(entries)
  {
    "{" + MembersText(entries) + "}"
  }
  // ---------------------------------------------------------------------
  // Debug text
  // ---------------------------------------------------------------------

  /** The variant name `{:?}` starts a value's text with. */
  function KindName(v: Json): string {
    match v
    case Null => "Null"
    case Bool(_) => "Bool"
    case Number(_) => "Number"
    case Str(_) => "String"
    case Array(_) => "Array"
    case Object(_) => "Object"
  }

  /** Lower-case hex digits of a code below 128, without leading zeros. */
  function SmallHex(n: nat): (r: string)
    requires n < 128
    ensures 1 <= |r| <= 2
  {
    if n < 16 then [Hex.HexChar(n)] else [Hex.HexChar(n / 16), Hex.HexChar(n % 16)]
  }

  /** An ASCII character `char::is_printable` refuses. */
  predicate IsAsciiControl(c: char) {
    (c as int) < 0x20 || (c as int) == 0x7F
  }

  /** How `{:?}` writes one character of a string (`char::escape_debug`, with
      the double quote escaped and the single quote not): backslash escapes
      for quote, backslash, NUL, newline, carriage return and tab, `\u{…}`
      for the other ASCII control characters, and anything else as is. */
  function DebugEscapeChar(c: char): (r: string)
    ensures |r| > 0
  {
    if c == '"' then "\\\""
    else if c == '\\' then "\\\\"
    else if c == '\0' then "\\0"
    else if c == '\n' then "\\n"
    else if c == '\r' then "\\r"
    else if c == '\t' then "\\t"
    else if IsAsciiControl(c) then "\\u{" + SmallHex(c as int) + "}"
    else [c]
  }

  function DebugEscape(s: string): (r: string)
    ensures |r| >= |s|
  {
    if |s| == 0 then [] else DebugEscapeChar(s[0]) + DebugEscape(s[1..])
  }

  /** `<str as Debug>::fmt`: the escaped text between double quotes. */
  function DebugString(s: string): string {
    "\"" + DebugEscape(s) + "\""
  }

  /** `<Value as Debug>::fmt` (`format!("{:?}", v)`): the variant name, with
      the payload in parentheses for scalars, and the `Vec` or `Map` debug
      list after a space for arrays and objects. */
  function Debug(v: Json): (r: string)
    ensures KindName(v) <= r
    decreases v
  {
    match v
    case Null => "Null"
    case Bool(b) => "Bool(" + (if b then "true" else "false") + ")"
    case Number(n) => "Number(" + Text.IntText(n) + ")"
    case Str(s) => "String(" + DebugString(s) + ")"
    case Array(items) => "Array [" + DebugItems(items) + "]"
    case Object(entries) => "Object {" + DebugMembers(entries) + "}"
  }

  /** The elements of a debug list, separated by a comma and a space. */
  function DebugItems(items: seq<Json>): string
    decreases items
  {
    if |items| == 0 then ""
    else if |items| == 1 then Debug(items[0])
    else Debug(items[0]) + ", " + DebugItems(items[1..])
  }

  /** The members of a debug map: the key's debug text, a colon and a space,
      and the value's. */
  function DebugMembers(entries: seq<(string, Json)>): string
    decreases entries
  {
    if |entries| == 0 then ""
    else
      var (key, value) := entries[0];
      assert value < entries[0];
      var member := DebugString(key) + ": " + Debug(value);
      if |entries| == 1 then member else member + ", " + DebugMembers(entries[1..])
  }

  /** On printable characters `{:?}` and `serde_json` escape a string alike;
      they part only on control characters. */
  lemma DebugEscapeAgrees(c: char)
    ensures !IsAsciiControl(c) ==> DebugEscapeChar(c) == EscapeChar(c)
    ensures c == '\U{8}' ==> DebugEscapeChar(c) == "\\u{8}" && EscapeChar(c) == "\\b"
  {
  }

  /** The debug texts of scalars. */
  lemma DebugScalarExamples()
    ensures Debug(Number(1)) == "Number(1)"
    ensures Debug(Bool(true)) == "Bool(true)"
    ensures Debug(Null) == "Null"
  {
    assert Text.IntText(1) == "1";
  }

  /** A quote inside a string is escaped with a backslash. */
  lemma DebugStringExample()
    ensures Debug(Str("a\"b")) == "String(\"a\\\"b\")"
  {
    var s := "a\"b";
    assert DebugEscape(s[2..]) == "b";
    assert DebugEscape(s[1..]) == "\\\"" + "b";
    assert DebugEscape(s) == "a" + "\\\"" + "b";
  }

  /** Arrays list their elements' debug texts. */
  lemma DebugArrayExample()
    ensures Debug(Array([Number(-2), Null])) == "Array [Number(-2), Null]"
  {
    var items := [Number(-2), Null];
    assert Text.IntText(-2) == "-2";
    assert Debug(items[0]) == "Number(-2)";
    assert DebugItems(items[1..]) == "Null";
  }
}

=== FILE: merchants.dfy ===
/** Merchant accounts and the networks they accept payment on. The
    `supported_networks` column is a JSONB document keyed by chain id text;
    the statements that edit it are modelled on a map of entries, with SQL
    NULL as `None`. */
module Merchants {
  import opened Wrappers
  import opened Text
  import Json
  import opened Errors
  import opened Validation

  // ---------------------------------------------------------------------
  // The document and the table
  // ---------------------------------------------------------------------

  /** What a chain key maps to: a bare array of tickers, as account
      creation stores it, or the object the add-network statement writes. */
  datatype Entry =
    | ChainAssets(assets: seq<string>)
    | ChainConfig(accepted: seq<string>, address: string)

  type Document = map<string, Entry>

  /** A row of `merchants`, keyed in the table by its unique username. */
  datatype Merchant = Merchant(id: int, email: string, passwordHash: string, networks: Option<Document>)

  datatype Table = Table(rows: map<string, Merchant>, nextId: int)

  /** Serial ids drawn from the counter, and the UNIQUE e-mail column. */
  predicate Valid(t: Table) {
    && 1 <= t.nextId
    && (forall u :: u in t.rows ==> 1 <= t.rows[u].id < t.nextId)
    && (forall u, v :: u in t.rows && v in t.rows && u != v ==> t.rows[u].id != t.rows[v].id)
    && (forall u, v :: u in t.rows && v in t.rows && u != v ==> t.rows[u].email != t.rows[v].email)
  }

  /** `$n::bigint::text`: the canonical decimal text of the chain id. */
  function ChainKey(chain: int): string {
    IntText(chain)
  }

  // ---------------------------------------------------------------------
  // Driver and server errors
  // ---------------------------------------------------------------------

  /** `fetch_one` when no row matched. */
  const NO_ROW: StabuseError :=
    DatabaseError(DbFault(RowNotFound, "no rows returned by a query that expected to return at least one row"))

  /** Decoding a returned SQL NULL into a JSON value. */
  const UNEXPECTED_NULL: StabuseError :=
    DatabaseError(DbFault(OtherDbFault, "error occurred while decoding column 0: unexpected null; try decoding as an `Option`"))

  /** Comparing the integer `id` column with a text parameter. */
  const ID_TYPE_MISMATCH: StabuseError :=
    DatabaseError(ServerFault(OtherDbFault, "operator does not exist: integer = text"))

  /** `jsonb_set` asked to step into an array with a key that is not an
      index. */
  function PathNotIndex(field: string): StabuseError {
    DatabaseError(ServerFault(OtherDbFault, "path element at position 2 is not an integer: \"" + field + "\""))
  }

  // ---------------------------------------------------------------------
  // Ticker lists
  // ---------------------------------------------------------------------

  predicate NoDuplicates(s: seq<string>) {
    forall i, j :: 0 <= i < j < |s| ==> s[i] != s[j]
  }

  function Elements(s: seq<string>): set<string> {
    set x | x in s
  }

  /** The distinct elements, each at its first appearance. */
  function Dedup(s: seq<string>): (r: seq<string>)
    ensures Elements(r) == Elements(s)
    ensures NoDuplicates(r)
    decreases |s|
  {
    if |s| == 0 then []
    else
      var rest := Dedup(s[..|s| - 1]);
      var last := s[|s| - 1];
      assert s == s[..|s| - 1] + [last];
      ElementsConcat(s[..|s| - 1], [last]);
      if last in Elements(rest) then rest
      else
        ElementsConcat(rest, [last]);
        rest + [last]
  }

  lemma ElementsConcat(a: seq<string>, b: seq<string>)
    ensures Elements(a + b) == Elements(a) + Elements(b)
  {
    forall x ensures x in Elements(a + b) <==> x in Elements(a) + Elements(b) {
      assert x in a + b <==> x in a || x in b;
    }
  }

  /** A list without duplicates is its own deduplication. */
  lemma {:induction false} DedupOfDistinct(s: seq<string>)
    requires NoDuplicates(s)
    ensures Dedup(s) == s
    decreases |s|
  {
    if |s| > 0 {
      var init := s[..|s| - 1];
      DedupOfDistinct(init);
      assert s[|s| - 1] !in Elements(init);
      assert init + [s[|s| - 1]] == s;
    }
  }

  /** `jsonb_agg(DISTINCT …)` over the old list united with one ticker: the
      old tickers and the new one, each once. */
  function WithAsset(acc: seq<string>, asset: string): (r: seq<string>)
    ensures Elements(r) == Elements(acc) + {asset}
    ensures NoDuplicates(r)
  {
    ElementsConcat(acc, [asset]);
    Dedup(acc + [asset])
  }

  /** The tickers other than `asset`, in their order, with repetitions kept. */
  function Without(acc: seq<string>, asset: string): (r: seq<string>)
    ensures asset !in Elements(r)
    ensures forall x :: x != asset ==> multiset(r)[x] == multiset(acc)[x]
    decreases |acc|
  {
    if |acc| == 0 then []
    else
      var rest := Without(acc[1..], asset);
      assert acc == [acc[0]] + acc[1..];
      if acc[0] == asset then rest
      else
        var r := [acc[0]] + rest;
        assert forall i :: 1 <= i < |r| ==> r[i] == rest[i - 1];
        r
  }

  /** Nothing is left exactly when every ticker was the one removed. */
  lemma WithoutEmpty(acc: seq<string>, asset: string)
    ensures |Without(acc, asset)| == 0 <==> forall i :: 0 <= i < |acc| ==> acc[i] == asset
  {
    var r := Without(acc, asset);
    if |r| == 0 {
      forall i | 0 <= i < |acc| ensures acc[i] == asset {
        assert multiset(acc)[acc[i]] > 0;
      }
    } else {
      assert r[0] in Elements(r);
      assert r[0] != asset && multiset(r)[r[0]] > 0;
      assert multiset(acc)[r[0]] > 0;
      assert r[0] in acc;
    }
  }

  /** Adding a ticker twice is adding it once. */
  lemma WithAssetIdempotent(acc: seq<string>, asset: string)
    ensures WithAsset(WithAsset(acc, asset), asset) == WithAsset(acc, asset)
  {
    var once := WithAsset(acc, asset);
    assert asset in Elements(once);
    var twice := once + [asset];
    assert Elements(twice) == Elements(once);
    assert Dedup(twice) == Dedup(once) by {
      assert twice[..|twice| - 1] == once;
    }
    DedupOfDistinct(once);
  }

  // ---------------------------------------------------------------------
  // `jsonb_set` on the document
  // ---------------------------------------------------------------------

  /** `COALESCE(doc->key->'accepted_assets', '[]')`: a bare array has no
      `accepted_assets` member, so it reads as empty, as does a missing key. */
  function AcceptedIn(d: Document, key: string): seq<string> {
    if key in d && d[key].ChainConfig? then d[key].accepted else []
  }

  /** `jsonb_set(doc, ARRAY[key, 'accepted_assets'], list, true)`: a missing
      key leaves the document as it is, a bare array refuses the path, and
      an object gets the member replaced. */
  function SetAccepted(d: Document, key: string, list: seq<string>): (r: Result<Document, StabuseError>)
    ensures key !in d ==> r == Ok(d)
    ensures key in d && d[key].ChainAssets? ==> r == Err(PathNotIndex("accepted_assets"))
    ensures key in d && d[key].ChainConfig? ==>
      r == Ok(d[key := ChainConfig(list, d[key].address)])
  {
    if key !in d then Ok(d)
    else match d[key]
      case ChainAssets(_) => Err(PathNotIndex("accepted_assets"))
      case ChainConfig(_, address) => Ok(d[key := ChainConfig(list, address)])
  }

  /** `jsonb_set(doc, ARRAY[key, 'address'], to_jsonb(address), true)`. */
  function SetAddress(d: Document, key: string, address: string): (r: Result<Document, StabuseError>)
    ensures key !in d ==> r == Ok(d)
    ensures key in d && d[key].ChainAssets? ==> r == Err(PathNotIndex("address"))
    ensures key in d && d[key].ChainConfig? ==>
      r == Ok(d[key := ChainConfig(d[key].accepted, address)])
  {
    if key !in d then Ok(d)
    else match d[key]
      case ChainAssets(_) => Err(PathNotIndex("address"))
      case ChainConfig(accepted, _) => Ok(d[key := ChainConfig(accepted, address)])
  }

  /** The table with one merchant's document replaced. */
  function WithNetworks(t: Table, username: string, networks: Option<Document>): (r: Table)
    requires username in t.rows
    ensures Valid(t) ==> Valid(r)
  {
    t.(rows := t.rows[username := t.rows[username].(networks := networks)])
  }

  // ---------------------------------------------------------------------
  // Creating an account
  // ---------------------------------------------------------------------

  /** The stored form of a validated request document: each chain key maps
      to its array of tickers as given; a repeated key keeps its last value. */
  function DocumentOf(entries: seq<(string, Json.Json)>): (d: Document)
    ensures forall k :: k in d <==> exists i :: 0 <= i < |entries| && entries[i].0 == k
    decreases |entries|
  {
    if |entries| == 0 then map[]
    else
      var init := entries[..|entries| - 1];
      var (key, value) := entries[|entries| - 1];
      assert forall i :: 0 <= i < |init| ==> init[i] == entries[i];
      DocumentOf(init)[key := ChainAssets(Strings(value))]
  }

  /** The string elements of a JSON array. */
  function Strings(v: Json.Json): (r: seq<string>)
    ensures v.Array? && (forall j :: 0 <= j < |v.items| ==> v.items[j].Str?) ==>
      |r| == |v.items| && forall j :: 0 <= j < |r| ==> v.items[j] == Json.Str(r[j])
  {
    if !v.Array? then [] else StringItems(v.items)
  }

  function StringItems(items: seq<Json.Json>): (r: seq<string>)
    ensures (forall j :: 0 <= j < |items| ==> items[j].Str?) ==>
      |r| == |items| && forall j :: 0 <= j < |r| ==> items[j] == Json.Str(r[j])
  {
    if |items| == 0 then []
    else
      assert forall j :: 1 <= j < |items| ==> items[j] == items[1..][j - 1];
      (if items[0].Str? then [items[0].s] else []) + StringItems(items[1..])
  }

  /** Everything `create_merchant_account` checks before it reaches the
      insert: username, e-mail and password, the hash, and a supplied
      networks document. */
  predicate ReachesInsert(username: string, email: string, password: string,
                          networks: Option<Json.Json>, hash: string -> Result<string, string>,
                          supported: SupportLookup, alphanumeric: char -> bool)
  {
    && ValidateUsername(alphanumeric, username).Ok?
    && ValidateEmail(email)
    && ValidatePassword(password).Ok?
    && hash(password).Ok?
    && (networks.Some? ==> ValidateSupportedNetworks(networks.value, supported).Ok?)
  }

  /** `create_merchant_account`: username, e-mail and password are checked
      in that order, the password is hashed, a supplied networks document
      is validated, and the row is inserted with the document (an empty
      one when none is given) under a fresh id. Username and e-mail are
      unique columns. The id column is SERIAL: its default draws from the
      sequence before the unique indexes are consulted, and the draw is
      not undone when they refuse the row, so a refused insert still
      uses up an id. */
  function CreateMerchantAccount(t: Table, username: string, email: string, password: string,
                                 networks: Option<Json.Json>, hash: string -> Result<string, string>,
                                 supported: SupportLookup, alphanumeric: char -> bool): (out: (Table, Result<int, StabuseError>))
    ensures Valid(t) ==> Valid(out.0)
    ensures out.1.Ok? <==>
      && ValidateUsername(alphanumeric, username).Ok?
      && ValidateEmail(email)
      && ValidatePassword(password).Ok?
      && hash(password).Ok?
      && (networks.Some? ==> ValidateSupportedNetworks(networks.value, supported).Ok?)
      && username !in t.rows
      && (forall u :: u in t.rows ==> t.rows[u].email != email)
    ensures out.1.Err? ==> out.0.rows == t.rows
    ensures !ReachesInsert(username, email, password, networks, hash, supported, alphanumeric) ==> out.1.Err? && out.0 == t
    ensures ReachesInsert(username, email, password, networks, hash, supported, alphanumeric) && username in t.rows ==>
      out == (t.(nextId := t.nextId + 1), Err(DatabaseError(DuplicateKey("merchants_username_key"))))
    ensures ReachesInsert(username, email, password, networks, hash, supported, alphanumeric) && username !in t.rows
            && (exists u :: u in t.rows && t.rows[u].email == email) ==>
      out == (t.(nextId := t.nextId + 1), Err(DatabaseError(DuplicateKey("merchants_email_key"))))
    ensures ValidateUsername(alphanumeric, username).Err? ==> out.1 == Err(ValidateUsername(alphanumeric, username).error)
    ensures ValidateUsername(alphanumeric, username).Ok? && !ValidateEmail(email) ==>
      out.1 == Err(InvalidCredentials("Invalid email format"))
    ensures out.1.Ok? ==>
      && out.1.value == t.nextId
      && out.0.nextId == t.nextId + 1
      && out.0.rows == t.rows[username := Merchant(t.nextId, email, hash(password).value,
           Some(if networks.Some? then DocumentOf(networks.value.entries) else map[]))]
  {
    match CheckSignup(username, email, password, networks, hash, supported, alphanumeric)
    case Err(e) => (t, Err(e))
    case Ok(checked) => InsertMerchant(t, username, email, checked.0, checked.1)
  }

  /** The part of `create_merchant_account` before the insert: the first
      failing check in the code's order, or the password hash and the
      document to store. */
  function CheckSignup(username: string, email: string, password: string,
                       networks: Option<Json.Json>, hash: string -> Result<string, string>,
                       supported: SupportLookup, alphanumeric: char -> bool): (r: Result<(string, Document), StabuseError>)
    ensures r.Ok? <==> ReachesInsert(username, email, password, networks, hash, supported, alphanumeric)
    ensures r.Ok? ==> r.value == (hash(password).value, if networks.Some? then DocumentOf(networks.value.entries) else map[])
    ensures ValidateUsername(alphanumeric, username).Err? ==> r == Err(ValidateUsername(alphanumeric, username).error)
    ensures ValidateUsername(alphanumeric, username).Ok? && !ValidateEmail(email) ==>
      r == Err(InvalidCredentials("Invalid email format"))
  {
    if ValidateUsername(alphanumeric, username).Err? then Err(ValidateUsername(alphanumeric, username).error)
    else if !ValidateEmail(email) then Err(InvalidCredentials("Invalid email format"))
    else if ValidatePassword(password).Err? then Err(ValidatePassword(password).error)
    else match hash(password)
      case Err(detail) => Err(HashError(detail))
      case Ok(passwordHash) =>
        var checked := if networks.Some? then ValidateSupportedNetworks(networks.value, supported) else Ok(());
        if checked.Err? then Err(checked.error)
        else Ok((passwordHash, if networks.Some? then DocumentOf(networks.value.entries) else map[]))
  }

  /** `INSERT_MERCHANT` itself: the unique username index is consulted
      before the e-mail one, and every outcome draws one id. */
  function InsertMerchant(t: Table, username: string, email: string, passwordHash: string, document: Document)
    : (out: (Table, Result<int, StabuseError>))
    ensures Valid(t) ==> Valid(out.0)
    ensures out.0.nextId == t.nextId + 1
    ensures out.1.Ok? <==> username !in t.rows && forall u :: u in t.rows ==> t.rows[u].email != email
    ensures out.1.Err? ==> out.0 == t.(nextId := t.nextId + 1)
    ensures out.1.Ok? ==> out == (Insert(t, username, Merchant(t.nextId, email, passwordHash, Some(document))), Ok(t.nextId))
    ensures username in t.rows ==> out == (t.(nextId := t.nextId + 1), Err(DatabaseError(DuplicateKey("merchants_username_key"))))
    ensures username !in t.rows && (exists u :: u in t.rows && t.rows[u].email == email) ==>
      out == (t.(nextId := t.nextId + 1), Err(DatabaseError(DuplicateKey("merchants_email_key"))))
  {
    if username in t.rows then (t.(nextId := t.nextId + 1), Err(DatabaseError(DuplicateKey("merchants_username_key"))))
    else if exists u :: u in t.rows && t.rows[u].email == email then (t.(nextId := t.nextId + 1), Err(DatabaseError(DuplicateKey("merchants_email_key"))))
    else (Insert(t, username, Merchant(t.nextId, email, passwordHash, Some(document))), Ok(t.nextId))
  }

  /** The table with a new row under the next id. */
  function Insert(t: Table, username: string, m: Merchant): (r: Table)
    requires username !in t.rows && m.id == t.nextId
    requires forall u :: u in t.rows ==> t.rows[u].email != m.email
    ensures r.rows == t.rows[username := m] && r.nextId == t.nextId + 1
    ensures Valid(t) ==> Valid(r)
  {
    Table(t.rows[username := m], t.nextId + 1)
  }

  /** An account created with a networks document holds, under each chain
      key, the tickers the request listed for it, as given (not
      upper-cased). */
  lemma CreatedDocumentKeepsTickers(entries: seq<(string, Json.Json)>, supported: SupportLookup, i: nat)
    requires ValidateSupportedNetworks(Json.Object(entries), supported).Ok?
    requires i < |entries|
    requires forall j :: i < j < |entries| ==> entries[j].0 != entries[i].0
    ensures entries[i].0 in DocumentOf(entries)
    ensures DocumentOf(entries)[entries[i].0] == ChainAssets(Strings(entries[i].1))
    ensures forall j :: 0 <= j < |entries[i].1.items| ==> entries[i].1.items[j] == Json.Str(Strings(entries[i].1)[j])
  {
    DocumentLastWins(entries, i);
    assert NetworkEntryOk(entries[i], supported);
  }

  lemma {:induction false} DocumentLastWins(entries: seq<(string, Json.Json)>, i: nat)
    requires i < |entries|
    requires forall j :: i < j < |entries| ==> entries[j].0 != entries[i].0
    ensures entries[i].0 in DocumentOf(entries)
    ensures DocumentOf(entries)[entries[i].0] == ChainAssets(Strings(entries[i].1))
    decreases |entries|
  {
    var init := entries[..|entries| - 1];
    if i < |entries| - 1 {
      assert forall j :: 0 <= j < |init| ==> init[j] == entries[j];
      DocumentLastWins(init, i);
    }
  }

  // ---------------------------------------------------------------------
  // Network statements, with the row chosen by username
  // ---------------------------------------------------------------------

  /** `add_merchant_supported_network` with the row chosen by username: the
      tickers and then the address are validated; the chain key is then set
      to an object holding the tickers as given and the address, replacing
      what was there; a NULL document becomes a one-key document. */
  function AddSupportedNetwork(t: Table, username: string, chain: int, assets: seq<string>, address: string,
                               supported: SupportLookup): (out: (Table, Result<Document, StabuseError>))
    ensures Valid(t) ==> Valid(out.0)
    ensures out.1.Ok? <==>
      CheckSupportedAssets(chain, assets, supported).Ok? && ValidateAddress(address).Ok? && username in t.rows
    ensures CheckSupportedAssets(chain, assets, supported).Err? ==>
      out == (t, Err(CheckSupportedAssets(chain, assets, supported).error))
    ensures out.1.Err? ==> out.0 == t
    ensures out.1.Ok? ==>
      var before := t.rows[username].networks;
      && out.1.value == (if before.Some? then before.value else map[])[ChainKey(chain) := ChainConfig(assets, address)]
      && out.0 == WithNetworks(t, username, Some(out.1.value))
  {
    var checked := CheckSupportedAssets(chain, assets, supported);
    if checked.Err? then (t, Err(checked.error))
    else if ValidateAddress(address).Err? then (t, Err(ValidateAddress(address).error))
    else if username !in t.rows then (t, Err(NO_ROW))
    else
      var entry := ChainConfig(assets, address);
      var document := match t.rows[username].networks
        case None => map[ChainKey(chain) := entry]
        case Some(d) => d[ChainKey(chain) := entry];
      (WithNetworks(t, username, Some(document)), Ok(document))
  }

  /** `add_new_merchant_network_asset` with the row chosen by username: the
      ticker is upper-cased and must be supported on the chain; it is then
      added, once, to the chain's accepted list. */
  function AddNetworkAsset(t: Table, username: string, chain: int, assetValue: string,
                           supported: SupportLookup): (out: (Table, Result<Document, StabuseError>))
    ensures Valid(t) ==> Valid(out.0)
    ensures out.1.Err? ==> out.0 == t
    ensures supported(chain, Upper(assetValue)) == Ok(false) ==>
      out == (t, Err(AssetNotSupportedonNetwork("Network does support " + Upper(assetValue))))
    ensures out.1.Ok? <==>
      && supported(chain, Upper(assetValue)) == Ok(true)
      && username in t.rows && t.rows[username].networks.Some?
      && var d := t.rows[username].networks.value;
         !(ChainKey(chain) in d && d[ChainKey(chain)].ChainAssets?)
    ensures out.1.Ok? ==>
      var d := t.rows[username].networks.value;
      var key := ChainKey(chain);
      && out.0 == WithNetworks(t, username, Some(out.1.value))
      && (key in d ==> key in out.1.value
                       && out.1.value[key].ChainConfig? && Elements(out.1.value[key].accepted) == Elements(AcceptedIn(d, key)) + {Upper(assetValue)})
      && (key !in d ==> out.1.value == d)
      && (forall k :: k != key ==> (k in out.1.value <==> k in d) && (k in d ==> out.1.value[k] == d[k]))
  {
    var asset := Upper(assetValue);
    match supported(chain, asset)
    case Err(e) => (t, Err(e))
    case Ok(ok) =>
      if !ok then (t, Err(AssetNotSupportedonNetwork("Network does support " + asset)))
      else if username !in t.rows then (t, Err(NO_ROW))
      else match t.rows[username].networks
        case None => (t, Err(UNEXPECTED_NULL))
        case Some(d) =>
          var key := ChainKey(chain);
          match SetAccepted(d, key, WithAsset(AcceptedIn(d, key), asset))
          case Err(e) => (t, Err(e))
          case Ok(updated) => (WithNetworks(t, username, Some(updated)), Ok(updated))
  }

  /** Adding the same ticker twice leaves the document as adding it once. */
  lemma AddNetworkAssetIdempotent(t: Table, username: string, chain: int, assetValue: string, supported: SupportLookup)
    requires AddNetworkAsset(t, username, chain, assetValue, supported).1.Ok?
    ensures var once := AddNetworkAsset(t, username, chain, assetValue, supported);
      AddNetworkAsset(once.0, username, chain, assetValue, supported) == (once.0, Ok(once.1.value))
  {
    var d := t.rows[username].networks.value;
    var key := ChainKey(chain);
    if key in d {
      WithAssetIdempotent(d[key].accepted, Upper(assetValue));
      var once := AddNetworkAsset(t, username, chain, assetValue, supported);
      assert once.1.value == d[key := ChainConfig(WithAsset(d[key].accepted, Upper(assetValue)), d[key].address)];
      assert once.0.rows[username].networks == Some(once.1.value);
      assert AcceptedIn(once.1.value, key) == WithAsset(d[key].accepted, Upper(assetValue));
      assert once.1.value[key := ChainConfig(WithAsset(WithAsset(d[key].accepted, Upper(assetValue)), Upper(assetValue)), d[key].address)] == once.1.value;
      assert WithNetworks(once.0, username, Some(once.1.value)) == once.0;
    } else {
      var once := AddNetworkAsset(t, username, chain, assetValue, supported);
      assert once.1.value == d;
      assert WithNetworks(once.0, username, Some(d)) == once.0;
    }
  }

  /** `remove_merchant_network_asset` with the row chosen by username, as
      the statement is written: the upper-cased ticker is filtered out of
      the chain's list, and when nothing is left the aggregate is NULL, so
      the whole document becomes NULL. */
  function RemoveNetworkAssetAsWritten(t: Table, username: string, chain: int, assetValue: string)
    : (out: (Table, Result<Document, StabuseError>))
    ensures Valid(t) ==> Valid(out.0)
    ensures username in t.rows && t.rows[username].networks.Some?
            && Without(AcceptedIn(t.rows[username].networks.value, ChainKey(chain)), Upper(assetValue)) == [] ==>
      out == (WithNetworks(t, username, None), Err(UNEXPECTED_NULL))
  {
    var asset := Upper(assetValue);
    if username !in t.rows then (t, Err(NO_ROW))
    else match t.rows[username].networks
      case None => (t, Err(UNEXPECTED_NULL))
      case Some(d) =>
        var key := ChainKey(chain);
        var remaining := Without(AcceptedIn(d, key), asset);
        if remaining == [] then (WithNetworks(t, username, None), Err(UNEXPECTED_NULL))
        else match SetAccepted(d, key, remaining)
          case Err(e) => (t, Err(e))
          case Ok(updated) => (WithNetworks(t, username, Some(updated)), Ok(updated))
  }

  /** Removing the only ticker of one chain erases every other chain of the
      merchant too. */
  lemma RemovingLastTickerErasesAll(t: Table, username: string, m: Merchant, address: string)
    requires username in t.rows
    requires t.rows[username] == m
    requires m.networks == Some(map["1" := ChainConfig(["USDC"], address), "137" := ChainConfig(["USDT"], address)])
    ensures RemoveNetworkAssetAsWritten(t, username, 1, "usdc").0.rows[username].networks == None
    ensures RemoveNetworkAssetAsWritten(t, username, 1, "usdc").1.Err?
  {
    assert ChainKey(1) == "1";
    assert Upper("usdc") == "USDC";
    var d := m.networks.value;
    assert AcceptedIn(d, "1") == ["USDC"];
    assert Without(["USDC"], "USDC") == [];
  }

  /** Removing a ticker from a chain the merchant has not configured erases
      the whole document as well. */
  lemma RemovingFromUnknownChainErasesAll(t: Table, username: string, chain: int, assetValue: string)
    requires username in t.rows && t.rows[username].networks.Some?
    requires ChainKey(chain) !in t.rows[username].networks.value
    ensures RemoveNetworkAssetAsWritten(t, username, chain, assetValue).0.rows[username].networks == None
  {
  }

  /** The statement with the empty aggregate replaced by an empty array:
      the chain's list loses the ticker and nothing else changes. */
  function RemoveNetworkAsset(t: Table, username: string, chain: int, assetValue: string)
    : (out: (Table, Result<Document, StabuseError>))
    ensures Valid(t) ==> Valid(out.0)
    ensures out.1.Err? ==> out.0 == t
    ensures out.1.Ok? <==>
      && username in t.rows && t.rows[username].networks.Some?
      && var d := t.rows[username].networks.value;
         !(ChainKey(chain) in d && d[ChainKey(chain)].ChainAssets?)
    ensures out.1.Ok? ==>
      var d := t.rows[username].networks.value;
      var key := ChainKey(chain);
      && out.0 == WithNetworks(t, username, Some(out.1.value))
      && (key in d ==> key in out.1.value && out.1.value[key].ChainConfig?
                       && Upper(assetValue) !in Elements(out.1.value[key].accepted)
                       && out.1.value[key].address == d[key].address
                       && forall x :: x != Upper(assetValue) ==>
                            multiset(out.1.value[key].accepted)[x] == multiset(d[key].accepted)[x])
      && (forall k :: k != key ==> (k in out.1.value <==> k in d) && (k in d ==> out.1.value[k] == d[k]))
  {
    var asset := Upper(assetValue);
    if username !in t.rows then (t, Err(NO_ROW))
    else match t.rows[username].networks
      case None => (t, Err(UNEXPECTED_NULL))
      case Some(d) =>
        var key := ChainKey(chain);
        match SetAccepted(d, key, Without(AcceptedIn(d, key), asset))
        case Err(e) => (t, Err(e))
        case Ok(updated) => (WithNetworks(t, username, Some(updated)), Ok(updated))
  }

  /** Whenever the statement as written leaves some ticker, it agrees with
      the corrected one. */
  lemma RemoveAgreesWhenTickersRemain(t: Table, username: string, chain: int, assetValue: string)
    requires username in t.rows && t.rows[username].networks.Some?
    requires Without(AcceptedIn(t.rows[username].networks.value, ChainKey(chain)), Upper(assetValue)) != []
    ensures RemoveNetworkAssetAsWritten(t, username, chain, assetValue) == RemoveNetworkAsset(t, username, chain, assetValue)
  {
  }

  /** Adding and then removing a ticker leaves the chain's list holding the
      other tickers it held before. */
  lemma AddThenRemove(t: Table, username: string, chain: int, assetValue: string, supported: SupportLookup)
    requires AddNetworkAsset(t, username, chain, assetValue, supported).1.Ok?
    requires ChainKey(chain) in t.rows[username].networks.value
    ensures var added := AddNetworkAsset(t, username, chain, assetValue, supported);
      var removed := RemoveNetworkAsset(added.0, username, chain, assetValue);
      var key := ChainKey(chain);
      && removed.1.Ok?
      && Elements(removed.1.value[key].accepted)
         == Elements(t.rows[username].networks.value[key].accepted) - {Upper(assetValue)}
  {
    var d := t.rows[username].networks.value;
    var key := ChainKey(chain);
    var added := AddNetworkAsset(t, username, chain, assetValue, supported);
    var removed := RemoveNetworkAsset(added.0, username, chain, assetValue);
    var before := d[key].accepted;
    var after := removed.1.value[key].accepted;
    var mid := added.1.value[key].accepted;
    assert Elements(mid) == Elements(before) + {Upper(assetValue)};
    forall x ensures x in Elements(after) <==> x in Elements(before) - {Upper(assetValue)} {
      if x != Upper(assetValue) {
        assert multiset(after)[x] == multiset(mid)[x];
        assert x in Elements(after) <==> x in multiset(after) by {
          assert x in multiset(after) <==> x in after;
        }
        assert x in Elements(mid) <==> x in multiset(mid) by {
          assert x in multiset(mid) <==> x in mid;
        }
      }
    }
  }

  /** `update_merchant_network_address` with the row chosen by username: the
      address is validated, then written into the chain's object; a chain
      the merchant has not configured is left alone. */
  function UpdateNetworkAddress(t: Table, username: string, chain: int, address: string)
    : (out: (Table, Result<Document, StabuseError>))
    ensures Valid(t) ==> Valid(out.0)
    ensures out.1.Err? ==> out.0 == t
    ensures ValidateAddress(address).Err? ==> out == (t, Err(ValidateAddress(address).error))
    ensures out.1.Ok? <==>
      && ValidateAddress(address).Ok?
      && username in t.rows && t.rows[username].networks.Some?
      && var d := t.rows[username].networks.value;
         !(ChainKey(chain) in d && d[ChainKey(chain)].ChainAssets?)
    ensures out.1.Ok? ==>
      var d := t.rows[username].networks.value;
      var key := ChainKey(chain);
      && out.0 == WithNetworks(t, username, Some(out.1.value))
      && (key in d ==> out.1.value == d[key := ChainConfig(d[key].accepted, address)])
      && (key !in d ==> out.1.value == d)
  {
    if ValidateAddress(address).Err? then (t, Err(ValidateAddress(address).error))
    else if username !in t.rows then (t, Err(NO_ROW))
    else match t.rows[username].networks
      case None => (t, Err(UNEXPECTED_NULL))
      case Some(d) =>
        match SetAddress(d, ChainKey(chain), address)
        case Err(e) => (t, Err(e))
        case Ok(updated) => (WithNetworks(t, username, Some(updated)), Ok(updated))
  }

  /** A network added by the add-network statement can then have its
      address changed, and its tickers survive the change. */
  lemma AddNetworkThenUpdateAddress(t: Table, username: string, chain: int, assets: seq<string>,
                                    address: string, newAddress: string, supported: SupportLookup)
    requires AddSupportedNetwork(t, username, chain, assets, address, supported).1.Ok?
    requires ValidateAddress(newAddress).Ok?
    ensures var added := AddSupportedNetwork(t, username, chain, assets, address, supported);
      var updated := UpdateNetworkAddress(added.0, username, chain, newAddress);
      && updated.1.Ok?
      && updated.1.value[ChainKey(chain)] == ChainConfig(assets, newAddress)
  {
  }

  // ---------------------------------------------------------------------
  // The statements as written: `WHERE id = $n` with the username bound
  // ---------------------------------------------------------------------

  /** `add_merchant_supported_network` as written: after validation the
      statement compares the integer id with the username text and is
      refused, so no merchant is ever updated. */
  function AddSupportedNetworkAsWritten(t: Table, username: string, chain: int, assets: seq<string>, address: string,
                                        supported: SupportLookup): (out: (Table, Result<Document, StabuseError>))
    ensures out.0 == t && out.1.Err?
    ensures CheckSupportedAssets(chain, assets, supported).Ok? && ValidateAddress(address).Ok? ==>
      out.1 == Err(ID_TYPE_MISMATCH)
  {
    var checked := CheckSupportedAssets(chain, assets, supported);
    if checked.Err? then (t, Err(checked.error))
    else if ValidateAddress(address).Err? then (t, Err(ValidateAddress(address).error))
    else (t, Err(ID_TYPE_MISMATCH))
  }

  /** `add_new_merchant_network_asset` as written. */
  function AddNetworkAssetAsWritten(t: Table, username: string, chain: int, assetValue: string,
                                    supported: SupportLookup): (out: (Table, Result<Document, StabuseError>))
    ensures out.0 == t && out.1.Err?
    ensures supported(chain, Upper(assetValue)) == Ok(true) ==> out.1 == Err(ID_TYPE_MISMATCH)
  {
    match supported(chain, Upper(assetValue))
    case Err(e) => (t, Err(e))
    case Ok(ok) =>
      if !ok then (t, Err(AssetNotSupportedonNetwork("Network does support " + Upper(assetValue))))
      else (t, Err(ID_TYPE_MISMATCH))
  }

  /** `remove_merchant_network_asset` as written. */
  function RemoveNetworkAssetWhereId(t: Table, username: string, chain: int, assetValue: string)
    : (out: (Table, Result<Document, StabuseError>))
    ensures out == (t, Err(ID_TYPE_MISMATCH))
  {
    (t, Err(ID_TYPE_MISMATCH))
  }

  /** `update_merchant_network_address` as written. */
  function UpdateNetworkAddressAsWritten(t: Table, username: string, chain: int, address: string)
    : (out: (Table, Result<Document, StabuseError>))
    ensures out.0 == t && out.1.Err?
    ensures ValidateAddress(address).Ok? ==> out.1 == Err(ID_TYPE_MISMATCH)
  {
    if ValidateAddress(address).Err? then (t, Err(ValidateAddress(address).error))
    else (t, Err(ID_TYPE_MISMATCH))
  }

  /** As written, an input every check accepts still changes nothing, while
      the statement choosing the row by username applies it. */
  lemma WhereIdNeverUpdates(t: Table, username: string, chain: int, assets: seq<string>, address: string,
                            supported: SupportLookup)
    requires CheckSupportedAssets(chain, assets, supported).Ok? && ValidateAddress(address).Ok?
    requires username in t.rows
    ensures AddSupportedNetworkAsWritten(t, username, chain, assets, address, supported) == (t, Err(ID_TYPE_MISMATCH))
    ensures AddSupportedNetwork(t, username, chain, assets, address, supported).1.Ok?
    ensures AddSupportedNetwork(t, username, chain, assets, address, supported).0.rows[username].networks.value[ChainKey(chain)]
         == ChainConfig(assets, address)
  {
  }
}

=== FILE: payment_store.dfy ===
/** The payment tables as an abstract store: pending payments keyed by id,
    settled payments keyed by id with a unique transaction hash, and the
    statements the settlement code runs against them. Ids are serial keys
    drawn from per-table counters. */
module PaymentStore {
  import opened Wrappers
  import opened Text
  import opened Errors

  /** A row of `pending_payments`. `time` is the row's creation time. */
  datatype PendingRow = PendingRow(merchantId: int, sender: string, amount: nat, asset: string,
                                   network: string, webhookUrl: string, time: int)

  /** A row of `payments`. Every column the table declares NOT NULL is a
      plain value here; `merchantId` is the (nullable) foreign key. */
  datatype SettledRow = SettledRow(merchantId: Option<int>, sender: string, amount: nat, txHash: string,
                                   asset: string, network: string, time: int)

  datatype Store = Store(pending: map<int, PendingRow>, settled: map<int, SettledRow>,
                         nextPendingId: int, nextSettledId: int)

  const EMPTY: Store := Store(map[], map[], 1, 1)

  /** At most one settled row per transaction hash: the `UNIQUE` constraint. */
  predicate UniqueTxHashes(settled: map<int, SettledRow>) {
    forall a, b :: a in settled && b in settled && a != b ==> settled[a].txHash != settled[b].txHash
  }

  /** Serial keys: every id was drawn from its counter, so a fresh draw is
      never a key already in use. */
  predicate Valid(s: Store) {
    && 1 <= s.nextPendingId && 1 <= s.nextSettledId
    && (forall id :: id in s.pending ==> 1 <= id < s.nextPendingId)
    && (forall id :: id in s.settled ==> 1 <= id < s.nextSettledId)
    && UniqueTxHashes(s.settled)
  }

  lemma EmptyValid()
    ensures Valid(EMPTY)
  {
  }

  ghost predicate HasTxHash(settled: map<int, SettledRow>, txHash: string) {
    exists id :: id in settled && settled[id].txHash == txHash
  }

  /** The error the `::NUMERIC` cast raises on text that is not a number. */
  function NumericCastError(text: string): StabuseError {
    DatabaseError(ServerFault(OtherDbFault, "invalid input syntax for type numeric: \"" + text + "\""))
  }

  // ---------------------------------------------------------------------
  // Pending payments
  // ---------------------------------------------------------------------

  /** `ADD_PENDING_PAYMENT`: casts the amount text to a number and inserts a
      row under a fresh id, which it returns. The webhook URL the caller
      binds is stored with the row. */
  function AddPendingPayment(s: Store, merchantId: int, sender: string, amountText: string, asset: string,
                             network: string, webhookUrl: string, time: int): (out: (Store, Result<int, StabuseError>))
    ensures Valid(s) ==> Valid(out.0)
    ensures out.1.Err? <==> ParseDecimal(amountText).None?
    ensures out.1.Err? ==> out.0 == s && out.1.error == NumericCastError(amountText)
    ensures out.1.Ok? ==>
      var id := out.1.value;
      && (Valid(s) ==> id !in s.pending)
      && out.0.pending == s.pending[id := PendingRow(merchantId, sender, ParseDecimal(amountText).value, asset, network, webhookUrl, time)]
      && out.0.settled == s.settled
      && out.0.nextSettledId == s.nextSettledId
  {
    match ParseDecimal(amountText)
    case None => (s, Err(NumericCastError(amountText)))
    case Some(amount) =>
      var id := s.nextPendingId;
      var row := PendingRow(merchantId, sender, amount, asset, network, webhookUrl, time);
      (s.(pending := s.pending[id := row], nextPendingId := id + 1), Ok(id))
  }

  /** `GET_PENDING_PAYMENT`: the row with that id, or `RowNotFound`. */
  function GetPendingPayment(s: Store, id: int): (r: Result<PendingRow, StabuseError>)
    ensures r.Ok? <==> id in s.pending
    ensures r.Ok? ==> r.value == s.pending[id]
    ensures r.Err? ==> r.error.DatabaseError? && r.error.fault.kind == RowNotFound
  {
    if id in s.pending then Ok(s.pending[id])
    else Err(DatabaseError(DbFault(RowNotFound, "no rows returned by a query that expected to return at least one row")))
  }

  /** The fields of `PendingPayment`, which the verifier decodes the pending
      row into, in declaration order; also the columns of `pending_payments`
      a select may list. */
  datatype PendingColumn = Id | MerchantId | Sender | Amount | Asset | Network | WebhookUrl | Time

  function ColumnName(c: PendingColumn): string {
    match c
    case Id => "id"
    case MerchantId => "merchant_id"
    case Sender => "sender"
    case Amount => "amount"
    case Asset => "asset"
    case Network => "network"
    case WebhookUrl => "webhook_url"
    case Time => "time"
  }

  const PENDING_PAYMENT_FIELDS: seq<PendingColumn> := [Id, MerchantId, Sender, Amount, Asset, Network, WebhookUrl, Time]

  /** The columns `GET_PENDING_PAYMENT` selects, as written: every field of
      `PendingPayment` but `webhook_url`. */
  const GET_PENDING_PAYMENT_COLUMNS: set<PendingColumn> := {Id, MerchantId, Sender, Amount, Asset, Network, Time}

  /** sqlx's error when a row lacks a column the target struct names. */
  function ColumnNotFoundError(c: PendingColumn): StabuseError {
    DatabaseError(DbFault(ColumnNotFound, "no column found for name: " + ColumnName(c)))
  }

  /** The first of `fields` that `columns` does not supply. */
  function FirstMissing(fields: seq<PendingColumn>, columns: set<PendingColumn>): (r: Option<PendingColumn>)
    ensures r.None? <==> forall i :: 0 <= i < |fields| ==> fields[i] in columns
    ensures r.Some? ==> r.value !in columns && r.value in fields
    ensures r.Some? ==> exists i :: 0 <= i < |fields| && fields[i] == r.value && forall j :: 0 <= j < i ==> fields[j] in columns
  {
    if |fields| == 0 then None
    else if fields[0] !in columns then Some(fields[0])
    else
      var rest := FirstMissing(fields[1..], columns);
      assert rest.Some? ==> exists i :: 0 < i < |fields| && fields[i] == rest.value && forall j :: 0 <= j < i ==> fields[j] in columns by {
        if rest.Some? {
          var k :| 0 <= k < |fields[1..]| && fields[1..][k] == rest.value && forall j :: 0 <= j < k ==> fields[1..][j] in columns;
          assert fields[k + 1] == rest.value;
          assert forall j :: 0 <= j < k + 1 ==> fields[j] in columns by {
            forall j | 0 <= j < k + 1 ensures fields[j] in columns {
              if j > 0 { assert fields[j] == fields[1..][j - 1]; }
            }
          }
        }
      }
      assert rest.None? ==> forall i :: 0 <= i < |fields| ==> fields[i] in columns by {
        if rest.None? {
          forall i | 0 <= i < |fields| ensures fields[i] in columns {
            if i > 0 { assert fields[i] == fields[1..][i - 1]; }
          }
        }
      }
      rest
  }

  /** A select of `columns` from `pending_payments` by id, fetched with
      `fetch_one` and decoded into `PendingPayment`: no row is `RowNotFound`;
      a row is decoded field by field, and the first field the select does
      not supply fails with `ColumnNotFound`. */
  function FetchPendingPayment(s: Store, id: int, columns: set<PendingColumn>): (r: Result<PendingRow, StabuseError>)
    ensures id !in s.pending ==> r == GetPendingPayment(s, id)
    ensures FirstMissing(PENDING_PAYMENT_FIELDS, columns).None? ==> r == GetPendingPayment(s, id)
    ensures id in s.pending && FirstMissing(PENDING_PAYMENT_FIELDS, columns).Some? ==>
      r == Err(ColumnNotFoundError(FirstMissing(PENDING_PAYMENT_FIELDS, columns).value))
  {
    if id !in s.pending then GetPendingPayment(s, id)
    else match FirstMissing(PENDING_PAYMENT_FIELDS, columns)
      case Some(c) => Err(ColumnNotFoundError(c))
      case None => GetPendingPayment(s, id)
  }

  /** As written, the pending-payment select cannot load any row: every id
      that exists fails to decode for want of `webhook_url`. */
  lemma PendingSelectAsWrittenFails(s: Store, id: int)
    requires id in s.pending
    ensures FetchPendingPayment(s, id, GET_PENDING_PAYMENT_COLUMNS) == Err(ColumnNotFoundError(WebhookUrl))
  {
    WebhookUrlFirstMissing();
  }

  lemma WebhookUrlFirstMissing()
    ensures FirstMissing(PENDING_PAYMENT_FIELDS, GET_PENDING_PAYMENT_COLUMNS) == Some(WebhookUrl)
  {
    var fields, columns := PENDING_PAYMENT_FIELDS, GET_PENDING_PAYMENT_COLUMNS;
    assert fields[0..] == fields;
    SkipSupplied(fields, columns, 0);
    SkipSupplied(fields, columns, 1);
    SkipSupplied(fields, columns, 2);
    SkipSupplied(fields, columns, 3);
    SkipSupplied(fields, columns, 4);
    SkipSupplied(fields, columns, 5);
    assert fields[6..][0] == WebhookUrl;
  }

  lemma SkipSupplied(fields: seq<PendingColumn>, columns: set<PendingColumn>, k: nat)
    requires k < |fields| && fields[k] in columns
    ensures FirstMissing(fields[k..], columns) == FirstMissing(fields[k + 1..], columns)
  {
    assert fields[k..][1..] == fields[k + 1..];
  }

  /** With `webhook_url` added to the select, the fetch is the plain read. */
  lemma CompletePendingSelectReads(s: Store, id: int)
    ensures FetchPendingPayment(s, id, GET_PENDING_PAYMENT_COLUMNS + {WebhookUrl}) == GetPendingPayment(s, id)
  {
    assert FirstMissing(PENDING_PAYMENT_FIELDS, GET_PENDING_PAYMENT_COLUMNS + {WebhookUrl}).None?;
  }

  /** `DELETE_PENDING_PAYMENT`: removes the row with that id; other rows, and
      the settled table, are untouched, and an absent id changes nothing. */
  function DeletePendingPayment(s: Store, id: int): (r: Store)
    ensures Valid(s) ==> Valid(r)
    ensures id !in r.pending
    ensures forall k :: k != id ==> (k in r.pending <==> k in s.pending)
    ensures forall k :: k in r.pending ==> r.pending[k] == s.pending[k]
    ensures r.settled == s.settled && r.nextPendingId == s.nextPendingId && r.nextSettledId == s.nextSettledId
  {
    s.(pending := s.pending - {id})
  }

  lemma DeleteAbsentIsNoOp(s: Store, id: int)
    requires id !in s.pending
    ensures DeletePendingPayment(s, id) == s
  {
    assert s.pending - {id} == s.pending;
  }

  lemma AddThenGetPending(s: Store, merchantId: int, sender: string, amount: nat, asset: string,
                          network: string, webhookUrl: string, time: int)
    ensures var out := AddPendingPayment(s, merchantId, sender, DecimalText(amount), asset, network, webhookUrl, time);
      out.1.Ok? && GetPendingPayment(out.0, out.1.value) == Ok(PendingRow(merchantId, sender, amount, asset, network, webhookUrl, time))
  {
    DecimalParses(amount);
  }

  // ---------------------------------------------------------------------
  // Settled payments
  // ---------------------------------------------------------------------

  /** The values an `INSERT INTO payments` supplies; a column the statement
      does not name is `None`, since the column has no default. */
  datatype PaymentValues = PaymentValues(merchantId: Option<int>, sender: string, amount: nat, txHash: string,
                                         asset: string, network: string, time: Option<int>)

  /** The server's refusal of a NULL in a NOT NULL column of `payments`, in
      the wording of PostgreSQL 13 and later. */
  function NotNullError(column: string): StabuseError {
    DatabaseError(ServerFault(NotNullViolation, "null value in column \"" + column + "\" of relation \"payments\" violates not-null constraint"))
  }

  function UniqueViolationError(txHash: string): StabuseError {
    DatabaseError(DuplicateKey("payments_tx_hash_key"))
  }

  /** An insert into `payments`: the NOT NULL check on `time`, then the
      unique check on `tx_hash`, then a new row under a fresh serial id. */
  function InsertPayment(s: Store, v: PaymentValues): (out: (Store, Result<int, StabuseError>))
    ensures Valid(s) ==> Valid(out.0)
    ensures out.1.Err? ==> out.0 == s
    ensures v.time.None? ==> out.1 == Err(NotNullError("time"))
    ensures v.time.Some? && HasTxHash(s.settled, v.txHash) ==> out.1 == Err(UniqueViolationError(v.txHash))
    ensures out.1.Ok? <==> v.time.Some? && !HasTxHash(s.settled, v.txHash)
    ensures out.1.Ok? ==>
      var id := out.1.value;
      && (Valid(s) ==> id !in s.settled)
      && out.0.settled == s.settled[id := SettledRow(v.merchantId, v.sender, v.amount, v.txHash, v.asset, v.network, v.time.value)]
      && out.0.pending == s.pending
      && out.0.nextPendingId == s.nextPendingId
  {
    if v.time.None? then (s, Err(NotNullError("time")))
    else if exists id :: id in s.settled && s.settled[id].txHash == v.txHash then
      (s, Err(UniqueViolationError(v.txHash)))
    else
      var id := s.nextSettledId;
      var row := SettledRow(v.merchantId, v.sender, v.amount, v.txHash, v.asset, v.network, v.time.value);
      (s.(settled := s.settled[id := row], nextSettledId := id + 1), Ok(id))
  }

  /** `ADD_PAYMENT` as the statement is written: it names six columns and
      leaves out `time`, which the table declares NOT NULL without a default. */
  function AddPaymentAsWritten(s: Store, merchantId: int, sender: string, amountText: string, txHash: string,
                               asset: string, network: string): (out: (Store, Result<int, StabuseError>))
    ensures out.0 == s
    ensures out.1.Err?
    ensures ParseDecimal(amountText).Some? ==> out.1.error == NotNullError("time")
  {
    match ParseDecimal(amountText)
    case None => (s, Err(NumericCastError(amountText)))
    case Some(amount) => InsertPayment(s, PaymentValues(Some(merchantId), sender, amount, txHash, asset, network, None))
  }

  /** The statement can never settle a payment: every call fails and leaves
      both tables as they were, even for a well-formed amount and a fresh
      transaction hash. */
  lemma AddPaymentAsWrittenNeverInserts(s: Store, merchantId: int, sender: string, amount: nat, txHash: string,
                                        asset: string, network: string)
    requires Valid(s) && !HasTxHash(s.settled, txHash)
    ensures var out := AddPaymentAsWritten(s, merchantId, sender, DecimalText(amount), txHash, asset, network);
      out.1 == Err(NotNullError("time")) && out.0 == s
  {
    DecimalParses(amount);
  }

  /** `ADD_PAYMENT` with the `time` column supplied: casts the amount, then
      inserts; a transaction hash already settled is refused. */
  function AddPayment(s: Store, merchantId: int, sender: string, amountText: string, txHash: string,
                      asset: string, network: string, time: int): (out: (Store, Result<int, StabuseError>))
    ensures Valid(s) ==> Valid(out.0)
    ensures out.1.Err? ==> out.0 == s
    ensures ParseDecimal(amountText).None? ==> out.1 == Err(NumericCastError(amountText))
    ensures ParseDecimal(amountText).Some? && HasTxHash(s.settled, txHash) ==> out.1 == Err(UniqueViolationError(txHash))
    ensures out.1.Ok? <==> ParseDecimal(amountText).Some? && !HasTxHash(s.settled, txHash)
    ensures out.1.Ok? ==>
      var id := out.1.value;
      && (Valid(s) ==> id !in s.settled)
      && out.0.settled == s.settled[id := SettledRow(Some(merchantId), sender, ParseDecimal(amountText).value, txHash, asset, network, time)]
      && out.0.pending == s.pending
      && out.0.nextPendingId == s.nextPendingId
  {
    match ParseDecimal(amountText)
    case None => (s, Err(NumericCastError(amountText)))
    case Some(amount) => InsertPayment(s, PaymentValues(Some(merchantId), sender, amount, txHash, asset, network, Some(time)))
  }

  /** The unique hash is the idempotency guard: settling the same hash a
      second time fails and changes nothing, whatever the other columns say. */
  lemma SettleTwiceRefused(s: Store, txHash: string, a: SettledRow, b: SettledRow, t1: int, t2: int)
    requires Valid(s)
    ensures var first := AddPayment(s, a.merchantId.GetOr(0), a.sender, DecimalText(a.amount), txHash, a.asset, a.network, t1);
      first.1.Ok? ==>
        var second := AddPayment(first.0, b.merchantId.GetOr(0), b.sender, DecimalText(b.amount), txHash, b.asset, b.network, t2);
        second.1 == Err(UniqueViolationError(txHash)) && second.0 == first.0
  {
    DecimalParses(a.amount);
    DecimalParses(b.amount);
    var first := AddPayment(s, a.merchantId.GetOr(0), a.sender, DecimalText(a.amount), txHash, a.asset, a.network, t1);
    if first.1.Ok? {
      assert first.0.settled[first.1.value].txHash == txHash;
    }
  }

  /** The settled rows for one merchant. */
  function MerchantPayments(settled: map<int, SettledRow>, merchantId: int): set<int> {
    set id | id in settled && settled[id].merchantId == Some(merchantId)
  }

  /** Deleting a merchant: `ON DELETE CASCADE` removes exactly its settled
      payments. */
  function DeleteMerchantCascade(s: Store, merchantId: int): (r: Store)
    ensures Valid(s) ==> Valid(r)
    ensures forall id :: id in r.settled <==> id in s.settled && s.settled[id].merchantId != Some(merchantId)
    ensures forall id :: id in r.settled ==> r.settled[id] == s.settled[id]
    ensures MerchantPayments(r.settled, merchantId) == {}
    ensures r.pending == s.pending
  {
    s.(settled := map id | id in s.settled && s.settled[id].merchantId != Some(merchantId) :: s.settled[id])
  }
}

=== FILE: queue.dfy ===
/** The settlement queue consumer: one delivery of a verification message is
    decoded, routed to the Solana or the EVM verifier by network name, and
    answered on the channel; a settled payment is announced to the merchant's
    webhook. The verifiers, the webhook transport and the JSON text parser are
    parameters. */
module Queue {
  import opened Wrappers
  import opened Text
  import opened Hex
  import Json
  import opened Errors
  import opened PaymentStore
  import Timestamp
  import Solana

  const I32_MIN: int := -0x8000_0000
  const I32_MAX: int := 0x7fff_ffff

  predicate FitsI32(n: int) { I32_MIN <= n <= I32_MAX }

  // ---------------------------------------------------------------------
  // The message on the queue
  // ---------------------------------------------------------------------

  /** `TransactionVerificationMessage`. */
  datatype VerificationMessage = VerificationMessage(pendingPaymentId: int, txHash: string, rpcUrl: string, network: string)

  /** The JSON object a publisher serialises: the four fields in declaration
      order. */
  function MessageJson(m: VerificationMessage): Json.Json {
    Json.Object([
      ("pending_payment_id", Json.Number(m.pendingPaymentId)),
      ("tx_hash", Json.Str(m.txHash)),
      ("rpc_url", Json.Str(m.rpcUrl)),
      ("network", Json.Str(m.network))])
  }

  /** How many members of an object carry `key`. */
  function KeyCount(entries: seq<(string, Json.Json)>, key: string): (n: nat)
    ensures n == 0 <==> Json.Lookup(entries, key).None?
  {
    if |entries| == 0 then 0
    else if entries[0].0 == key then 1 + KeyCount(entries[1..], key)
    else
      var n := KeyCount(entries[1..], key);
      assert Json.Lookup(entries, key) == Json.Lookup(entries[1..], key);
      n
  }

  /** Each of the message's four keys occurs once in its serialisation. */
  lemma MessageKeysOnce(m: VerificationMessage)
    ensures var e := MessageJson(m).entries;
      && KeyCount(e, "pending_payment_id") == 1 && KeyCount(e, "tx_hash") == 1
      && KeyCount(e, "rpc_url") == 1 && KeyCount(e, "network") == 1
  {
    var e := MessageJson(m).entries;
    assert e == [e[0]] + [e[1]] + [e[2]] + [e[3]];
    forall k | k in ["pending_payment_id", "tx_hash", "rpc_url", "network"]
      ensures KeyCount(e, k) == 1
    {
      KeyCountAppend([e[0]] + [e[1]] + [e[2]], [e[3]], k);
      KeyCountAppend([e[0]] + [e[1]], [e[2]], k);
      KeyCountAppend([e[0]], [e[1]], k);
    }
  }

  lemma {:induction false} KeyCountAppend(a: seq<(string, Json.Json)>, b: seq<(string, Json.Json)>, key: string)
    ensures KeyCount(a + b, key) == KeyCount(a, key) + KeyCount(b, key)
  {
    if |a| > 0 {
      assert (a + b)[1..] == a[1..] + b;
      KeyCountAppend(a[1..], b, key);
    } else {
      assert a + b == b;
    }
  }

  /** A field a derived `Deserialize` accepts: present exactly once (a second
      occurrence is a duplicate-field error). */
  function Field(entries: seq<(string, Json.Json)>, key: string): (r: Option<Json.Json>)
    ensures r.Some? <==> KeyCount(entries, key) == 1
    ensures r.Some? ==> Json.Lookup(entries, key) == r
  {
    if KeyCount(entries, key) == 1 then Json.Lookup(entries, key) else None
  }

  /** A string field. */
  function StringField(entries: seq<(string, Json.Json)>, key: string): Option<string> {
    match Field(entries, key)
    case Some(Str(s)) => Some(s)
    case _ => None
  }

  /** The derived `Deserialize` for the message. An object needs each of the
      four fields exactly once, a string for the three text fields and an
      integer in `i32` range for the id; unknown members are ignored. An
      array is the sequence form: exactly four items, in field order. */
  function MessageFromJson(v: Json.Json): (r: Option<VerificationMessage>)
    ensures v.Object? ==> (r.Some? <==>
      && Field(v.entries, "pending_payment_id").Some?
      && Field(v.entries, "pending_payment_id").value.Number?
      && FitsI32(Field(v.entries, "pending_payment_id").value.n)
      && StringField(v.entries, "tx_hash").Some?
      && StringField(v.entries, "rpc_url").Some?
      && StringField(v.entries, "network").Some?)
    ensures v.Object? && r.Some? ==>
      && Json.Lookup(v.entries, "pending_payment_id") == Some(Json.Number(r.value.pendingPaymentId))
      && Json.Lookup(v.entries, "tx_hash") == Some(Json.Str(r.value.txHash))
      && Json.Lookup(v.entries, "rpc_url") == Some(Json.Str(r.value.rpcUrl))
      && Json.Lookup(v.entries, "network") == Some(Json.Str(r.value.network))
    ensures v.Array? ==> (r.Some? <==>
      && |v.items| == 4
      && v.items[0].Number? && FitsI32(v.items[0].n)
      && v.items[1].Str? && v.items[2].Str? && v.items[3].Str?)
    ensures v.Array? && r.Some? ==> v.items == MessageArray(r.value).items
    ensures !v.Object? && !v.Array? ==> r.None?
  {
    match v
    case Object(entries) =>
      (match Field(entries, "pending_payment_id")
       case Some(Number(id)) =>
         if !FitsI32(id) then None
         else
           var txHash :- StringField(entries, "tx_hash");
           var rpcUrl :- StringField(entries, "rpc_url");
           var network :- StringField(entries, "network");
           Some(VerificationMessage(id, txHash, rpcUrl, network))
       case _ => None)
    case Array(items) =>
      if |items| != 4 then None
      else
        (match (items[0], items[1], items[2], items[3])
         case (Number(id), Str(txHash), Str(rpcUrl), Str(network)) =>
           if FitsI32(id) then Some(VerificationMessage(id, txHash, rpcUrl, network)) else None
         case _ => None)
    case _ => None
  }

  /** The sequence form of the message: its four fields in declaration
      order. */
  function MessageArray(m: VerificationMessage): (v: Json.Json)
    ensures v.Array?
  {
    Json.Array([Json.Number(m.pendingPaymentId), Json.Str(m.txHash), Json.Str(m.rpcUrl), Json.Str(m.network)])
  }

  /** The sequence form reads back too; one item more or fewer is refused. */
  lemma MessageArrayRoundTrip(m: VerificationMessage)
    requires FitsI32(m.pendingPaymentId)
    ensures MessageFromJson(MessageArray(m)) == Some(m)
    ensures MessageFromJson(Json.Array(MessageArray(m).items + [Json.Null])) == None
    ensures MessageFromJson(Json.Array(MessageArray(m).items[..3])) == None
  {
  }

  /** What a publisher writes, the consumer reads back. */
  lemma MessageRoundTrip(m: VerificationMessage)
    requires FitsI32(m.pendingPaymentId)
    ensures MessageFromJson(MessageJson(m)) == Some(m)
  {
    MessageFields(m);
  }

  /** Each of the message's fields reads back from its serialisation. */
  lemma MessageFields(m: VerificationMessage)
    ensures var e := MessageJson(m).entries;
      && Field(e, "pending_payment_id") == Some(Json.Number(m.pendingPaymentId))
      && StringField(e, "tx_hash") == Some(m.txHash)
      && StringField(e, "rpc_url") == Some(m.rpcUrl)
      && StringField(e, "network") == Some(m.network)
  {
    var e := MessageJson(m).entries;
    MessageKeysOnce(m);
    assert Json.Lookup(e, "pending_payment_id") == Some(Json.Number(m.pendingPaymentId));
    assert Json.Lookup(e, "tx_hash") == Some(Json.Str(m.txHash)) by {
      assert Json.Lookup(e, "tx_hash") == Json.Lookup(e[1..], "tx_hash");
    }
    assert Json.Lookup(e, "rpc_url") == Some(Json.Str(m.rpcUrl)) by {
      assert Json.Lookup(e, "rpc_url") == Json.Lookup(e[1..], "rpc_url") == Json.Lookup(e[2..], "rpc_url");
    }
    assert Json.Lookup(e, "network") == Some(Json.Str(m.network)) by {
      assert Json.Lookup(e, "network") == Json.Lookup(e[1..], "network") == Json.Lookup(e[2..], "network")
        == Json.Lookup(e[3..], "network");
    }
    StringFieldOf(e, "tx_hash", m.txHash);
    StringFieldOf(e, "rpc_url", m.rpcUrl);
    StringFieldOf(e, "network", m.network);
  }

  /** A string member present once is the string field. */
  lemma StringFieldOf(entries: seq<(string, Json.Json)>, key: string, s: string)
    requires KeyCount(entries, key) == 1
    requires Json.Lookup(entries, key) == Some(Json.Str(s))
    ensures StringField(entries, key) == Some(s)
  {
  }

  /** The message read from an object depends only on its four fields. */
  lemma SameFieldsSameMessage(a: seq<(string, Json.Json)>, b: seq<(string, Json.Json)>)
    requires Field(a, "pending_payment_id") == Field(b, "pending_payment_id")
    requires Field(a, "tx_hash") == Field(b, "tx_hash")
    requires Field(a, "rpc_url") == Field(b, "rpc_url")
    requires Field(a, "network") == Field(b, "network")
    ensures MessageFromJson(Json.Object(a)) == MessageFromJson(Json.Object(b))
  {
  }

  /** Appending members with other keys leaves a field as it was. */
  lemma FieldUnaffected(base: seq<(string, Json.Json)>, extra: seq<(string, Json.Json)>, key: string)
    requires KeyCount(base, key) == 1
    requires forall i :: 0 <= i < |extra| ==> extra[i].0 != key
    ensures Field(base + extra, key) == Field(base, key)
  {
    KeyCountAppend(base, extra, key);
    Json.LookupAppendFirst(base, extra, key);
  }

  /** Members the message type does not declare change nothing. */
  lemma UnknownMembersIgnored(m: VerificationMessage, extra: seq<(string, Json.Json)>)
    requires FitsI32(m.pendingPaymentId)
    requires forall i :: 0 <= i < |extra| ==>
      extra[i].0 != "pending_payment_id" && extra[i].0 != "tx_hash" && extra[i].0 != "rpc_url" && extra[i].0 != "network"
    ensures MessageFromJson(Json.Object(MessageJson(m).entries + extra)) == Some(m)
  {
    var base := MessageJson(m).entries;
    var whole := base + extra;
    MessageKeysOnce(m);
    FieldUnaffected(base, extra, "pending_payment_id");
    FieldUnaffected(base, extra, "tx_hash");
    FieldUnaffected(base, extra, "rpc_url");
    FieldUnaffected(base, extra, "network");
    SameFieldsSameMessage(whole, base);
    MessageRoundTrip(m);
  }

  /** A body that is not valid JSON for the message is refused. */
  lemma MissingFieldRefused(m: VerificationMessage)
    ensures MessageFromJson(Json.Object(MessageJson(m).entries[..3])) == None
    ensures MessageFromJson(Json.Object(MessageJson(m).entries + MessageJson(m).entries[3..])) == None
  {
    var e := MessageJson(m).entries;
    assert KeyCount(e[..3], "network") == 0;
    NetworkNotOnceRefused(e[..3]);
    MessageKeysOnce(m);
    KeyCountAppend(e, e[3..], "network");
    NetworkNotOnceRefused(e + e[3..]);
  }

  /** Without exactly one `network` member the message does not decode. */
  lemma NetworkNotOnceRefused(entries: seq<(string, Json.Json)>)
    requires KeyCount(entries, "network") != 1
    ensures MessageFromJson(Json.Object(entries)) == None
  {
  }

  // ---------------------------------------------------------------------
  // The webhook payload
  // ---------------------------------------------------------------------

  /** `WebhookPayload`: the four members, in declaration order. */
  function PayloadEntries(paymentId: int, txHash: string, timestamp: string): (e: seq<(string, Json.Json)>)
    ensures Json.IsFlatObject(e)
  {
    [("payment_id", Json.Number(paymentId)),
     ("status", Json.Str("completed")),
     ("tx_hash", Json.Str(txHash)),
     ("timestamp", Json.Str(timestamp))]
  }

  /** `serde_json::to_string` of the payload, stamped with the handling
      instant in RFC 3339 form. */
  function PayloadText(paymentId: int, txHash: string, now: Timestamp.DateTime): string
    requires Timestamp.Valid(now)
  {
    Json.FlatObjectText(PayloadEntries(paymentId, txHash, Timestamp.Rfc3339(now)))
  }

  /** The payload names the settled payment, says "completed", repeats the
      transaction hash and carries the timestamp text; having four members
      in all, it has no other. */
  lemma PayloadFields(paymentId: int, txHash: string, timestamp: string)
    ensures var e := PayloadEntries(paymentId, txHash, timestamp);
      && Json.Lookup(e, "payment_id") == Some(Json.Number(paymentId))
      && Json.Lookup(e, "status") == Some(Json.Str("completed"))
      && Json.Lookup(e, "tx_hash") == Some(Json.Str(txHash))
      && Json.Lookup(e, "timestamp") == Some(Json.Str(timestamp))
      && |e| == 4
  {
    LookupFour("payment_id", "status", "tx_hash", "timestamp",
               Json.Number(paymentId), Json.Str("completed"), Json.Str(txHash), Json.Str(timestamp));
  }

  /** Lookups in four members with distinct keys. */
  lemma LookupFour(k0: string, k1: string, k2: string, k3: string, v0: Json.Json, v1: Json.Json, v2: Json.Json, v3: Json.Json)
    requires k0 != k1 && k0 != k2 && k0 != k3 && k1 != k2 && k1 != k3 && k2 != k3
    ensures var e := [(k0, v0), (k1, v1), (k2, v2), (k3, v3)];
      && Json.Lookup(e, k0) == Some(v0) && Json.Lookup(e, k1) == Some(v1)
      && Json.Lookup(e, k2) == Some(v2) && Json.Lookup(e, k3) == Some(v3)
  {
    var e3 := [(k3, v3)];
    var e2 := [(k2, v2)] + e3;
    var e1 := [(k1, v1)] + e2;
    FourDisplay((k0, v0), (k1, v1), (k2, v2), (k3, v3));
    assert Json.Lookup(e2, k2) == Some(v2) && Json.Lookup(e2, k3) == Some(v3) by {
      LookupCons((k3, v3), [], k3);
      LookupCons((k2, v2), e3, k2);
      LookupCons((k2, v2), e3, k3);
    }
    assert Json.Lookup(e1, k1) == Some(v1) && Json.Lookup(e1, k2) == Some(v2) && Json.Lookup(e1, k3) == Some(v3) by {
      LookupCons((k1, v1), e2, k1);
      LookupCons((k1, v1), e2, k2);
      LookupCons((k1, v1), e2, k3);
    }
    LookupCons((k0, v0), e1, k0);
    LookupCons((k0, v0), e1, k1);
    LookupCons((k0, v0), e1, k2);
    LookupCons((k0, v0), e1, k3);
  }

  lemma FourDisplay<T>(a: T, b: T, c: T, d: T)
    ensures [a, b, c, d] == [a] + ([b] + ([c] + [d]))
  {
  }

  /** Lookup in a run of members, one step. */
  lemma LookupCons(head: (string, Json.Json), rest: seq<(string, Json.Json)>, key: string)
    ensures Json.Lookup([head] + rest, key) == if head.0 == key then Some(head.1) else Json.Lookup(rest, key)
  {
    assert ([head] + rest)[1..] == rest;
  }

  // ---------------------------------------------------------------------
  // Handling one delivery
  // ---------------------------------------------------------------------

  /** A verifier as the handler calls it: store, pending payment id, RPC URL
      and transaction hash in; the store after it and either the settled
      payment's id with the webhook URL, or an error. */
  type Verifier = (Store, int, string, string) -> (Store, Result<(int, string), StabuseError>)

  /** What the handler does on the outside, in order: acknowledge, reject,
      or post a webhook body to a URL. */
  datatype Event = Ack | Nack | Webhook(url: string, body: string)

  datatype QueueEnv = QueueEnv(
    parse: seq<Byte> -> Option<Json.Json>,
    solana: Verifier,
    evm: Verifier,
    send: (string, string) -> Result<(), string>)

  /** The store afterwards, the events, and what the handler returns. */
  datatype Handled = Handled(store: Store, trace: seq<Event>, result: Result<(), string>)

  /** `serde_json::from_slice` into the message type. */
  function Decode(data: seq<Byte>, parse: seq<Byte> -> Option<Json.Json>): Option<VerificationMessage> {
    match parse(data)
    case None => None
    case Some(v) => MessageFromJson(v)
  }

  /** The routing rule: any network whose lower-cased name contains "sol". */
  predicate RoutesToSolana(network: string) {
    Contains(Lower(network), "sol")
  }

  function Verify(s: Store, m: VerificationMessage, env: QueueEnv): (Store, Result<(int, string), StabuseError>) {
    if RoutesToSolana(m.network) then env.solana(s, m.pendingPaymentId, m.rpcUrl, m.txHash)
    else env.evm(s, m.pendingPaymentId, m.rpcUrl, m.txHash)
  }

  /** The acknowledgements among the events. */
  function Replies(trace: seq<Event>): (r: seq<Event>)
    ensures forall i :: 0 <= i < |r| ==> r[i] == Ack || r[i] == Nack
    ensures |r| <= |trace|
  {
    if |trace| == 0 then []
    else (if trace[0].Webhook? then [] else [trace[0]]) + Replies(trace[1..])
  }

  lemma {:induction false} RepliesAppend(a: seq<Event>, b: seq<Event>)
    ensures Replies(a + b) == Replies(a) + Replies(b)
  {
    if |a| == 0 {
      assert a + b == b;
    } else {
      assert (a + b)[1..] == a[1..] + b;
      RepliesAppend(a[1..], b);
    }
  }

  /** The replies of the traces the handlers produce. */
  lemma RepliesOfTraces(url: string, body: string)
    ensures Replies([Nack]) == [Nack] && Replies([Ack]) == [Ack]
    ensures Replies([Nack, Ack]) == [Nack, Ack]
    ensures Replies([Ack, Webhook(url, body)]) == [Ack]
    ensures Replies([Ack, Webhook(url, body), Ack]) == [Ack, Ack]
  {
    assert [Nack, Ack] == [Nack] + [Ack];
    RepliesAppend([Nack], [Ack]);
    assert [Ack, Webhook(url, body)] == [Ack] + [Webhook(url, body)];
    RepliesAppend([Ack], [Webhook(url, body)]);
    assert [Ack, Webhook(url, body), Ack] == [Ack, Webhook(url, body)] + [Ack];
    RepliesAppend([Ack, Webhook(url, body)], [Ack]);
  }

  /** The answer to a verified or rejected message, as written: success is
      acknowledged before the payload is built and posted; failure is
      rejected; and unless the webhook post failed, the delivery is
      acknowledged once more at the end. */
  function Answer(after: Store, verdict: Result<(int, string), StabuseError>, txHash: string,
                  send: (string, string) -> Result<(), string>, now: Timestamp.DateTime): (h: Handled)
    requires Timestamp.Valid(now)
    ensures h.store == after
    ensures |h.trace| > 0 && (h.trace[0] == Ack <==> verdict.Ok?)
  {
    match verdict
    case Err(_) => Handled(after, [Nack, Ack], Ok(()))
    case Ok((id, url)) => Post(after, url, PayloadText(id, txHash, now), send)
  }

  /** The success path of the answer as written: acknowledge, post the
      webhook body, and acknowledge again unless the post failed. */
  function Post(after: Store, url: string, body: string, send: (string, string) -> Result<(), string>): (h: Handled)
    ensures h.store == after
    ensures |h.trace| > 0 && h.trace[0] == Ack
  {
    match send(url, body)
    case Err(e) => Handled(after, [Ack, Webhook(url, body)], Err(e))
    case Ok(_) => Handled(after, [Ack, Webhook(url, body), Ack], Ok(()))
  }

  /** `handle_message` as written: an undecodable body is rejected and the
      handler returns; a decoded message goes to the verifier its network
      name selects, and the verdict is answered. */
  function HandleMessage(s: Store, data: seq<Byte>, env: QueueEnv, now: Timestamp.DateTime): (h: Handled)
    requires Timestamp.Valid(now)
    ensures Decode(data, env.parse).None? ==> h == Handled(s, [Nack], Ok(()))
    ensures Decode(data, env.parse).Some? ==> h.store == Verify(s, Decode(data, env.parse).value, env).0
  {
    match Decode(data, env.parse)
    case None => Handled(s, [Nack], Ok(()))
    case Some(m) =>
      var verified := Verify(s, m, env);
      Answer(verified.0, verified.1, m.txHash, env.send, now)
  }

  /** An undecodable body is rejected once and nothing else happens: neither
      verifier is consulted, so the outcome is the same whatever they do. */
  lemma UndecodableRejectedOnce(s: Store, data: seq<Byte>, env: QueueEnv, other: QueueEnv, now: Timestamp.DateTime)
    requires Timestamp.Valid(now)
    requires Decode(data, env.parse).None?
    requires other.parse == env.parse
    ensures HandleMessage(s, data, env, now).trace == [Nack]
    ensures HandleMessage(s, data, env, now) == HandleMessage(s, data, other, now)
  {
  }

  /** Which verifier runs is decided by the network name alone, without
      regard to letter case. */
  lemma RoutingByNetwork(s: Store, data: seq<Byte>, env: QueueEnv, now: Timestamp.DateTime)
    requires Timestamp.Valid(now)
    requires Decode(data, env.parse).Some?
    ensures var m := Decode(data, env.parse).value;
      HandleMessage(s, data, env, now).store ==
        (if Contains(Lower(m.network), "sol") then env.solana(s, m.pendingPaymentId, m.rpcUrl, m.txHash).0
         else env.evm(s, m.pendingPaymentId, m.rpcUrl, m.txHash).0)
  {
  }

  lemma LowerUpper(s: string)
    ensures Lower(Upper(s)) == Lower(s)
  {
    forall i | 0 <= i < |s| ensures Lower(Upper(s))[i] == Lower(s)[i] {
      assert Upper(s)[i] == UpperChar(s[i]);
    }
  }

  /** Letter case does not matter to the routing. */
  lemma RoutingIgnoresCase(network: string)
    ensures RoutesToSolana(Upper(network)) == RoutesToSolana(network)
  {
    LowerUpper(network);
  }

  /** The cluster names route to the Solana verifier. */
  lemma SolanaNamesRoute()
    ensures RoutesToSolana("Solana") && RoutesToSolana("SOL")
  {
    assert OccursAt(Lower("Solana"), "sol", 0);
    assert OccursAt(Lower("SOL"), "sol", 0);
  }

  /** Three letters spelling "sol" are an occurrence of it. */
  lemma SolAt(s: string, i: nat)
    requires i + 3 <= |s| && s[i] == 's' && s[i + 1] == 'o' && s[i + 2] == 'l'
    ensures OccursAt(s, "sol", i)
  {
    assert s[i..i + 3] == "sol";
  }

  /** A name whose lower-cased form spells "sol" somewhere is routed to the
      Solana verifier. */
  lemma RoutesAt(network: string, i: nat)
    requires i + 3 <= |network|
    requires Lower(network)[i] == 's' && Lower(network)[i + 1] == 'o' && Lower(network)[i + 2] == 'l'
    ensures RoutesToSolana(network)
  {
    var lowered := Lower(network);
    SolAt(lowered, i);
    ContainsAt(lowered, "sol", i);
  }

  /** Any name with "sol" inside goes to the Solana verifier, even one that
      names no Solana cluster. */
  lemma SubstringRoutes()
    ensures RoutesToSolana("isolated-evm")
  {
    var name := "isolated-evm";
    assert Lower(name)[1] == LowerChar(name[1]) && Lower(name)[2] == LowerChar(name[2]) && Lower(name)[3] == LowerChar(name[3]);
    RoutesAt(name, 1);
  }

  /** A name without "sol" goes to the EVM verifier. */
  lemma EvmNamesRoute()
    ensures !RoutesToSolana("ethereum") && !RoutesToSolana("")
  {
    var eth := Lower("ethereum");
    assert forall i :: 0 <= i < |eth| ==> eth[i] != 's';
    forall i ensures !OccursAt(eth, "sol", i) {
      if 0 <= i && i + 3 <= |eth| {
        assert eth[i..i + 3][0] == eth[i];
      }
    }
  }

  /** A rejected verification is rejected and then acknowledged: the
      trailing acknowledgement runs on every path that got past decoding. */
  lemma RejectedThenAcknowledged(after: Store, error: StabuseError, txHash: string,
                                 send: (string, string) -> Result<(), string>, now: Timestamp.DateTime)
    requires Timestamp.Valid(now)
    ensures Answer(after, Err(error), txHash, send, now) == Handled(after, [Nack, Ack], Ok(()))
    ensures Replies([Nack, Ack]) == [Nack, Ack]
  {
    RepliesOfTraces("", "");
  }

  /** A settled payment is acknowledged before its payload is built and
      posted; the payload announces exactly the verifier's payment. The
      delivery is acknowledged a second time once the post succeeds, and
      the handler returns the post's failure otherwise. */
  lemma SettledAcknowledgedTwice(after: Store, id: int, url: string, txHash: string,
                                 send: (string, string) -> Result<(), string>, now: Timestamp.DateTime)
    requires Timestamp.Valid(now)
    ensures var body := PayloadText(id, txHash, now);
      var h := Answer(after, Ok((id, url)), txHash, send, now);
      && h.trace == [Ack, Webhook(url, body)] + (if send(url, body).Ok? then [Ack] else [])
      && (h.result.Err? <==> send(url, body).Err?)
      && (h.result.Err? ==> h.result.error == send(url, body).error)
      && Replies(h.trace) == (if send(url, body).Ok? then [Ack, Ack] else [Ack])
  {
    PostAcknowledgedTwice(after, url, PayloadText(id, txHash, now), send);
  }

  /** The success path's events and result, whatever the body posted. */
  lemma PostAcknowledgedTwice(after: Store, url: string, body: string, send: (string, string) -> Result<(), string>)
    ensures var h := Post(after, url, body, send);
      && h.trace == [Ack, Webhook(url, body)] + (if send(url, body).Ok? then [Ack] else [])
      && (h.result.Err? <==> send(url, body).Err?)
      && (h.result.Err? ==> h.result.error == send(url, body).error)
      && Replies(h.trace) == (if send(url, body).Ok? then [Ack, Ack] else [Ack])
  {
    RepliesOfTraces(url, body);
    var h := Post(after, url, body, send);
    if send(url, body).Ok? {
      assert h.trace == [Ack, Webhook(url, body), Ack];
    } else {
      assert h.trace == [Ack, Webhook(url, body)];
    }
  }

  /** As written, a delivery is answered exactly once only when decoding
      fails or the webhook post fails after a settlement; every other
      delivery is answered twice. */
  lemma AnsweredOnceOnlyOnEarlyExit(s: Store, data: seq<Byte>, env: QueueEnv, now: Timestamp.DateTime)
    requires Timestamp.Valid(now)
    ensures var h := HandleMessage(s, data, env, now);
      |Replies(h.trace)| == 1 <==> Decode(data, env.parse).None? || h.result.Err?
    ensures |Replies(HandleMessage(s, data, env, now).trace)| in {1, 2}
  {
    match Decode(data, env.parse)
    case None =>
      RepliesOfTraces("", "");
    case Some(m) =>
      var verified := Verify(s, m, env);
      match verified.1
      case Err(e) =>
        RejectedThenAcknowledged(verified.0, e, m.txHash, env.send, now);
      case Ok((id, url)) =>
        SettledAcknowledgedTwice(verified.0, id, url, m.txHash, env.send, now);
  }

  /** Handling touches the store only through the verifier it routes to: the
      webhook outcome and the channel replies leave it as the verifier left
      it. */
  lemma StoreOnlyThroughVerifier(s: Store, data: seq<Byte>, env: QueueEnv, other: QueueEnv, now: Timestamp.DateTime)
    requires Timestamp.Valid(now)
    requires other.parse == env.parse && other.solana == env.solana && other.evm == env.evm
    ensures HandleMessage(s, data, env, now).store == HandleMessage(s, data, other, now).store
  {
  }

  // ---------------------------------------------------------------------
  // Exactly one answer per delivery
  // ---------------------------------------------------------------------

  /** The answer with a single exit for the channel: rejection on a failed
      verification; on success one acknowledgement, then the webhook post,
      whatever its outcome. */
  function AnswerOnce(after: Store, verdict: Result<(int, string), StabuseError>, txHash: string,
                      send: (string, string) -> Result<(), string>, now: Timestamp.DateTime): (h: Handled)
    requires Timestamp.Valid(now)
    ensures h.store == after
  {
    match verdict
    case Err(_) => Handled(after, [Nack], Ok(()))
    case Ok((id, url)) =>
      var body := PayloadText(id, txHash, now);
      match send(url, body)
      case Err(e) => Handled(after, [Ack, Webhook(url, body)], Err(e))
      case Ok(_) => Handled(after, [Ack, Webhook(url, body)], Ok(()))
  }

  function HandleMessageOnce(s: Store, data: seq<Byte>, env: QueueEnv, now: Timestamp.DateTime): (h: Handled)
    requires Timestamp.Valid(now)
    ensures Decode(data, env.parse).None? ==> h == Handled(s, [Nack], Ok(()))
    ensures Decode(data, env.parse).Some? ==> h.store == Verify(s, Decode(data, env.parse).value, env).0
  {
    match Decode(data, env.parse)
    case None => Handled(s, [Nack], Ok(()))
    case Some(m) =>
      var verified := Verify(s, m, env);
      AnswerOnce(verified.0, verified.1, m.txHash, env.send, now)
  }

  /** Each verdict is answered exactly once, with an acknowledgement
      exactly on success; the webhook post, the store and the returned
      result are those of the answer as written. */
  lemma AnswerOnceAgrees(after: Store, verdict: Result<(int, string), StabuseError>, txHash: string,
                         send: (string, string) -> Result<(), string>, now: Timestamp.DateTime)
    requires Timestamp.Valid(now)
    ensures var h := AnswerOnce(after, verdict, txHash, send, now);
      var w := Answer(after, verdict, txHash, send, now);
      && |Replies(h.trace)| == 1
      && (Replies(h.trace) == [Ack] <==> verdict.Ok?)
      && h.store == w.store && h.result == w.result
      && (verdict.Ok? ==> |w.trace| >= 2 && h.trace == w.trace[..2])
  {
    match verdict
    case Err(e) =>
      RejectedThenAcknowledged(after, e, txHash, send, now);
      RepliesOfTraces("", "");
    case Ok((id, url)) =>
      SettledAcknowledgedTwice(after, id, url, txHash, send, now);
      RepliesOfTraces(url, PayloadText(id, txHash, now));
  }

  /** Every delivery is answered exactly once, with an acknowledgement
      exactly when a verifier settled it; store and result are those of the
      handler as written. */
  lemma AnsweredExactlyOnce(s: Store, data: seq<Byte>, env: QueueEnv, now: Timestamp.DateTime)
    requires Timestamp.Valid(now)
    ensures var h := HandleMessageOnce(s, data, env, now);
      && |Replies(h.trace)| == 1
      && (Replies(h.trace) == [Ack] <==>
            Decode(data, env.parse).Some? && Verify(s, Decode(data, env.parse).value, env).1.Ok?)
    ensures HandleMessageOnce(s, data, env, now).store == HandleMessage(s, data, env, now).store
    ensures HandleMessageOnce(s, data, env, now).result == HandleMessage(s, data, env, now).result
  {
    match Decode(data, env.parse)
    case None =>
      RepliesOfTraces("", "");
    case Some(m) =>
      var verified := Verify(s, m, env);
      AnswerOnceAgrees(verified.0, verified.1, m.txHash, env.send, now);
  }

  // ---------------------------------------------------------------------
  // The Solana route end to end
  // ---------------------------------------------------------------------

  /** With the modelled Solana verifier plugged in, a Solana delivery
      settles exactly as that verifier settles, and it is acknowledged first
      exactly when that verifier succeeds. */
  lemma SolanaDeliverySettles(s: Store, data: seq<Byte>, env: QueueEnv, now: Timestamp.DateTime,
                              chain: Solana.SolanaEnv, ledger: Solana.Ledger, clock: int)
    requires Timestamp.Valid(now)
    requires Solana.ChainIdsFit(chain)
    requires forall st, id, rpc, tx :: env.solana(st, id, rpc, tx) == Solana.VerifySolSignedTransaction(st, id, rpc, tx, chain, ledger, clock)
    requires Decode(data, env.parse).Some? && RoutesToSolana(Decode(data, env.parse).value.network)
    ensures var m := Decode(data, env.parse).value;
      var settled := Solana.VerifySolSignedTransaction(s, m.pendingPaymentId, m.rpcUrl, m.txHash, chain, ledger, clock);
      var h := HandleMessage(s, data, env, now);
      && h.store == settled.0
      && (|h.trace| > 0 && h.trace[0] == Ack <==> settled.1.Ok?)
      && (Valid(s) ==> Valid(h.store))
  {
    var m := Decode(data, env.parse).value;
    var settled := Solana.VerifySolSignedTransaction(s, m.pendingPaymentId, m.rpcUrl, m.txHash, chain, ledger, clock);
    assert Verify(s, m, env) == settled;
  }
}

=== FILE: registry.dfy ===
/** Asset registries: the ticker-normalising helpers of the utility module,
    the per-chain contract-address lookup in the assets configuration file,
    and the in-memory `Network` record with its ticker table. */
module Registry {
  import opened Wrappers
  import opened Text
  import opened Errors
  import Json

  // ---------------------------------------------------------------------
  // Ticker normalisation
  // ---------------------------------------------------------------------

  /** Every key is upper-case. */
  predicate UpperKeys(m: map<string, string>) {
    forall k :: k in m ==> IsUpperCase(k)
  }

  /** `transform_assets_to_uppercase` over the entries in iteration order:
      each ticker is upper-cased and keeps its address; when two tickers
      collide after upper-casing, the later entry wins, as `collect` does. */
  function TransformAssetsToUppercase(entries: seq<(string, string)>): (out: map<string, string>)
    ensures forall i :: 0 <= i < |entries| ==> Upper(entries[i].0) in out
    decreases |entries|
  {
    if |entries| == 0 then map[]
    else
      var n := |entries| - 1;
      var prefix := TransformAssetsToUppercase(entries[..n]);
      assert forall i :: 0 <= i < n ==> entries[..n][i] == entries[i];
      prefix[Upper(entries[n].0) := entries[n].1]
  }

  /** Every key of the result comes from an entry, and carries that entry's
      address: nothing is invented. */
  lemma {:induction false} TransformKeyOrigin(entries: seq<(string, string)>, k: string)
    requires k in TransformAssetsToUppercase(entries)
    ensures exists i :: 0 <= i < |entries| && Upper(entries[i].0) == k
                        && TransformAssetsToUppercase(entries)[k] == entries[i].1
    decreases |entries|
  {
    var n := |entries| - 1;
    var prefix := entries[..n];
    var key := Upper(entries[n].0);
    assert TransformAssetsToUppercase(entries) == TransformAssetsToUppercase(prefix)[key := entries[n].1];
    if k != key {
      TransformKeyOrigin(prefix, k);
      var i :| 0 <= i < |prefix| && Upper(prefix[i].0) == k && TransformAssetsToUppercase(prefix)[k] == prefix[i].1;
      assert prefix[i] == entries[i];
    }
  }

  /** The result's keys are all upper-case. */
  lemma TransformKeysUpper(entries: seq<(string, string)>)
    ensures UpperKeys(TransformAssetsToUppercase(entries))
  {
    var out := TransformAssetsToUppercase(entries);
    forall k | k in out ensures IsUpperCase(k) {
      TransformKeyOrigin(entries, k);
      var i :| 0 <= i < |entries| && Upper(entries[i].0) == k && out[k] == entries[i].1;
      UpperIdempotent(entries[i].0);
    }
  }

  /** An entry whose ticker no later entry repeats (after upper-casing) keeps
      its own address. */
  lemma {:induction false} TransformLastWins(entries: seq<(string, string)>, i: nat)
    requires i < |entries|
    requires forall j :: i < j < |entries| ==> Upper(entries[j].0) != Upper(entries[i].0)
    ensures TransformAssetsToUppercase(entries)[Upper(entries[i].0)] == entries[i].1
    decreases |entries|
  {
    var n := |entries| - 1;
    var prefix := entries[..n];
    var key := Upper(entries[n].0);
    assert TransformAssetsToUppercase(entries) == TransformAssetsToUppercase(prefix)[key := entries[n].1];
    if i < n {
      assert prefix[i] == entries[i];
      assert Upper(entries[i].0) != key;
      forall j | i < j < |prefix| ensures Upper(prefix[j].0) != Upper(prefix[i].0) {
        assert prefix[j] == entries[j];
      }
      TransformLastWins(prefix, i);
    }
  }

  /** No two entries' tickers coincide once upper-cased. */
  predicate CaseDistinct(entries: seq<(string, string)>) {
    forall i, j :: 0 <= i < j < |entries| ==> Upper(entries[i].0) != Upper(entries[j].0)
  }

  /** The result never has more keys than there were entries, and without
      case collisions it has exactly one per entry and every ticker maps to
      its own address: the transform loses nothing. */
  lemma {:induction false} TransformSize(entries: seq<(string, string)>)
    ensures |TransformAssetsToUppercase(entries)| <= |entries|
    ensures CaseDistinct(entries) ==> |TransformAssetsToUppercase(entries)| == |entries|
    ensures CaseDistinct(entries) ==> forall i :: 0 <= i < |entries| ==>
      TransformAssetsToUppercase(entries)[Upper(entries[i].0)] == entries[i].1
    decreases |entries|
  {
    if |entries| > 0 {
      var n := |entries| - 1;
      var prefix := entries[..n];
      TransformSize(prefix);
      if CaseDistinct(entries) {
        assert CaseDistinct(prefix) by {
          forall a, b | 0 <= a < b < |prefix| ensures Upper(prefix[a].0) != Upper(prefix[b].0) {
            assert prefix[a] == entries[a] && prefix[b] == entries[b];
          }
        }
        var before := TransformAssetsToUppercase(prefix);
        assert TransformAssetsToUppercase(entries) == before[Upper(entries[n].0) := entries[n].1];
        if Upper(entries[n].0) in before {
          TransformKeyOrigin(prefix, Upper(entries[n].0));
          assert false;
        }
        forall i | 0 <= i < |entries|
          ensures TransformAssetsToUppercase(entries)[Upper(entries[i].0)] == entries[i].1
        {
          TransformLastWins(entries, i);
        }
      }
    }
  }

  /** With a collision the earlier address is lost: "usdc" then "USDC" keep
      only the second address. */
  lemma TransformCollision(a: string, b: string)
    requires a != b
    ensures TransformAssetsToUppercase([("usdc", a), ("USDC", b)]) == map["USDC" := b]
  {
    var entries := [("usdc", a), ("USDC", b)];
    assert entries[..1] == [("usdc", a)];
    assert [("usdc", a)][..0] == [];
    assert Upper("usdc") == "USDC";
    assert Upper("USDC") == "USDC";
    assert TransformAssetsToUppercase([("usdc", a)]) == map[]["USDC" := a];
    assert TransformAssetsToUppercase(entries) == map["USDC" := a]["USDC" := b];
  }

  /** `hashmap_to_json_value`: an object of string members, in the map's
      iteration order. The conversion cannot fail for a string map. */
  function MapToJson(entries: seq<(string, string)>): (r: Json.Json)
    ensures r.Object? && |r.entries| == |entries|
    ensures forall i :: 0 <= i < |entries| ==> r.entries[i] == (entries[i].0, Json.Str(entries[i].1))
  {
    Json.Object(seq(|entries|, i requires 0 <= i < |entries| => (entries[i].0, Json.Str(entries[i].1))))
  }

  /** Each key of a map with distinct keys reads back, through `Value::get`,
      as its own string. */
  lemma MapToJsonLookup(entries: seq<(string, string)>, i: nat)
    requires i < |entries|
    requires forall a, b :: 0 <= a < b < |entries| ==> entries[a].0 != entries[b].0
    ensures Json.Get(MapToJson(entries), entries[i].0) == Some(Json.Str(entries[i].1))
  {
    var r := MapToJson(entries);
    var found := Json.Get(r, entries[i].0);
    assert r.entries[i].0 == entries[i].0;
    var j :| 0 <= j < |r.entries| && r.entries[j] == (entries[i].0, found.value);
    assert entries[j].0 == entries[i].0;
  }

  // ---------------------------------------------------------------------
  // Contract addresses from the assets configuration
  // ---------------------------------------------------------------------

  /** The message when the configuration has no address for an asset. */
  function AssetNotFound(asset: string, chainId: nat): StabuseError {
    AssetNotSupportedonNetwork("Asset " + asset + " not found on network " + DecimalText(chainId))
  }

  /** The address the configuration document lists for `asset` on a chain:
      the document's member named by the chain id's decimal text, then that
      member's member named `asset` (case-sensitive), which must be a string. */
  function ConfiguredAddress(config: Json.Json, asset: string, chainId: nat): Option<string> {
    match Json.Get(Json.Index(config, DecimalText(chainId)), asset)
    case Some(Str(address)) => Some(address)
    case _ => None
  }

  /** `get_asset_contract_address`: reads the configuration file (`fileText`,
      or the read error's text), parses it with `parse`, and looks the asset
      up. A read failure is a `StdError`, a parse failure a `SerdeError`. */
  function GetAssetContractAddress(fileText: Result<string, string>, parse: string -> Result<Json.Json, string>,
                                   asset: string, chainId: nat): (r: Result<string, StabuseError>)
    ensures fileText.Err? ==> r == Err(StdError(fileText.error))
    ensures fileText.Ok? && parse(fileText.value).Err? ==> r == Err(SerdeError(parse(fileText.value).error))
    ensures fileText.Ok? && parse(fileText.value).Ok? ==>
      var config := parse(fileText.value).value;
      (r.Ok? <==> ConfiguredAddress(config, asset, chainId).Some?)
      && (r.Ok? ==> r.value == ConfiguredAddress(config, asset, chainId).value)
      && (r.Err? ==> r.error == AssetNotFound(asset, chainId))
  {
    var text :- fileText.MapErr(t => FromForeign(IoError(t)));
    var config :- parse(text).MapErr(t => FromForeign(SerdeJsonError(t)));
    var found := Json.Get(Json.Index(config, DecimalText(chainId)), asset);
    if found.Some? && found.value.Str? then Ok(found.value.s)
    else Err(AssetNotFound(asset, chainId))
  }

  /** A configuration `{"<chain>": {"<asset>": "<address>"}}` yields the
      address for exactly that spelling of the asset. */
  lemma ConfiguredAddressExample(chainId: nat, address: string)
    ensures ConfiguredAddress(Json.Object([(DecimalText(chainId), Json.Object([("USDC", Json.Str(address))]))]),
                              "USDC", chainId) == Some(address)
    ensures ConfiguredAddress(Json.Object([(DecimalText(chainId), Json.Object([("USDC", Json.Str(address))]))]),
                              "usdc", chainId).None?
  {
    assert "usdc" != "USDC" by { assert "usdc"[0] != "USDC"[0]; }
  }

  // ---------------------------------------------------------------------
  // Network records
  // ---------------------------------------------------------------------

  /** `Network`: identity, endpoints, and the ticker table. */
  datatype Network = Network(chainId: nat, name: string, explorer: string, rpc: string,
                             supportedAssets: map<string, string>)

  /** `Network::new`: no assets yet. */
  function NewNetwork(name: string, rpc: string, chainId: nat, explorer: string): (n: Network)
    ensures n.supportedAssets == map[] && UpperKeys(n.supportedAssets)
    ensures n.name == name && n.rpc == rpc && n.chainId == chainId && n.explorer == explorer
  {
    Network(chainId, name, explorer, rpc, map[])
  }

  /** `Network::add_asset`: the ticker is stored upper-cased; an existing
      entry for the same ticker is replaced. */
  function AddAsset(n: Network, ticker: string, contractAddress: string): (r: Network)
    ensures UpperKeys(n.supportedAssets) ==> UpperKeys(r.supportedAssets)
    ensures r.supportedAssets.Keys == n.supportedAssets.Keys + {Upper(ticker)}
    ensures forall k :: k in n.supportedAssets && k != Upper(ticker) ==> r.supportedAssets[k] == n.supportedAssets[k]
    ensures r.(supportedAssets := n.supportedAssets) == n
  {
    UpperIdempotent(ticker);
    n.(supportedAssets := n.supportedAssets[Upper(ticker) := contractAddress])
  }

  /** `Network::get_asset_address`: looked up upper-cased, so any spelling works. */
  function GetAssetAddress(n: Network, ticker: string): (r: Option<string>)
    ensures r.Some? <==> Upper(ticker) in n.supportedAssets
  {
    var key := Upper(ticker);
    if key in n.supportedAssets then Some(n.supportedAssets[key]) else None
  }

  /** `Network::get_supported_assets`: the stored tickers (in the map's
      iteration order, which the model leaves unspecified). */
  function GetSupportedAssets(n: Network): (r: set<string>)
    ensures UpperKeys(n.supportedAssets) ==> forall t :: t in r ==> IsUpperCase(t)
    ensures UpperKeys(n.supportedAssets) ==> forall t :: t in r <==> GetAssetAddress(n, t).Some? && Upper(t) == t
  {
    assert forall t :: t in n.supportedAssets ==> (GetAssetAddress(n, t).Some? <==> Upper(t) in n.supportedAssets);
    UpperKeysFixed(n.supportedAssets);
    n.supportedAssets.Keys
  }

  lemma UpperKeysFixed(m: map<string, string>)
    ensures UpperKeys(m) ==> forall k :: k in m ==> Upper(k) == k
  {
    if UpperKeys(m) {
      forall k | k in m ensures Upper(k) == k { UpperOfUpperCase(k); }
    }
  }

  lemma UpperOfUpperCase(s: string)
    requires IsUpperCase(s)
    ensures Upper(s) == s
  {
  }

  /** Adding then looking up, in any letter case, gives the address just added. */
  lemma AddThenGet(n: Network, ticker: string, address: string, query: string)
    requires Upper(query) == Upper(ticker)
    ensures GetAssetAddress(AddAsset(n, ticker, address), query) == Some(address)
  {
  }

  /** Adding a ticker leaves the lookups of tickers that differ from it after
      upper-casing unchanged. */
  lemma AddKeepsOthers(n: Network, ticker: string, address: string, query: string)
    requires Upper(query) != Upper(ticker)
    ensures GetAssetAddress(AddAsset(n, ticker, address), query) == GetAssetAddress(n, query)
  {
  }

  /** Re-adding a ticker in another spelling replaces it rather than adding
      a second entry. */
  lemma ReAddReplaces(n: Network, ticker: string, other: string, a: string, b: string)
    requires Upper(other) == Upper(ticker)
    ensures AddAsset(AddAsset(n, ticker, a), other, b) == AddAsset(n, ticker, b)
  {
  }
}

=== FILE: solana.dfy ===
/** Solana settlement: the SPL Token `TransferChecked` instruction, the
    message that carries it, the builder that prepares an unsigned payment
    transaction, and the verifier that settles a pending payment once a
    matching transfer is confirmed on chain.

    RPC readings (the fetched transaction, the current slot, mint account
    data, the latest blockhash), base58 parsing, associated-token-account
    derivation and the service's own lookups are parameters. */
module Solana {
  import opened Wrappers
  import opened Text
  import opened Hex
  import opened Bytes
  import opened Errors
  import opened PaymentStore
  import Jwt

  /** Slots a transaction must be behind the current slot. */
  const REQUIRED_CONFIRMATIONS: nat := 12

  const U64_LIMIT: nat := 0x1_0000_0000_0000_0000

  /** A 32-byte ed25519 public key. */
  datatype Pubkey = Pubkey(bytes: seq<Byte>)

  /** The SPL Token program, `TokenkegQfeZyiNwAJbNbGKPFXCWuBvf9Ss623VQ5DA`. */
  const TOKEN_PROGRAM: Pubkey := Pubkey([
    0x06, 0xdd, 0xf6, 0xe1, 0xd7, 0x65, 0xa1, 0x93, 0xd9, 0xcb, 0xe1, 0x46, 0xce, 0xeb, 0x79, 0xac,
    0x1c, 0xb4, 0x85, 0xed, 0x5f, 0x5b, 0x37, 0x91, 0x3a, 0x8c, 0xf5, 0x85, 0x7e, 0xff, 0x00, 0xa9])

  /** `i64 as u64`: two's-complement reinterpretation. */
  function AsU64(i: int): (r: nat)
    requires I64_MIN <= i <= I64_MAX
    ensures r < U64_LIMIT
    ensures i >= 0 ==> r == i
    ensures i < 0 ==> r == i + U64_LIMIT
  {
    i % U64_LIMIT
  }

  // ---------------------------------------------------------------------
  // SPL Token instruction data
  // ---------------------------------------------------------------------

  const TRANSFER_CHECKED_TAG: Byte := 12

  lemma U64Bytes()
    ensures Pow256(8) == U64_LIMIT
  {
  }

  /** `TransferChecked` data: the tag, the amount as a little-endian u64,
      then the decimals byte. */
  function PackTransferChecked(amount: nat, decimals: Byte): (data: seq<Byte>)
    requires amount < U64_LIMIT
    ensures |data| == 10 && data[0] == TRANSFER_CHECKED_TAG && data[9] == decimals
  {
    [TRANSFER_CHECKED_TAG] + LittleEndian(amount, 8) + [decimals]
  }

  /** `TokenInstruction::unpack`, as far as `TransferChecked` goes: tag 12
      followed by at least nine bytes; anything after them is ignored. Every
      other tag is some other instruction or an error, which the matcher
      treats alike. */
  function UnpackTransferChecked(data: seq<Byte>): (r: Option<(nat, Byte)>)
    ensures r.Some? <==> |data| >= 10 && data[0] == TRANSFER_CHECKED_TAG
    ensures r.Some? ==> r.value.0 < U64_LIMIT && r.value.1 == data[9]
  {
    U64Bytes();
    if |data| >= 10 && data[0] == TRANSFER_CHECKED_TAG then Some((FromLittleEndian(data[1..9]), data[9]))
    else None
  }

  /** Unpacking what was packed gives back amount and decimals, whatever
      bytes follow. */
  lemma UnpackPack(amount: nat, decimals: Byte, trailing: seq<Byte>)
    requires amount < U64_LIMIT
    ensures UnpackTransferChecked(PackTransferChecked(amount, decimals) + trailing) == Some((amount, decimals))
  {
    U64Bytes();
    var data := PackTransferChecked(amount, decimals) + trailing;
    assert data[1..9] == LittleEndian(amount, 8);
    LittleEndianRoundTrip(amount, 8);
  }

  // ---------------------------------------------------------------------
  // Instructions and messages
  // ---------------------------------------------------------------------

  /** An instruction with its program and accounts named by key. */
  datatype Instruction = Instruction(programId: Pubkey, accounts: seq<Pubkey>, data: seq<Byte>)

  /** An instruction inside a message: program and accounts are indices into
      the message's account keys. */
  datatype CompiledInstruction = CompiledInstruction(programIdIndex: nat, accounts: seq<nat>, data: seq<Byte>)

  datatype Message = Message(numRequiredSignatures: nat, accountKeys: seq<Pubkey>, instructions: seq<CompiledInstruction>)

  datatype Transaction = Transaction(signatures: seq<seq<Byte>>, message: Message)

  predicate AllBelow(indices: seq<nat>, n: nat) {
    forall i :: 0 <= i < |indices| ==> indices[i] < n
  }

  /** The instruction a compiled instruction stands for, reading every index
      through the account keys; `None` when an index is out of range. */
  function Resolve(keys: seq<Pubkey>, ix: CompiledInstruction): (r: Option<Instruction>)
    ensures r.Some? <==> ix.programIdIndex < |keys| && AllBelow(ix.accounts, |keys|)
    ensures r.Some? ==>
      && r.value.programId == keys[ix.programIdIndex]
      && |r.value.accounts| == |ix.accounts|
      && (forall i :: 0 <= i < |ix.accounts| ==> r.value.accounts[i] == keys[ix.accounts[i]])
      && r.value.data == ix.data
  {
    if ix.programIdIndex < |keys| && AllBelow(ix.accounts, |keys|) then
      Some(Instruction(keys[ix.programIdIndex], seq(|ix.accounts|, i requires 0 <= i < |ix.accounts| => keys[ix.accounts[i]]), ix.data))
    else None
  }

  /** `spl_token::instruction::transfer_checked` with no multisig signers. */
  function TransferChecked(source: Pubkey, mint: Pubkey, destination: Pubkey, authority: Pubkey,
                           amount: nat, decimals: Byte): (ix: Instruction)
    requires amount < U64_LIMIT
    ensures ix.programId == TOKEN_PROGRAM
    ensures ix.accounts == [source, mint, destination, authority]
    ensures UnpackTransferChecked(ix.data) == Some((amount, decimals))
  {
    UnpackPack(amount, decimals, []);
    assert PackTransferChecked(amount, decimals) + [] == PackTransferChecked(amount, decimals);
    Instruction(TOKEN_PROGRAM, [source, mint, destination, authority], PackTransferChecked(amount, decimals))
  }

  /** `acc` followed by the keys of `rest` not seen before, in order. */
  function AppendNew(acc: seq<Pubkey>, rest: seq<Pubkey>): (r: seq<Pubkey>)
    ensures forall k :: k in r <==> k in acc || k in rest
    ensures |acc| <= |r| && r[..|acc|] == acc
    decreases |rest|
  {
    if |rest| == 0 then acc
    else if rest[0] in acc then AppendNew(acc, rest[1..])
    else
      var r := AppendNew(acc + [rest[0]], rest[1..]);
      assert r[..|acc|] == r[..|acc| + 1][..|acc|];
      r
  }

  function IndexOfKey(keys: seq<Pubkey>, k: Pubkey): (i: nat)
    requires k in keys
    ensures i < |keys| && keys[i] == k
  {
    if keys[0] == k then 0 else 1 + IndexOfKey(keys[1..], k)
  }

  /** `Message::new(&[ix], Some(&payer))`: the payer is the first account key
      and the only required signature; every other key appears once. */
  function CompileMessage(payer: Pubkey, ix: Instruction): (m: Message)
    ensures m.numRequiredSignatures == 1
    ensures |m.accountKeys| >= 1 && m.accountKeys[0] == payer
    ensures |m.instructions| == 1
    ensures Resolve(m.accountKeys, m.instructions[0]) == Some(ix)
  {
    var keys := AppendNew([payer], ix.accounts + [ix.programId]);
    assert ix.programId in ix.accounts + [ix.programId];
    assert forall i :: 0 <= i < |ix.accounts| ==> ix.accounts[i] in ix.accounts + [ix.programId];
    var indices := seq(|ix.accounts|, i requires 0 <= i < |ix.accounts| => IndexOfKey(keys, ix.accounts[i]));
    var compiled := CompiledInstruction(IndexOfKey(keys, ix.programId), indices, ix.data);
    var r := Resolve(keys, compiled);
    assert r.Some? && r.value.accounts == ix.accounts;
    Message(1, keys, [compiled])
  }

  /** `Transaction::new_unsigned`: one all-zero signature slot per required
      signer. */
  function NewUnsigned(m: Message): (t: Transaction)
    ensures t.message == m
    ensures |t.signatures| == m.numRequiredSignatures
    ensures forall i :: 0 <= i < |t.signatures| ==> t.signatures[i] == seq(64, _ => 0)
  {
    Transaction(seq(m.numRequiredSignatures, _ => seq(64, _ => 0)), m)
  }

  // ---------------------------------------------------------------------
  // The transfer matcher
  // ---------------------------------------------------------------------

  /** What the verifier looks for: the payer's token account, the mint, the
      merchant's token account and the payer, in that account order, and the
      amount and decimals. */
  datatype Expected = Expected(payerAta: Pubkey, mint: Pubkey, merchantAta: Pubkey, payer: Pubkey,
                               amount: nat, decimals: Byte)

  /** The predicate the verifier's `find` applies to one instruction. */
  predicate Matches(ix: Instruction, e: Expected) {
    && ix.programId == TOKEN_PROGRAM
    && UnpackTransferChecked(ix.data).Some?
    && |ix.accounts| >= 4
    && ix.accounts[0] == e.payerAta
    && ix.accounts[1] == e.mint
    && ix.accounts[2] == e.merchantAta
    && ix.accounts[3] == e.payer
    && UnpackTransferChecked(ix.data).value == (e.amount, e.decimals)
  }

  predicate MatchesAt(m: Message, k: nat, e: Expected)
    requires k < |m.instructions|
  {
    var r := Resolve(m.accountKeys, m.instructions[k]);
    r.Some? && Matches(r.value, e)
  }

  /** The first matching instruction at or after `from`. */
  function FindMatchingFrom(m: Message, e: Expected, from: nat): (r: Option<nat>)
    requires from <= |m.instructions|
    ensures r.Some? ==> from <= r.value < |m.instructions| && MatchesAt(m, r.value, e)
    ensures r.Some? ==> forall j :: from <= j < r.value ==> !MatchesAt(m, j, e)
    ensures r.None? <==> forall j :: from <= j < |m.instructions| ==> !MatchesAt(m, j, e)
    decreases |m.instructions| - from
  {
    if from == |m.instructions| then None
    else if MatchesAt(m, from, e) then Some(from)
    else FindMatchingFrom(m, e, from + 1)
  }

  /** `instructions.iter().find(…)`: the first instruction that matches;
      `None` exactly when none does. */
  function FindMatching(m: Message, e: Expected): (r: Option<nat>)
    ensures r.Some? ==> r.value < |m.instructions| && MatchesAt(m, r.value, e)
    ensures r.Some? ==> forall j :: 0 <= j < r.value ==> !MatchesAt(m, j, e)
    ensures r.None? <==> forall j :: 0 <= j < |m.instructions| ==> !MatchesAt(m, j, e)
  {
    FindMatchingFrom(m, e, 0)
  }

  /** Other instructions do not matter: adding instructions that do not
      match, before or after, leaves the outcome of the search unchanged. */
  lemma OtherInstructionsIrrelevant(keys: seq<Pubkey>, before: seq<CompiledInstruction>, ix: CompiledInstruction,
                                    after: seq<CompiledInstruction>, e: Expected, n: nat)
    requires forall j :: 0 <= j < |before| ==> !MatchesAt(Message(n, keys, before), j, e)
    ensures FindMatching(Message(n, keys, before + [ix] + after), e).Some?
            <==> FindMatching(Message(n, keys, [ix] + after), e).Some?
  {
    var whole := Message(n, keys, before + [ix] + after);
    var tail := Message(n, keys, [ix] + after);
    if FindMatching(whole, e).Some? {
      MatchInWholeIsInTail(keys, before, ix, after, e, n);
    }
    if FindMatching(tail, e).Some? {
      MatchInTailIsInWhole(keys, before, ix, after, e, n);
    }
  }

  /** A match in the whole list lies past the leading non-matching run. */
  lemma MatchInWholeIsInTail(keys: seq<Pubkey>, before: seq<CompiledInstruction>, ix: CompiledInstruction,
                             after: seq<CompiledInstruction>, e: Expected, n: nat)
    requires forall j :: 0 <= j < |before| ==> !MatchesAt(Message(n, keys, before), j, e)
    requires FindMatching(Message(n, keys, before + [ix] + after), e).Some?
    ensures FindMatching(Message(n, keys, [ix] + after), e).Some?
  {
    var whole := Message(n, keys, before + [ix] + after);
    var tail := Message(n, keys, [ix] + after);
    var b := |before|;
    var k := FindMatching(whole, e).value;
    if k < b {
      SameInstructionSameMatch(whole, k, Message(n, keys, before), k, e);
      assert false;
    }
    assert whole.instructions[k] == tail.instructions[k - b];
    SameInstructionSameMatch(whole, k, tail, k - b, e);
  }

  /** A match in the tail is a match in the whole list. */
  lemma MatchInTailIsInWhole(keys: seq<Pubkey>, before: seq<CompiledInstruction>, ix: CompiledInstruction,
                             after: seq<CompiledInstruction>, e: Expected, n: nat)
    requires FindMatching(Message(n, keys, [ix] + after), e).Some?
    ensures FindMatching(Message(n, keys, before + [ix] + after), e).Some?
  {
    var whole := Message(n, keys, before + [ix] + after);
    var tail := Message(n, keys, [ix] + after);
    var b := |before|;
    var k := FindMatching(tail, e).value;
    assert whole.instructions[k + b] == tail.instructions[k];
    SameInstructionSameMatch(whole, k + b, tail, k, e);
  }

  /** Whether an instruction matches depends only on it and the account keys. */
  lemma SameInstructionSameMatch(m1: Message, k1: nat, m2: Message, k2: nat, e: Expected)
    requires k1 < |m1.instructions| && k2 < |m2.instructions|
    requires m1.accountKeys == m2.accountKeys && m1.instructions[k1] == m2.instructions[k2]
    ensures MatchesAt(m1, k1, e) == MatchesAt(m2, k2, e)
  {
  }

  // ---------------------------------------------------------------------
  // The readings the verifier consults
  // ---------------------------------------------------------------------

  /** The service's lookups and the parsers the code calls, as functions. */
  datatype SolanaEnv = SolanaEnv(
    networkIdentifier: string -> Result<int, StabuseError>,
    merchantAddress: (int, int) -> Result<string, StabuseError>,
    networkAndMint: (string, nat) -> Result<(string, string), StabuseError>,
    tokenDecimals: string -> Option<Byte>,
    parsePubkey: string -> Result<Pubkey, string>,
    parseSignature: string -> Result<seq<Byte>, string>,
    ata: (Pubkey, Pubkey) -> Pubkey)

  /** A chain identifier the lookups can be asked about: the code casts it
      from i64 to u64. */
  ghost predicate ChainIdsFit(env: SolanaEnv) {
    forall url :: env.networkIdentifier(url).Ok? ==> I64_MIN <= env.networkIdentifier(url).value <= I64_MAX
  }

  datatype Meta = Meta(succeeded: bool)

  /** A fetched transaction: its slot, its status metadata and its message. */
  datatype FetchedTransaction = FetchedTransaction(slot: nat, meta: Option<Meta>, message: Message)

  /** The RPC readings: the transaction a signature names, and the current
      slot. */
  datatype Ledger = Ledger(transaction: seq<Byte> -> Result<FetchedTransaction, string>, currentSlot: Result<nat, string>)

  /** `current_slot.saturating_sub(tx_slot)`. */
  function Confirmations(current: nat, txSlot: nat): (c: nat)
    ensures c <= current
    ensures c == 0 <==> current <= txSlot
    ensures c > 0 ==> txSlot + c == current
  {
    if current >= txSlot then current - txSlot else 0
  }

  /** The checks on the fetched transaction, in the code's order: depth
      first, then the metadata, then its status. */
  function ExecutionGate(current: nat, tx: FetchedTransaction): (r: Result<(), StabuseError>)
    ensures r.Ok? <==> Confirmations(current, tx.slot) >= REQUIRED_CONFIRMATIONS && tx.meta.Some? && tx.meta.value.succeeded
    ensures r.Err? ==> r.error.InvalidData?
    ensures current < tx.slot + REQUIRED_CONFIRMATIONS ==> r == Err(InvalidData("Insufficient transaction confirmations"))
    ensures current >= tx.slot + REQUIRED_CONFIRMATIONS && tx.meta.None? ==> r == Err(InvalidData("No transaction metadata"))
    ensures current >= tx.slot + REQUIRED_CONFIRMATIONS && tx.meta.Some? && !tx.meta.value.succeeded ==>
      r == Err(InvalidData("Transaction execution failed"))
  {
    if Confirmations(current, tx.slot) < REQUIRED_CONFIRMATIONS then Err(InvalidData("Insufficient transaction confirmations"))
    else if tx.meta.None? then Err(InvalidData("No transaction metadata"))
    else if !tx.meta.value.succeeded then Err(InvalidData("Transaction execution failed"))
    else Ok(())
  }

  /** The keys `validate_transfer_instruction` derives before its search:
      the merchant's address on the chain, then the mint, merchant and payer
      keys parsed in that order, then both associated token accounts. */
  function ExpectedTransfer(pending: PendingRow, mintText: string, chainId: int, env: SolanaEnv): (r: Result<Expected, StabuseError>)
    ensures r.Ok? <==>
      && env.merchantAddress(pending.merchantId, chainId).Ok?
      && env.parsePubkey(mintText).Ok?
      && env.parsePubkey(env.merchantAddress(pending.merchantId, chainId).value).Ok?
      && env.parsePubkey(pending.sender).Ok?
    ensures r.Ok? ==>
      var mint := env.parsePubkey(mintText).value;
      var merchant := env.parsePubkey(env.merchantAddress(pending.merchantId, chainId).value).value;
      var payer := env.parsePubkey(pending.sender).value;
      r.value == Expected(env.ata(payer, mint), mint, env.ata(merchant, mint), payer, pending.amount,
                          env.tokenDecimals(pending.asset).GetOr(0))
    ensures r.Err? ==> r.error.Internal?
    ensures env.merchantAddress(pending.merchantId, chainId).Ok? && env.parsePubkey(mintText).Err? ==>
      r == Err(Internal("Failed to get token mint: " + env.parsePubkey(mintText).error))
  {
    var address :- env.merchantAddress(pending.merchantId, chainId).MapErr(e => Internal("Failed to get merchant address " + Display(e)));
    var mint :- env.parsePubkey(mintText).MapErr(e => Internal("Failed to get token mint: " + e));
    var merchant :- env.parsePubkey(address).MapErr(e => Internal("Failed to get merchant pubkey: " + e));
    var payer :- env.parsePubkey(pending.sender).MapErr(e => Internal("Failed to get payer pubkey: " + e));
    Ok(Expected(env.ata(payer, mint), mint, env.ata(merchant, mint), payer, pending.amount,
                env.tokenDecimals(pending.asset).GetOr(0)))
  }

  /** `validate_transfer_instruction`: succeeds exactly when the keys can be
      derived and some instruction of the message matches them. */
  function ValidateTransferInstruction(m: Message, pending: PendingRow, mintText: string, chainId: int,
                                       env: SolanaEnv): (r: Result<(), StabuseError>)
    ensures r.Ok? <==>
      ExpectedTransfer(pending, mintText, chainId, env).Ok?
      && exists k :: 0 <= k < |m.instructions| && MatchesAt(m, k, ExpectedTransfer(pending, mintText, chainId, env).value)
    ensures ExpectedTransfer(pending, mintText, chainId, env).Err? ==> r == Err(ExpectedTransfer(pending, mintText, chainId, env).error)
    ensures ExpectedTransfer(pending, mintText, chainId, env).Ok? && r.Err? ==>
      r.error == InvalidData("No matching transfer instruction found")
  {
    var expected :- ExpectedTransfer(pending, mintText, chainId, env);
    if FindMatching(m, expected).None? then Err(InvalidData("No matching transfer instruction found"))
    else Ok(())
  }

  // ---------------------------------------------------------------------
  // The verifier
  // ---------------------------------------------------------------------

  /** Which text the verifier parses as the mint. The code passes the
      pending payment's asset ticker; the network lookup's mint address is
      fetched and discarded. */
  datatype MintSource = AssetField | LookedUpMint

  /** Everything `verify_sol_signed_transaction` reads and checks before it
      touches the store, in the code's order. On success, the network name
      the settled row records. */
  function Checks(pending: PendingRow, rpcUrl: string, txHash: string, env: SolanaEnv, ledger: Ledger,
                  source: MintSource): (r: Result<string, StabuseError>)
    requires ChainIdsFit(env)
    ensures r.Ok? ==>
      && env.networkIdentifier(rpcUrl).Ok?
      && var chainId := env.networkIdentifier(rpcUrl).value;
      && env.networkAndMint(pending.asset, AsU64(chainId)).Ok?
      && r.value == env.networkAndMint(pending.asset, AsU64(chainId)).value.0
      && env.parseSignature(txHash).Ok?
      && ledger.transaction(env.parseSignature(txHash).value).Ok?
      && ledger.currentSlot.Ok?
      && var tx := ledger.transaction(env.parseSignature(txHash).value).value;
      && ExecutionGate(ledger.currentSlot.value, tx).Ok?
      && var mintText := if source.AssetField? then pending.asset else env.networkAndMint(pending.asset, AsU64(chainId)).value.1;
      && ValidateTransferInstruction(tx.message, pending, mintText, chainId, env).Ok?
    ensures env.parseSignature(txHash).Err? ==> r.Err?
  {
    var chainId :- env.networkIdentifier(rpcUrl);
    var located :- env.networkAndMint(pending.asset, AsU64(chainId));
    var signature :- env.parseSignature(txHash).MapErr(e => Internal("Failed to parse transaction signature: " + e));
    var tx :- ledger.transaction(signature).MapErr(e => Internal("Failed to fetch transaction: " + e));
    var current :- ledger.currentSlot.MapErr(e => Internal("Failed to get current slot: " + e));
    var _ :- ExecutionGate(current, tx);
    var mintText := if source.AssetField? then pending.asset else located.1;
    var _ :- ValidateTransferInstruction(tx.message, pending, mintText, chainId, env);
    Ok(located.0)
  }

  /** `verify_sol_signed_transaction` with the mint taken from `source`:
      load the pending row, run the checks, delete the pending row, record
      the settled payment, and return its id with the row's webhook URL. */
  function Settle(s: Store, pendingId: int, rpcUrl: string, txHash: string, env: SolanaEnv, ledger: Ledger,
                  now: int, source: MintSource): (out: (Store, Result<(int, string), StabuseError>))
    requires ChainIdsFit(env)
    ensures Valid(s) ==> Valid(out.0)
    ensures out.1.Ok? <==>
      && pendingId in s.pending
      && Checks(s.pending[pendingId], rpcUrl, txHash, env, ledger, source).Ok?
      && !HasTxHash(s.settled, txHash)
    ensures pendingId !in s.pending ==> out.0 == s && out.1.Err? && out.1.error.DatabaseError?
    ensures pendingId in s.pending && Checks(s.pending[pendingId], rpcUrl, txHash, env, ledger, source).Err? ==>
      out == (s, Err(Checks(s.pending[pendingId], rpcUrl, txHash, env, ledger, source).error))
    ensures out.1.Ok? ==>
      var p := s.pending[pendingId];
      var id := out.1.value.0;
      && out.1.value.1 == p.webhookUrl
      && out.0.pending == s.pending - {pendingId}
      && (Valid(s) ==> id !in s.settled)
      && out.0.settled == s.settled[id := SettledRow(Some(p.merchantId), p.sender, p.amount, txHash, p.asset,
                                                      Checks(p, rpcUrl, txHash, env, ledger, source).value, now)]
  {
    match GetPendingPayment(s, pendingId)
    case Err(e) => (s, Err(e))
    case Ok(p) =>
      match Checks(p, rpcUrl, txHash, env, ledger, source)
      case Err(e) => (s, Err(e))
      case Ok(network) =>
        DecimalParses(p.amount);
        var afterDelete := DeletePendingPayment(s, pendingId);
        var (afterInsert, inserted) := AddPayment(afterDelete, p.merchantId, p.sender, DecimalText(p.amount), txHash,
                                                  p.asset, network, now);
        match inserted
        case Err(e) => (afterInsert, Err(e))
        case Ok(id) => (afterInsert, Ok((id, p.webhookUrl)))
  }

  /** The verifier with its first read done by selecting `columns` and
      decoding into `PendingPayment`; once that read succeeds the rest is
      `Settle`. */
  function SettleReading(s: Store, columns: set<PendingColumn>, pendingId: int, rpcUrl: string, txHash: string,
                         env: SolanaEnv, ledger: Ledger, now: int, source: MintSource)
    : (out: (Store, Result<(int, string), StabuseError>))
    requires ChainIdsFit(env)
    ensures FirstMissing(PENDING_PAYMENT_FIELDS, columns).None? ==>
      out == Settle(s, pendingId, rpcUrl, txHash, env, ledger, now, source)
    ensures pendingId in s.pending && FirstMissing(PENDING_PAYMENT_FIELDS, columns).Some? ==>
      out == (s, Err(ColumnNotFoundError(FirstMissing(PENDING_PAYMENT_FIELDS, columns).value)))
    ensures pendingId !in s.pending ==> out == (s, Err(GetPendingPayment(s, pendingId).error))
  {
    match FetchPendingPayment(s, pendingId, columns)
    case Err(e) => (s, Err(e))
    case Ok(_) => Settle(s, pendingId, rpcUrl, txHash, env, ledger, now, source)
  }

  /** `verify_sol_signed_transaction` as written reads the pending row with
      `GET_PENDING_PAYMENT`, whose select leaves out `webhook_url`. */
  function VerifySolAsWritten(s: Store, pendingId: int, rpcUrl: string, txHash: string, env: SolanaEnv,
                              ledger: Ledger, now: int): (out: (Store, Result<(int, string), StabuseError>))
    requires ChainIdsFit(env)
    ensures out.0 == s && out.1.Err?
  {
    WebhookUrlFirstMissing();
    SettleReading(s, GET_PENDING_PAYMENT_COLUMNS, pendingId, rpcUrl, txHash, env, ledger, now, AssetField)
  }

  /** As written, no pending payment can be settled: for every id that
      exists the read fails with `ColumnNotFound("webhook_url")` before any
      check runs and before the store is touched; an unknown id is
      `RowNotFound`. */
  lemma AsWrittenVerifierNeverSettles(s: Store, pendingId: int, rpcUrl: string, txHash: string, env: SolanaEnv,
                                      ledger: Ledger, now: int)
    requires ChainIdsFit(env)
    ensures pendingId in s.pending ==>
      VerifySolAsWritten(s, pendingId, rpcUrl, txHash, env, ledger, now) == (s, Err(ColumnNotFoundError(WebhookUrl)))
    ensures pendingId !in s.pending ==>
      VerifySolAsWritten(s, pendingId, rpcUrl, txHash, env, ledger, now) == (s, Err(GetPendingPayment(s, pendingId).error))
  {
    WebhookUrlFirstMissing();
  }

  /** With `webhook_url` added to the select, the verifier is `Settle`. */
  lemma CompleteSelectSettles(s: Store, pendingId: int, rpcUrl: string, txHash: string, env: SolanaEnv,
                              ledger: Ledger, now: int, source: MintSource)
    requires ChainIdsFit(env)
    ensures SettleReading(s, GET_PENDING_PAYMENT_COLUMNS + {WebhookUrl}, pendingId, rpcUrl, txHash, env, ledger, now, source)
         == Settle(s, pendingId, rpcUrl, txHash, env, ledger, now, source)
  {
    assert FirstMissing(PENDING_PAYMENT_FIELDS, GET_PENDING_PAYMENT_COLUMNS + {WebhookUrl}).None?;
  }

  /** `verify_sol_signed_transaction` with the code's choice of mint: the
      pending payment's asset field parsed as a key. The pending row is
      read with every column `PendingPayment` needs, the instruction is
      matched on resolved account keys and the payment is recorded by the
      corrected `AddPayment`, so this is not the code as written in those
      three respects. */
  function VerifySolSignedTransaction(s: Store, pendingId: int, rpcUrl: string, txHash: string, env: SolanaEnv,
                                      ledger: Ledger, now: int): (out: (Store, Result<(int, string), StabuseError>))
    requires ChainIdsFit(env)
    ensures out == Settle(s, pendingId, rpcUrl, txHash, env, ledger, now, AssetField)
  {
    Settle(s, pendingId, rpcUrl, txHash, env, ledger, now, AssetField)
  }

  /** The verifier comparing against the mint the network lookup returns. */
  function VerifySolWithLookedUpMint(s: Store, pendingId: int, rpcUrl: string, txHash: string, env: SolanaEnv,
                                     ledger: Ledger, now: int): (out: (Store, Result<(int, string), StabuseError>))
    requires ChainIdsFit(env)
    ensures out == Settle(s, pendingId, rpcUrl, txHash, env, ledger, now, LookedUpMint)
  {
    Settle(s, pendingId, rpcUrl, txHash, env, ledger, now, LookedUpMint)
  }

  /** Delete and insert are separate statements: when the hash was already
      settled, the verifier fails after the pending row is gone. */
  lemma DuplicateHashDropsPending(s: Store, pendingId: int, rpcUrl: string, txHash: string, env: SolanaEnv,
                                  ledger: Ledger, now: int, source: MintSource)
    requires ChainIdsFit(env)
    requires pendingId in s.pending && Checks(s.pending[pendingId], rpcUrl, txHash, env, ledger, source).Ok?
    requires HasTxHash(s.settled, txHash)
    ensures var out := Settle(s, pendingId, rpcUrl, txHash, env, ledger, now, source);
      && out.1 == Err(UniqueViolationError(txHash))
      && out.0 == DeletePendingPayment(s, pendingId)
      && pendingId !in out.0.pending
  {
    DecimalParses(s.pending[pendingId].amount);
  }

  /** Base58 text of a 32-byte key is at least 32 characters long, so a
      parser that only accepts 32-byte keys rejects anything shorter. */
  ghost predicate ParsesOnlyKeyLength(env: SolanaEnv) {
    forall t :: env.parsePubkey(t).Ok? ==> |t| >= 32
  }

  /** As written, a pending payment whose asset is a ticker such as "USDC"
      can never be settled: the ticker does not parse as a key, so every
      call fails, and fails before the store is touched. */
  lemma TickerMintNeverSettles(s: Store, pendingId: int, rpcUrl: string, txHash: string, env: SolanaEnv,
                               ledger: Ledger, now: int)
    requires ChainIdsFit(env) && ParsesOnlyKeyLength(env)
    requires pendingId in s.pending && |s.pending[pendingId].asset| < 32
    ensures var out := VerifySolSignedTransaction(s, pendingId, rpcUrl, txHash, env, ledger, now);
      out.1.Err? && out.0 == s
  {
    var p := s.pending[pendingId];
    if env.networkIdentifier(rpcUrl).Ok? && env.parseSignature(txHash).Ok?
       && ledger.transaction(env.parseSignature(txHash).value).Ok? {
      var chainId := env.networkIdentifier(rpcUrl).value;
      var tx := ledger.transaction(env.parseSignature(txHash).value).value;
      UnparsedMintFails(tx.message, p, chainId, env);
    }
    assert Checks(p, rpcUrl, txHash, env, ledger, AssetField).Err?;
    assert VerifySolSignedTransaction(s, pendingId, rpcUrl, txHash, env, ledger, now)
        == (s, Err(Checks(p, rpcUrl, txHash, env, ledger, AssetField).error));
  }

  lemma UnparsedMintFails(m: Message, pending: PendingRow, chainId: int, env: SolanaEnv)
    requires ParsesOnlyKeyLength(env) && |pending.asset| < 32
    ensures ValidateTransferInstruction(m, pending, pending.asset, chainId, env).Err?
  {
    assert env.parsePubkey(pending.asset).Err?;
  }

  // ---------------------------------------------------------------------
  // Findings: how the matcher reads program ids and accounts as written
  // ---------------------------------------------------------------------

  /** `Message::program_ids`: one key per instruction, its program's. */
  function ProgramIds(m: Message): (ids: seq<Pubkey>)
    requires forall k :: 0 <= k < |m.instructions| ==> m.instructions[k].programIdIndex < |m.accountKeys|
    ensures |ids| == |m.instructions|
  {
    seq(|m.instructions|, k requires 0 <= k < |m.instructions| => m.accountKeys[m.instructions[k].programIdIndex])
  }

  /** `instruction.program_id(&program_ids)` as the matcher calls it: the
      instruction's account-key index is used to index the per-instruction
      list. `None` is an index out of bounds, which panics. */
  function ProgramIdAsWritten(m: Message, k: nat): (r: Option<Pubkey>)
    requires k < |m.instructions|
    requires forall j :: 0 <= j < |m.instructions| ==> m.instructions[j].programIdIndex < |m.accountKeys|
    ensures r.Some? <==> m.instructions[k].programIdIndex < |m.instructions|
  {
    var ids := ProgramIds(m);
    var idx := m.instructions[k].programIdIndex;
    if idx < |ids| then Some(ids[idx]) else None
  }

  /** For the message the builder produces the program id lookup is out of
      bounds: one instruction, whose program sits after the payer. */
  lemma BuiltMessageProgramIdPanics(payer: Pubkey, ix: Instruction)
    requires ix.programId != payer
    ensures var m := CompileMessage(payer, ix);
      (forall j :: 0 <= j < |m.instructions| ==> m.instructions[j].programIdIndex < |m.accountKeys|)
      && ProgramIdAsWritten(m, 0).None?
  {
    var m := CompileMessage(payer, ix);
    var r := Resolve(m.accountKeys, m.instructions[0]);
    assert r.Some? && r.value.programId == m.accountKeys[m.instructions[0].programIdIndex];
    assert m.instructions[0].programIdIndex != 0;
  }

  /** `Pubkey::from_str(&instruction.accounts[i].to_string())` as written:
      the account index, a u8, rendered in decimal and parsed as a key. */
  function AccountKeyAsWritten(env: SolanaEnv, index: nat): Result<Pubkey, string> {
    env.parsePubkey(DecimalText(index))
  }

  /** A u8 index renders in at most three digits, which no 32-byte key's
      base58 text fits in, so the parse fails and its `unwrap` panics. */
  lemma AccountIndexNeverParses(env: SolanaEnv, index: nat)
    requires ParsesOnlyKeyLength(env)
    requires index < 256
    ensures AccountKeyAsWritten(env, index).Err?
  {
    if index >= 100 {
      DecimalTextLength(index, 3);
    } else if index >= 10 {
      DecimalTextLength(index, 2);
    }
  }

  // ---------------------------------------------------------------------
  // The builder
  // ---------------------------------------------------------------------

  /** The errors `create_payment_transaction` propagates: the service's own,
      and the text of a library error it boxes. */
  datatype BuildError = Service(error: StabuseError) | Foreign(text: string)

  datatype PaymentAuthDetails = PaymentAuthDetails(jwtToken: string, webhookUrl: string)

  /** Builder readings: the mint account's decimals (the account fetch and
      `Mint::unpack` together) and the latest blockhash. */
  datatype BuilderChain = BuilderChain(mintDecimals: Pubkey -> Result<Byte, string>, latestBlockhash: Result<seq<Byte>, string>)

  /** The keys and instruction the builder derives, before it writes
      anything. */
  datatype Prepared = Prepared(network: string, payer: Pubkey, mint: Pubkey, merchant: Pubkey, decimals: Byte,
                               instruction: Instruction, transaction: Transaction)

  function PrepareTransfer(rpcUrl: string, payer: string, merchantId: int, asset: string, amount: nat,
                           env: SolanaEnv, chain: BuilderChain): (r: Result<Prepared, BuildError>)
    requires ChainIdsFit(env)
    requires amount < U64_LIMIT
    ensures r.Ok? ==>
      var p := r.value;
      && p.instruction == TransferChecked(env.ata(p.payer, p.mint), p.mint, env.ata(p.merchant, p.mint), p.payer, amount, p.decimals)
      && p.transaction == NewUnsigned(CompileMessage(p.payer, p.instruction))
      && env.parsePubkey(payer) == Ok(p.payer)
      && chain.mintDecimals(p.mint) == Ok(p.decimals)
      && env.networkIdentifier(rpcUrl).Ok?
      && var chainId := env.networkIdentifier(rpcUrl).value;
      && env.networkAndMint(asset, AsU64(chainId)).Ok?
      && p.network == env.networkAndMint(asset, AsU64(chainId)).value.0
      && env.parsePubkey(env.networkAndMint(asset, AsU64(chainId)).value.1) == Ok(p.mint)
      && env.merchantAddress(merchantId, chainId).Ok?
      && env.parsePubkey(env.merchantAddress(merchantId, chainId).value) == Ok(p.merchant)
  {
    var chainId :- env.networkIdentifier(rpcUrl).MapErr(e => Service(e));
    var merchantAddress :- env.merchantAddress(merchantId, chainId).MapErr(e => Service(e));
    var located :- env.networkAndMint(asset, AsU64(chainId)).MapErr(e => Service(e));
    var payerKey :- env.parsePubkey(payer).MapErr(e => Foreign(e));
    var merchantKey :- env.parsePubkey(merchantAddress).MapErr(e => Foreign(e));
    var mintKey :- env.parsePubkey(located.1).MapErr(e => Foreign(e));
    var decimals :- chain.mintDecimals(mintKey).MapErr(e => Foreign(e));
    var ix := TransferChecked(env.ata(payerKey, mintKey), mintKey, env.ata(merchantKey, mintKey), payerKey, amount, decimals);
    var message := CompileMessage(payerKey, ix);
    var _ :- chain.latestBlockhash.MapErr(e => Foreign(e));
    Ok(Prepared(located.0, payerKey, mintKey, merchantKey, decimals, ix, NewUnsigned(message)))
  }

  /** `create_payment_transaction`: prepares the unsigned transfer, records
      a pending payment, and issues a payment credential naming that
      pending row. A credential failure leaves the pending row in place. */
  function CreatePaymentTransaction(s: Store, rpcUrl: string, payer: string, merchantId: int, asset: string,
                                    amount: nat, env: SolanaEnv, chain: BuilderChain, webhookUrlFor: (int, string, nat) -> string,
                                    now: int, secret: string, clock: Jwt.Clock, signer: Jwt.Signer<Jwt.PaymentClaims>)
    : (out: (Store, Result<(Transaction, PaymentAuthDetails), BuildError>))
    requires ChainIdsFit(env)
    requires amount < U64_LIMIT
    ensures Valid(s) ==> Valid(out.0)
    ensures PrepareTransfer(rpcUrl, payer, merchantId, asset, amount, env, chain).Err? ==> out.0 == s && out.1.Err?
    ensures out.1.Ok? ==>
      var p := PrepareTransfer(rpcUrl, payer, merchantId, asset, amount, env, chain).value;
      var webhookUrl := webhookUrlFor(merchantId, payer, amount);
      && PrepareTransfer(rpcUrl, payer, merchantId, asset, amount, env, chain).Ok?
      && out.1.value.0 == p.transaction
      && out.1.value.1.webhookUrl == webhookUrl
      && out.0.settled == s.settled
      && exists id ::
           && (Valid(s) ==> id !in s.pending)
           && out.0.pending == s.pending[id := PendingRow(merchantId, payer, amount, asset, p.network, webhookUrl, now)]
           && Jwt.GeneratePaymentJwt(id, secret, rpcUrl, p.network, clock, signer) == Ok(out.1.value.1.jwtToken)
    ensures PrepareTransfer(rpcUrl, payer, merchantId, asset, amount, env, chain).Ok? ==>
      var p := PrepareTransfer(rpcUrl, payer, merchantId, asset, amount, env, chain).value;
      var webhookUrl := webhookUrlFor(merchantId, payer, amount);
      && out.0.settled == s.settled
      && exists id ::
           && (Valid(s) ==> id !in s.pending)
           && out.0.pending == s.pending[id := PendingRow(merchantId, payer, amount, asset, p.network, webhookUrl, now)]
           && (out.1.Err? <==> Jwt.GeneratePaymentJwt(id, secret, rpcUrl, p.network, clock, signer).Err?)
           && (out.1.Err? ==> out.1.error == Service(Jwt.GeneratePaymentJwt(id, secret, rpcUrl, p.network, clock, signer).error))
  {
    match PrepareTransfer(rpcUrl, payer, merchantId, asset, amount, env, chain)
    case Err(e) => (s, Err(e))
    case Ok(p) =>
      RecordPending(s, p, merchantId, payer, asset, amount, webhookUrlFor(merchantId, payer, amount), rpcUrl, now, secret, clock, signer)
  }

  /** The second half of `create_payment_transaction`: the pending insert
      (its amount is the decimal text of an integer, so the cast cannot
      fail) and then the credential naming the new row. The row is not
      taken back when the credential fails. */
  function RecordPending(s: Store, p: Prepared, merchantId: int, payer: string, asset: string, amount: nat,
                         webhookUrl: string, rpcUrl: string, now: int, secret: string,
                         clock: Jwt.Clock, signer: Jwt.Signer<Jwt.PaymentClaims>)
    : (out: (Store, Result<(Transaction, PaymentAuthDetails), BuildError>))
    ensures Valid(s) ==> Valid(out.0)
    ensures out.0.settled == s.settled
    ensures exists id ::
      && (Valid(s) ==> id !in s.pending)
      && out.0.pending == s.pending[id := PendingRow(merchantId, payer, amount, asset, p.network, webhookUrl, now)]
      && (out.1.Err? <==> Jwt.GeneratePaymentJwt(id, secret, rpcUrl, p.network, clock, signer).Err?)
      && (out.1.Err? ==> out.1.error == Service(Jwt.GeneratePaymentJwt(id, secret, rpcUrl, p.network, clock, signer).error))
      && (out.1.Ok? ==>
           out.1.value == (p.transaction, PaymentAuthDetails(Jwt.GeneratePaymentJwt(id, secret, rpcUrl, p.network, clock, signer).value, webhookUrl)))
  {
    DecimalParses(amount);
    var (s1, added) := AddPendingPayment(s, merchantId, payer, DecimalText(amount), asset, p.network, webhookUrl, now);
    var id := added.value;
    assert s1.pending == s.pending[id := PendingRow(merchantId, payer, amount, asset, p.network, webhookUrl, now)];
    match Jwt.GeneratePaymentJwt(id, secret, rpcUrl, p.network, clock, signer)
    case Err(e) => (s1, Err(Service(e)))
    case Ok(token) => (s1, Ok((p.transaction, PaymentAuthDetails(token, webhookUrl))))
  }

  /** The builder's instruction, compiled into its message, is found by the
      matcher whenever the verifier derives the same keys and decimals. */
  lemma BuiltTransferMatches(payer: Pubkey, merchant: Pubkey, mint: Pubkey, amount: nat, decimals: Byte,
                             ata: (Pubkey, Pubkey) -> Pubkey)
    requires amount < U64_LIMIT
    ensures var ix := TransferChecked(ata(payer, mint), mint, ata(merchant, mint), payer, amount, decimals);
      var m := CompileMessage(payer, ix);
      FindMatching(m, Expected(ata(payer, mint), mint, ata(merchant, mint), payer, amount, decimals)) == Some(0)
  {
    var ix := TransferChecked(ata(payer, mint), mint, ata(merchant, mint), payer, amount, decimals);
    var m := CompileMessage(payer, ix);
    assert MatchesAt(m, 0, Expected(ata(payer, mint), mint, ata(merchant, mint), payer, amount, decimals));
  }

  /** End to end with the looked-up mint: a transaction built for a pending
      payment passes the verifier's instruction check, provided the verifier
      sees the same lookups and the configured decimals equal the mint's. */
  lemma BuiltTransactionValidates(rpcUrl: string, pending: PendingRow, merchantId: int, env: SolanaEnv,
                                  chain: BuilderChain)
    requires ChainIdsFit(env)
    requires pending.amount < U64_LIMIT && pending.merchantId == merchantId
    requires PrepareTransfer(rpcUrl, pending.sender, merchantId, pending.asset, pending.amount, env, chain).Ok?
    requires
      var p := PrepareTransfer(rpcUrl, pending.sender, merchantId, pending.asset, pending.amount, env, chain).value;
      env.tokenDecimals(pending.asset).GetOr(0) == p.decimals
    ensures
      var p := PrepareTransfer(rpcUrl, pending.sender, merchantId, pending.asset, pending.amount, env, chain).value;
      var chainId := env.networkIdentifier(rpcUrl).value;
      var mintText := env.networkAndMint(pending.asset, AsU64(chainId)).value.1;
      ValidateTransferInstruction(p.transaction.message, pending, mintText, chainId, env).Ok?
  {
    var p := PrepareTransfer(rpcUrl, pending.sender, merchantId, pending.asset, pending.amount, env, chain).value;
    var chainId := env.networkIdentifier(rpcUrl).value;
    var mintText := env.networkAndMint(pending.asset, AsU64(chainId)).value.1;
    var e := ExpectedTransfer(pending, mintText, chainId, env);
    assert e.Ok?;
    assert e.value == Expected(env.ata(p.payer, p.mint), p.mint, env.ata(p.merchant, p.mint), p.payer, pending.amount, p.decimals);
    BuiltTransferMatches(p.payer, p.merchant, p.mint, pending.amount, p.decimals, env.ata);
    assert MatchesAt(p.transaction.message, 0, e.value);
  }
}

=== FILE: text.dfy ===
/** Character and string primitives the service relies on through Rust's
    standard library: ASCII classes, case mapping, prefix and substring tests,
    UTF-8 byte length, and decimal rendering and parsing of integers. */
module Text {
  import opened Wrappers

  predicate IsDigit(c: char) { '0' <= c <= '9' }
  predicate IsUpperLetter(c: char) { 'A' <= c <= 'Z' }
  predicate IsLowerLetter(c: char) { 'a' <= c <= 'z' }
  predicate IsLetter(c: char) { IsUpperLetter(c) || IsLowerLetter(c) }
  predicate IsAlnum(c: char) { IsLetter(c) || IsDigit(c) }

  predicate AllDigits(s: string) {
    forall i :: 0 <= i < |s| ==> IsDigit(s[i])
  }

  function UpperChar(c: char): (r: char)
    ensures IsLowerLetter(c) ==> IsUpperLetter(r)
    ensures !IsLowerLetter(c) ==> r == c
  {
    if IsLowerLetter(c) then (c as int - 32) as char else c
  }

  function LowerChar(c: char): (r: char)
    ensures IsUpperLetter(c) ==> IsLowerLetter(r)
    ensures !IsUpperLetter(c) ==> r == c
  {
    if IsUpperLetter(c) then (c as int + 32) as char else c
  }

  /** `str::to_uppercase`, restricted to the ASCII letters. */
  function Upper(s: string): (r: string)
    ensures |r| == |s|
    ensures forall i :: 0 <= i < |s| ==> r[i] == UpperChar(s[i])
  {
    if |s| == 0 then [] else [UpperChar(s[0])] + Upper(s[1..])
  }

  /** `str::to_lowercase`, restricted to the ASCII letters. */
  function Lower(s: string): (r: string)
    ensures |r| == |s|
    ensures forall i :: 0 <= i < |s| ==> r[i] == LowerChar(s[i])
  {
    if |s| == 0 then [] else [LowerChar(s[0])] + Lower(s[1..])
  }

  predicate IsUpperCase(s: string) {
    forall i :: 0 <= i < |s| ==> !IsLowerLetter(s[i])
  }

  /** Upper-casing is idempotent, and its result contains no lower-case letter. */
  lemma UpperIdempotent(s: string)
    ensures IsUpperCase(Upper(s))
    ensures Upper(Upper(s)) == Upper(s)
  {
  }

  predicate StartsWith(s: string, prefix: string) {
    |prefix| <= |s| && s[..|prefix|] == prefix
  }

  /** `needle` occurs in `s` starting at index `i`. */
  predicate OccursAt(s: string, needle: string, i: int) {
    0 <= i && i + |needle| <= |s| && s[i..i + |needle|] == needle
  }

  /** `needle` occurs somewhere in `s`. */
  ghost predicate OccursIn(s: string, needle: string) {
    exists i :: OccursAt(s, needle, i)
  }

  /** Computable form of `Contains`: scans left to right. */
  function ContainsFrom(s: string, needle: string, from: nat): (r: bool)
    requires from <= |s|
    ensures r <==> exists i :: from <= i && OccursAt(s, needle, i)
    decreases |s| - from
  {
    if from + |needle| > |s| then false
    else if s[from..from + |needle|] == needle then assert OccursAt(s, needle, from); true
    else
      var rest := ContainsFrom(s, needle, from + 1);
      assert !OccursAt(s, needle, from);
      assert forall i :: from <= i && OccursAt(s, needle, i) ==> i == from || from + 1 <= i;
      rest
  }

  /** `str::contains` for a string needle. */
  function Contains(s: string, needle: string): (r: bool)
    ensures r <==> OccursIn(s, needle)
  {
    ContainsFrom(s, needle, 0)
  }

  /** An occurrence at a known index is enough for `Contains`. */
  lemma ContainsAt(s: string, needle: string, i: nat)
    requires OccursAt(s, needle, i)
    ensures Contains(s, needle)
  {
  }

  /** `str::trim_start_matches` with a string pattern: strips every leading
      repetition of a non-empty pattern. */
  function TrimStartMatches(s: string, pat: string): (r: string)
    requires |pat| > 0
    ensures !StartsWith(r, pat)
    ensures |r| <= |s| && r == s[|s| - |r|..]
    decreases |s|
  {
    if StartsWith(s, pat) then TrimStartMatches(s[|pat|..], pat) else s
  }

  /** Number of bytes the UTF-8 encoding of `c` takes. */
  function Utf8Width(c: char): (w: nat)
    ensures 1 <= w <= 4
    ensures w == 1 <==> (c as int) < 0x80
  {
    if (c as int) < 0x80 then 1
    else if (c as int) < 0x800 then 2
    else if (c as int) < 0x10000 then 3
    else 4
  }

  /** `str::len`: the byte length of the UTF-8 encoding. */
  function Utf8Len(s: string): (n: nat)
    ensures n >= |s|
    ensures |s| == 0 <==> n == 0
  {
    if |s| == 0 then 0 else Utf8Width(s[0]) + Utf8Len(s[1..])
  }

  predicate IsAscii(s: string) {
    forall i :: 0 <= i < |s| ==> (s[i] as int) < 0x80
  }

  lemma {:induction false} Utf8LenAscii(s: string)
    ensures Utf8Len(s) == |s| <==> IsAscii(s)
  {
    if |s| > 0 {
      Utf8LenAscii(s[1..]);
      if IsAscii(s) {
        assert IsAscii(s[1..]) by {
          forall i | 0 <= i < |s[1..]| ensures (s[1..][i] as int) < 0x80 {
            assert s[1..][i] == s[i + 1];
          }
        }
      }
      if Utf8Len(s) == |s| {
        assert Utf8Len(s[1..]) >= |s[1..]|;
        assert Utf8Width(s[0]) == 1;
        forall i | 0 <= i < |s| ensures (s[i] as int) < 0x80 {
          if i > 0 { assert s[i] == s[1..][i - 1]; }
        }
      }
    }
  }

  lemma Utf8LenAppend(a: string, b: string)
    ensures Utf8Len(a + b) == Utf8Len(a) + Utf8Len(b)
  {
    if |a| > 0 {
      assert (a + b)[1..] == a[1..] + b;
      Utf8LenAppend(a[1..], b);
    } else {
      assert a + b == b;
    }
  }

  // ---------------------------------------------------------------------
  // Decimal numerals
  // ---------------------------------------------------------------------

  function DigitChar(d: nat): (c: char)
    requires d < 10
    ensures IsDigit(c)
  {
    ('0' as int + d) as char
  }

  function DigitValue(c: char): (d: nat)
    requires IsDigit(c)
    ensures d < 10
  {
    c as int - '0' as int
  }

  /** `u64::to_string` / `Display` for a natural number. */
  function DecimalText(n: nat): (s: string)
    ensures |s| > 0 && AllDigits(s)
    decreases n
  {
    if n < 10 then [DigitChar(n)] else DecimalText(n / 10) + [DigitChar(n % 10)]
  }

  /** `i32::to_string` / `i64::to_string`. */
  function IntText(i: int): (s: string)
    ensures |s| > 0
  {
    if i < 0 then "-" + DecimalText(-i) else DecimalText(i)
  }

  /** Value of a non-empty run of decimal digits, most significant first. */
  function DigitsValue(s: string): nat
    requires AllDigits(s)
    decreases |s|
  {
    if |s| == 0 then 0 else DigitsValue(s[..|s| - 1]) * 10 + DigitValue(s[|s| - 1])
  }

  /** Reading back a rendered decimal numeral yields the number: the text a
      query binds is the number the database stores after its cast. */
  lemma {:induction false} DecimalRoundTrip(n: nat)
    ensures DigitsValue(DecimalText(n)) == n
    decreases n
  {
    var s := DecimalText(n);
    if n < 10 {
      assert s[..0] == [];
    } else {
      DecimalRoundTrip(n / 10);
      assert s[..|s| - 1] == DecimalText(n / 10);
      assert DigitValue(s[|s| - 1]) == n % 10;
    }
  }

  function Pow10(k: nat): (p: nat)
    ensures p >= 1
  {
    if k == 0 then 1 else 10 * Pow10(k - 1)
  }

  /** A number in [10^(k-1), 10^k) is rendered with exactly k digits. */
  lemma {:induction false} DecimalTextLength(n: nat, k: nat)
    requires k >= 1 && Pow10(k - 1) <= n < Pow10(k)
    ensures |DecimalText(n)| == k
    decreases k
  {
    if k > 1 {
      assert n >= 10;
      DecimalTextLength(n / 10, k - 1);
    }
  }

  /** Numeric value of an unsigned decimal numeral: digits only, at least one. */
  function ParseDecimal(s: string): (r: Option<nat>)
    ensures r.Some? <==> |s| > 0 && AllDigits(s)
  {
    if |s| > 0 && AllDigits(s) then Some(DigitsValue(s)) else None
  }

  lemma DecimalParses(n: nat)
    ensures ParseDecimal(DecimalText(n)) == Some(n)
  {
    DecimalRoundTrip(n);
  }

  const I64_MIN: int := -0x8000_0000_0000_0000
  const I64_MAX: int := 0x7FFF_FFFF_FFFF_FFFF

  /** `str::parse::<i64>`: an optional `+` or `-`, then one or more ASCII
      digits, with the value inside the signed 64-bit range. */
  function ParseI64(s: string): (r: Option<int>)
    ensures r.Some? ==> I64_MIN <= r.value <= I64_MAX
    ensures r.Some? ==> |s| > 0
  {
    var negative := |s| > 0 && s[0] == '-';
    var digits := if |s| > 0 && (s[0] == '-' || s[0] == '+') then s[1..] else s;
    match ParseDecimal(digits)
    case None => None
    case Some(v) =>
      var value: int := if negative then 0 - (v as int) else v as int;
      if I64_MIN <= value <= I64_MAX then Some(value) else None
  }

  lemma ParseI64OfDecimal(n: nat)
    requires n <= I64_MAX
    ensures ParseI64(DecimalText(n)) == Some(n)
  {
    var s := DecimalText(n);
    DecimalParses(n);
    assert IsDigit(s[0]);
  }
}

=== FILE: timestamp.dfy ===
/** UTC timestamps as the webhook payload writes them: chrono's
    `DateTime<Utc>::to_rfc3339`, and the internet date/time grammar of
    section 5.6 of RFC 3339 that the text follows. */
module Timestamp {
  import opened Text

  /** A UTC instant broken into calendar fields. */
  datatype DateTime = DateTime(year: nat, month: nat, day: nat, hour: nat, minute: nat, second: nat, nanos: nat)

  predicate IsLeapYear(y: nat) {
    y % 4 == 0 && (y % 100 != 0 || y % 400 == 0)
  }

  function DaysIn(year: nat, month: nat): nat
    requires 1 <= month <= 12
  {
    if month == 2 then (if IsLeapYear(year) then 29 else 28)
    else if month == 4 || month == 6 || month == 9 || month == 11 then 30
    else 31
  }

  /** A calendar date and time of day with a four-digit year, as chrono
      renders without a sign. Leap seconds are not represented. */
  predicate Valid(t: DateTime) {
    && t.year <= 9999
    && 1 <= t.month <= 12 && 1 <= t.day <= DaysIn(t.year, t.month)
    && t.hour < 24 && t.minute < 60 && t.second < 60
    && t.nanos < 1_000_000_000
  }

  /** `n` in exactly `width` decimal digits, zero-padded. */
  function Digits(n: nat, width: nat): (s: string)
    ensures |s| == width && AllDigits(s)
  {
    if width == 0 then [] else Digits(n / 10, width - 1) + [DigitChar(n % 10)]
  }

  lemma {:induction false} DigitsRoundTrip(n: nat, width: nat)
    requires n < Pow10(width)
    ensures DigitsValue(Digits(n, width)) == n
  {
    if width > 0 {
      var s := Digits(n, width);
      assert s[..|s| - 1] == Digits(n / 10, width - 1);
      DigitsRoundTrip(n / 10, width - 1);
    }
  }

  /** The fraction chrono's automatic precision writes: none for whole
      seconds, otherwise milli-, micro- or nanoseconds, whichever is the
      shortest exact form. */
  function Fraction(nanos: nat): (s: string)
    requires nanos < 1_000_000_000
    ensures s == "" <==> nanos == 0
    ensures s != "" ==> |s| in {4, 7, 10} && s[0] == '.' && AllDigits(s[1..])
  {
    if nanos == 0 then ""
    else if nanos % 1_000_000 == 0 then "." + Digits(nanos / 1_000_000, 3)
    else if nanos % 1_000 == 0 then "." + Digits(nanos / 1_000, 6)
    else "." + Digits(nanos, 9)
  }

  /** The value a fraction's digits denote, scaled to nanoseconds. */
  lemma FractionValue(nanos: nat)
    requires 0 < nanos < 1_000_000_000
    ensures var f := Fraction(nanos);
      DigitsValue(f[1..]) * Pow10(10 - |f|) == nanos
  {
    var f := Fraction(nanos);
    assert Pow10(3) == 1000 && Pow10(6) == 1_000_000 && Pow10(9) == 1_000_000_000 && Pow10(0) == 1;
    if nanos % 1_000_000 == 0 {
      assert f[1..] == Digits(nanos / 1_000_000, 3);
      DigitsRoundTrip(nanos / 1_000_000, 3);
    } else if nanos % 1_000 == 0 {
      assert f[1..] == Digits(nanos / 1_000, 6);
      DigitsRoundTrip(nanos / 1_000, 6);
    } else {
      assert f[1..] == Digits(nanos, 9);
      DigitsRoundTrip(nanos, 9);
    }
  }

  /** The date and time of day, to the second: always 19 characters. */
  function Head(t: DateTime): (h: string)
    ensures |h| == 19
  {
    Digits(t.year, 4) + "-" + Digits(t.month, 2) + "-" + Digits(t.day, 2) + "T"
    + Digits(t.hour, 2) + ":" + Digits(t.minute, 2) + ":" + Digits(t.second, 2)
  }

  /** `to_rfc3339` for a UTC instant: the offset is always written `+00:00`. */
  function Rfc3339(t: DateTime): (s: string)
    requires Valid(t)
  {
    Head(t) + Fraction(t.nanos) + "+00:00"
  }

  // ---------------------------------------------------------------------
  // The grammar of section 5.6 of RFC 3339
  // ---------------------------------------------------------------------

  predicate TwoDigitsIn(s: string, lo: nat, hi: nat)
    requires |s| == 2
  {
    AllDigits(s) && lo <= DigitsValue(s) <= hi
  }

  /** time-numoffset or "Z". */
  predicate IsTimeOffset(o: string) {
    || o == "Z"
    || (|o| == 6 && (o[0] == '+' || o[0] == '-') && TwoDigitsIn(o[1..3], 0, 23) && o[3] == ':' && TwoDigitsIn(o[4..6], 0, 59))
  }

  /** [time-secfrac] time-offset. */
  ghost predicate IsFractionThenOffset(r: string) {
    || IsTimeOffset(r)
    || (|r| >= 2 && r[0] == '.' && exists k :: 2 <= k <= |r| && AllDigits(r[1..k]) && IsTimeOffset(r[k..]))
  }

  /** date-time = full-date "T" full-time. The day's upper bound is the one
      the section's table gives for the month and year. */
  ghost predicate IsDateTime(s: string) {
    |s| >= 20 && IsDateAndSeconds(s[..19]) && IsFractionThenOffset(s[19..])
  }

  /** full-date "T" time-hour ":" time-minute ":" time-second. */
  predicate IsDateAndSeconds(h: string)
    requires |h| == 19
  {
    && AllDigits(h[0..4]) && h[4] == '-' && h[7] == '-' && h[10] == 'T' && h[13] == ':' && h[16] == ':'
    && TwoDigitsIn(h[5..7], 1, 12)
    && AllDigits(h[8..10]) && 1 <= DigitsValue(h[8..10]) <= DaysIn(DigitsValue(h[0..4]), DigitsValue(h[5..7]))
    && TwoDigitsIn(h[11..13], 0, 23) && TwoDigitsIn(h[14..16], 0, 59) && TwoDigitsIn(h[17..19], 0, 60)
  }

  /** Each field of the head sits at a fixed position, in its own digits. */
  lemma HeadLayout(t: DateTime)
    ensures var h := Head(t);
      && h[0..4] == Digits(t.year, 4) && h[5..7] == Digits(t.month, 2) && h[8..10] == Digits(t.day, 2)
      && h[11..13] == Digits(t.hour, 2) && h[14..16] == Digits(t.minute, 2) && h[17..19] == Digits(t.second, 2)
      && h[4] == '-' && h[7] == '-' && h[10] == 'T' && h[13] == ':' && h[16] == ':'
  {
  }

  /** The head's fields read back as the instant's fields. */
  lemma HeadFields(t: DateTime)
    requires Valid(t)
    ensures var h := Head(t);
      && DigitsValue(h[0..4]) == t.year && DigitsValue(h[5..7]) == t.month && DigitsValue(h[8..10]) == t.day
      && DigitsValue(h[11..13]) == t.hour && DigitsValue(h[14..16]) == t.minute && DigitsValue(h[17..19]) == t.second
  {
    HeadLayout(t);
    assert Pow10(2) == 100 && Pow10(4) == 10000;
    DigitsRoundTrip(t.year, 4);
    DigitsRoundTrip(t.month, 2);
    DigitsRoundTrip(t.day, 2);
    DigitsRoundTrip(t.hour, 2);
    DigitsRoundTrip(t.minute, 2);
    DigitsRoundTrip(t.second, 2);
  }

  /** What follows the seconds is an optional fraction and the offset. */
  lemma TailConforms(nanos: nat)
    requires nanos < 1_000_000_000
    ensures IsFractionThenOffset(Fraction(nanos) + "+00:00")
  {
    var f := Fraction(nanos);
    var rest := f + "+00:00";
    var offset := "+00:00";
    assert offset[1..3] == "00" && offset[4..6] == "00";
    assert DigitsValue("00") == 0;
    assert IsTimeOffset(offset);
    if f != "" {
      assert rest[1..|f|] == f[1..];
      assert rest[|f|..] == offset;
    }
  }

  /** The rendering follows the grammar, and every calendar field can be
      read back from its fixed position. */
  lemma Rfc3339Conforms(t: DateTime)
    requires Valid(t)
    ensures var s := Rfc3339(t);
      && IsDateTime(s)
      && DigitsValue(s[0..4]) == t.year && DigitsValue(s[5..7]) == t.month && DigitsValue(s[8..10]) == t.day
      && DigitsValue(s[11..13]) == t.hour && DigitsValue(s[14..16]) == t.minute && DigitsValue(s[17..19]) == t.second
      && s[|s| - 6..] == "+00:00"
  {
    var s := Rfc3339(t);
    var h := Head(t);
    assert s[..19] == h;
    assert s[19..] == Fraction(t.nanos) + "+00:00";
    HeadConforms(t);
    HeadFields(t);
    TailConforms(t.nanos);
    HeadSlice(s, h, 0, 4);
    HeadSlice(s, h, 5, 7);
    HeadSlice(s, h, 8, 10);
    HeadSlice(s, h, 11, 13);
    HeadSlice(s, h, 14, 16);
    HeadSlice(s, h, 17, 19);
  }

  /** The head of a rendering follows the grammar's date and time of day. */
  lemma HeadConforms(t: DateTime)
    requires Valid(t)
    ensures IsDateAndSeconds(Head(t))
  {
    HeadLayout(t);
    HeadFields(t);
  }

  /** A slice inside a prefix is the same slice of the prefix. */
  lemma HeadSlice(s: string, h: string, i: nat, j: nat)
    requires |h| <= |s| && s[..|h|] == h && i <= j <= |h|
    ensures s[i..j] == h[i..j]
  {
    assert forall k :: i <= k < j ==> s[i..j][k - i] == s[..|h|][k];
  }

  /** A rendering is 25 characters (19 for date and time, 6 for the
      `+00:00` offset) plus the fraction: the date-time fields are fixed
      width for four-digit years. */
  lemma Rfc3339Length(t: DateTime)
    requires Valid(t)
    ensures |Rfc3339(t)| == 25 + |Fraction(t.nanos)|
  {
  }
}

=== FILE: validation.dfy ===
/** Input validators: address shape, e-mail grammar, password and username
    rules, asset maps, and the supported-networks document a merchant submits.
    The service carries two textually identical copies of several of these
    (one per validation module); each is defined once here. */
module Validation {
  import opened Wrappers
  import opened Text
  import opened Errors
  import Json

  const ADDRESS_LENGTH: nat := 42
  const MIN_PASSWORD_LENGTH: nat := 8
  const MIN_USERNAME_LENGTH: nat := 3

  // ---------------------------------------------------------------------
  // Addresses
  // ---------------------------------------------------------------------

  /** The only address rule the service applies: 42 bytes, starting "0x". */
  predicate AddressShape(a: string) {
    Utf8Len(a) == ADDRESS_LENGTH && StartsWith(a, "0x")
  }

  /** `validate_address`. */
  function ValidateAddress(address: string): (r: Result<(), StabuseError>)
    ensures r.Ok? <==> AddressShape(address)
    ensures r.Err? ==> r.error == InvalidData("Invalid address format for Network " + address)
  {
    if Utf8Len(address) != ADDRESS_LENGTH || !StartsWith(address, "0x") then
      Err(InvalidData("Invalid address format for Network " + address))
    else Ok(())
  }

  function Repeat(c: char, n: nat): (s: string)
    ensures |s| == n && forall i :: 0 <= i < n ==> s[i] == c
  {
    if n == 0 then [] else [c] + Repeat(c, n - 1)
  }

  /** No hex-digit or checksum check is made, and the prefix is case-sensitive:
      forty 'z's after "0x" pass, while an upper-case "0X" prefix fails. */
  lemma AddressShapeExamples()
    ensures ValidateAddress("0x" + Repeat('z', 40)).Ok?
    ensures ValidateAddress("0X" + Repeat('a', 40)).Err?
    ensures ValidateAddress("0x" + Repeat('a', 39)).Err?
  {
    var good := "0x" + Repeat('z', 40);
    Utf8LenAscii(good);
    assert good[..2] == "0x";
    var upper := "0X" + Repeat('a', 40);
    assert upper[..2] != "0x" by { assert upper[1] == 'X'; }
    var short := "0x" + Repeat('a', 39);
    Utf8LenAscii(short);
  }

  // ---------------------------------------------------------------------
  // E-mail addresses
  // ---------------------------------------------------------------------

  /** The characters the local part may use. */
  predicate IsLocalChar(c: char) {
    IsAlnum(c) || c in ".!#$%&'*+/=?^_`{|}~-"
  }

  predicate IsLabelChar(c: char) { IsAlnum(c) || c == '-' }

  predicate LocalPartOk(s: string) {
    |s| > 0 && forall i :: 0 <= i < |s| ==> IsLocalChar(s[i])
  }

  /** One domain label: 1 to 63 letters, digits or hyphens, neither starting
      nor ending with a hyphen. */
  predicate LabelOk(s: string) {
    1 <= |s| <= 63 && IsAlnum(s[0]) && IsAlnum(s[|s| - 1])
    && forall i :: 0 <= i < |s| ==> IsLabelChar(s[i])
  }

  /** The domain as the pattern reads it: a label, then any number of
      dot-separated labels. */
  ghost predicate DomainGrammar(d: string)
    decreases |d|
  {
    LabelOk(d) || exists k :: 0 <= k < |d| && d[k] == '.' && LabelOk(d[..k]) && DomainGrammar(d[k + 1..])
  }

  /** The whole address as the pattern reads it: a local part, one '@', a domain. */
  ghost predicate EmailGrammar(s: string) {
    exists k :: 0 <= k < |s| && s[k] == '@' && LocalPartOk(s[..k]) && DomainGrammar(s[k + 1..])
  }

  function IndexOf(s: string, c: char): (r: Option<nat>)
    ensures r.Some? ==> r.value < |s| && s[r.value] == c && forall j :: 0 <= j < r.value ==> s[j] != c
    ensures r.None? ==> forall j :: 0 <= j < |s| ==> s[j] != c
  {
    if |s| == 0 then None
    else if s[0] == c then Some(0)
    else match IndexOf(s[1..], c)
      case None => None
      case Some(k) => Some(k + 1)
  }

  /** Checks a domain by splitting at the first dot. */
  function CheckDomain(d: string): bool
    decreases |d|
  {
    match IndexOf(d, '.')
    case None => LabelOk(d)
    case Some(k) => LabelOk(d[..k]) && CheckDomain(d[k + 1..])
  }

  lemma LabelPrefixHasNoDot(d: string, k: nat)
    requires k <= |d| && LabelOk(d[..k])
    ensures forall j :: 0 <= j < k ==> d[j] != '.'
  {
    forall j | 0 <= j < k ensures d[j] != '.' { assert d[..k][j] == d[j]; }
  }

  lemma LocalPrefixHasNoAt(s: string, k: nat)
    requires k <= |s| && LocalPartOk(s[..k])
    ensures forall j :: 0 <= j < k ==> s[j] != '@'
  {
    forall j | 0 <= j < k ensures s[j] != '@' { assert s[..k][j] == s[j]; }
  }

  lemma {:induction false} CheckDomainMatchesGrammar(d: string)
    ensures CheckDomain(d) <==> DomainGrammar(d)
    decreases |d|
  {
    match IndexOf(d, '.')
    case None =>
      assert !exists k :: 0 <= k < |d| && d[k] == '.';
    case Some(k) =>
      CheckDomainMatchesGrammar(d[k + 1..]);
      assert !LabelOk(d) by { assert !IsLabelChar(d[k]); }
      if DomainGrammar(d) {
        var k' :| 0 <= k' < |d| && d[k'] == '.' && LabelOk(d[..k']) && DomainGrammar(d[k' + 1..]);
        LabelPrefixHasNoDot(d, k');
        assert k' == k;
      }
  }

  /** An address splits at its first '@', because the local part cannot hold one. */
  lemma FirstAtSplit(email: string, k: nat)
    requires IndexOf(email, '@') == Some(k)
    ensures EmailGrammar(email) <==> LocalPartOk(email[..k]) && DomainGrammar(email[k + 1..])
  {
    if EmailGrammar(email) {
      var k' :| 0 <= k' < |email| && email[k'] == '@' && LocalPartOk(email[..k']) && DomainGrammar(email[k' + 1..]);
      LocalPrefixHasNoAt(email, k');
      assert k' == k;
    }
  }

  /** `validate_email`. */
  function ValidateEmail(email: string): (ok: bool)
    ensures ok <==> EmailGrammar(email)
  {
    match IndexOf(email, '@')
    case None =>
      assert !EmailGrammar(email);
      false
    case Some(k) =>
      CheckDomainMatchesGrammar(email[k + 1..]);
      FirstAtSplit(email, k);
      LocalPartOk(email[..k]) && CheckDomain(email[k + 1..])
  }

  lemma LabelHasNoAt(s: string)
    requires LabelOk(s)
    ensures forall i :: 0 <= i < |s| ==> s[i] != '@'
  {
    forall i | 0 <= i < |s| ensures s[i] != '@' { assert IsLabelChar(s[i]); }
  }

  lemma {:induction false} DomainHasNoAt(d: string)
    requires DomainGrammar(d)
    ensures forall i :: 0 <= i < |d| ==> d[i] != '@'
    ensures |d| > 0
    decreases |d|
  {
    if LabelOk(d) {
      LabelHasNoAt(d);
    } else {
      var k :| 0 <= k < |d| && d[k] == '.' && LabelOk(d[..k]) && DomainGrammar(d[k + 1..]);
      var first, rest := d[..k], d[k + 1..];
      LabelHasNoAt(first);
      DomainHasNoAt(rest);
      forall i | 0 <= i < |d| ensures d[i] != '@' {
        if i < k {
          assert d[i] == first[i];
        } else if i > k {
          assert d[i] == rest[i - k - 1];
        }
      }
    }
  }

  /** Every accepted address has exactly one '@', with something on both
      sides of it. */
  lemma AcceptedEmailShape(email: string)
    requires ValidateEmail(email)
    ensures exists k :: 0 < k < |email| - 1 && email[k] == '@'
                        && forall j :: 0 <= j < |email| && j != k ==> email[j] != '@'
  {
    var k :| 0 <= k < |email| && email[k] == '@' && LocalPartOk(email[..k]) && DomainGrammar(email[k + 1..]);
    var domain := email[k + 1..];
    DomainHasNoAt(domain);
    forall j | 0 <= j < |email| && j != k ensures email[j] != '@' {
      if j < k { assert email[j] == email[..k][j]; }
      else { assert email[j] == domain[j - k - 1]; }
    }
  }

  /** The smallest address the pattern accepts, and one with nothing before
      the '@'. */
  lemma EmailExamples()
    ensures ValidateEmail("a@b")
    ensures !ValidateEmail("@b")
  {
    assert "a@b"[2..] == "b";
    assert "a@b"[..1] == "a";
    assert IndexOf("@b", '@') == Some(0);
  }

  /** Domains the pattern refuses: an empty label between two dots, and a
      label starting with a hyphen. */
  lemma EmptyLabelExample()
    ensures !ValidateEmail("a@b..c")
  {
    assert IndexOf("a@b..c", '@') == Some(1);
    assert "a@b..c"[2..] == "b..c";
    assert IndexOf("b..c", '.') == Some(1);
    assert "b..c"[2..] == ".c";
    assert "b..c"[..1] == "b";
    assert IndexOf(".c", '.') == Some(0);
    assert ".c"[..0] == "";
  }

  lemma HyphenLabelExample()
    ensures !ValidateEmail("a@-b")
  {
    assert IndexOf("a@-b", '@') == Some(1);
    assert "a@-b"[2..] == "-b";
  }

  // ---------------------------------------------------------------------
  // Passwords and usernames
  // ---------------------------------------------------------------------

  /** `validate_password`: non-empty and at least eight bytes; nothing else. */
  function ValidatePassword(password: string): (r: Result<(), StabuseError>)
    ensures r.Ok? <==> Utf8Len(password) >= MIN_PASSWORD_LENGTH
    ensures |password| == 0 ==> r == Err(InvalidCredentials("Password cannot be empty"))
    ensures |password| > 0 && Utf8Len(password) < MIN_PASSWORD_LENGTH ==>
      r == Err(InvalidCredentials("Password must be at least 8 characters long"))
  {
    if |password| == 0 then Err(InvalidCredentials("Password cannot be empty"))
    else if Utf8Len(password) < MIN_PASSWORD_LENGTH then
      Err(InvalidCredentials("Password must be at least 8 characters long"))
    else Ok(())
  }

  /** `char::is_alphanumeric` is Unicode's Alphabetic-or-Numeric class; its
      tables are not modelled, so the class is supplied as a predicate.
      `AsciiAlphanumeric` says it agrees with the ASCII letters and digits
      on the ASCII range, as Unicode does. */
  predicate AsciiAlphanumeric(alphanumeric: char -> bool) {
    forall c: char :: (c as int) < 128 ==> (alphanumeric(c) <==> IsAlnum(c))
  }

  predicate IsUsernameChar(alphanumeric: char -> bool, c: char) {
    alphanumeric(c) || c == '_' || c == '-'
  }

  /** `validate_username`: the emptiness test, then the byte-length test, then
      the per-character test, each failing as `InvalidCredentials`. */
  function ValidateUsername(alphanumeric: char -> bool, username: string): (r: Result<(), StabuseError>)
    ensures r.Ok? <==> Utf8Len(username) >= MIN_USERNAME_LENGTH
                       && forall i :: 0 <= i < |username| ==> IsUsernameChar(alphanumeric, username[i])
    ensures r.Err? ==> r.error.InvalidCredentials?
    ensures |username| == 0 ==> r == Err(InvalidCredentials("Username cannot be empty"))
    ensures |username| > 0 && Utf8Len(username) < MIN_USERNAME_LENGTH ==>
      r == Err(InvalidCredentials("Username must be at least 3 characters long"))
    ensures Utf8Len(username) >= MIN_USERNAME_LENGTH && r.Err? ==>
      r == Err(InvalidCredentials("Username can only contain alphanumeric characters, underscores, and hyphens"))
  {
    if |username| == 0 then Err(InvalidCredentials("Username cannot be empty"))
    else if Utf8Len(username) < MIN_USERNAME_LENGTH then
      Err(InvalidCredentials("Username must be at least 3 characters long"))
    else if exists i :: 0 <= i < |username| && !IsUsernameChar(alphanumeric, username[i]) then
      Err(InvalidCredentials("Username can only contain alphanumeric characters, underscores, and hyphens"))
    else Ok(())
  }

  /** Length is counted in bytes while characters are checked one by one
      against Unicode's class: a two-character name of two-byte letters
      passes both tests. */
  lemma UsernameByteLength(alphanumeric: char -> bool)
    requires alphanumeric('é')
    ensures ValidateUsername(alphanumeric, "éé").Ok?
    ensures ValidateUsername(alphanumeric, "é").error == InvalidCredentials("Username must be at least 3 characters long")
  {
    assert Utf8Len("éé") == 4;
    assert Utf8Len("é") == 2;
  }

  /** On ASCII names the class is the letters and digits: a space is
      refused. */
  lemma UsernameAsciiSpace(alphanumeric: char -> bool)
    requires AsciiAlphanumeric(alphanumeric)
    ensures ValidateUsername(alphanumeric, "a b").error
         == InvalidCredentials("Username can only contain alphanumeric characters, underscores, and hyphens")
  {
    assert !alphanumeric(' ');
    assert !IsUsernameChar(alphanumeric, "a b"[1]);
    assert Utf8Len("a b") == 3;
  }

  /** Letters, digits, `_` and `-` pass. */
  lemma UsernameAsciiAccepted(alphanumeric: char -> bool)
    requires AsciiAlphanumeric(alphanumeric)
    ensures ValidateUsername(alphanumeric, "a_1-Z").Ok?
  {
    var name := "a_1-Z";
    assert Utf8Len(name) == 5;
    assert alphanumeric('a') && alphanumeric('1') && alphanumeric('Z');
    assert forall i :: 0 <= i < |name| ==> IsUsernameChar(alphanumeric, name[i]);
  }

  // ---------------------------------------------------------------------
  // Asset maps
  // ---------------------------------------------------------------------

  predicate AssetEntryOk(entry: (string, string)) {
    entry.0 != "" && AddressShape(entry.1)
  }

  function AssetEntryError(entry: (string, string)): StabuseError {
    if entry.0 == "" then InvalidAssetFormat("Ticker cannot be empty")
    else InvalidAssetFormat("Invalid address format for asset " + entry.0 + ": " + entry.1)
  }

  /** `validate_assets` over the map's entries in iteration order: the first
      entry with an empty ticker or a malformed address decides the error. */
  method ValidateAssets(assets: seq<(string, string)>) returns (r: Result<(), StabuseError>)
    ensures r.Ok? <==> forall i :: 0 <= i < |assets| ==> AssetEntryOk(assets[i])
    ensures r.Err? ==> exists i :: 0 <= i < |assets| && !AssetEntryOk(assets[i])
                        && r.error == AssetEntryError(assets[i])
                        && forall j :: 0 <= j < i ==> AssetEntryOk(assets[j])
    ensures r.Err? ==> r.error.InvalidAssetFormat?
  {
    var i := 0;
    while i < |assets|
      invariant 0 <= i <= |assets|
      invariant forall j :: 0 <= j < i ==> AssetEntryOk(assets[j])
    {
      var (ticker, address) := assets[i];
      if ticker == "" {
        return Err(InvalidAssetFormat("Ticker cannot be empty"));
      }
      if Utf8Len(address) != ADDRESS_LENGTH || !StartsWith(address, "0x") {
        return Err(InvalidAssetFormat("Invalid address format for asset " + ticker + ": " + address));
      }
      i := i + 1;
    }
    return Ok(());
  }

  // ---------------------------------------------------------------------
  // Supported networks
  // ---------------------------------------------------------------------

  /** The database query asking whether a chain supports an (upper-case)
      ticker; it can fail. */
  type SupportLookup = (int, string) -> Result<bool, StabuseError>

  /** The lookup never fails. */
  ghost predicate LookupTotal(supported: SupportLookup) {
    forall chain, ticker :: supported(chain, ticker).Ok?
  }

  function UnsupportedAsset(chain: int, asset: string): StabuseError {
    AssetNotSupportedonNetwork("Network " + IntText(chain) + " does not support asset " + asset)
  }

  predicate AssetSupported(chain: int, asset: Json.Json, supported: SupportLookup) {
    asset.Str? && supported(chain, Upper(asset.s)) == Ok(true)
  }

  /** One `chain id -> [asset, …]` entry is acceptable: the key parses as a
      signed 64-bit integer, the value is an array, and every element is a
      string naming an asset supported on that chain (after upper-casing). */
  predicate NetworkEntryOk(entry: (string, Json.Json), supported: SupportLookup) {
    && ParseI64(entry.0).Some?
    && entry.1.Array?
    && forall j :: 0 <= j < |entry.1.items| ==> AssetSupported(ParseI64(entry.0).value, entry.1.items[j], supported)
  }

  /** The same entry with the lookup ignored: only its shape. */
  predicate NetworkEntryShapeOk(entry: (string, Json.Json)) {
    && ParseI64(entry.0).Some?
    && entry.1.Array?
    && forall j :: 0 <= j < |entry.1.items| ==> entry.1.items[j].Str?
  }

  /** The error the check of one refused asset item reports: a non-string
      item is shown in its debug form; a string goes to the lookup, whose
      failure is passed on. */
  function AssetError(chain: int, item: Json.Json, supported: SupportLookup): StabuseError {
    if !item.Str? then InvalidData("Asset is not a valid string: " + Json.Debug(item))
    else match supported(chain, Upper(item.s))
      case Err(e) => e
      case Ok(_) => UnsupportedAsset(chain, item.s)
  }

  function CheckAssets(chain: int, items: seq<Json.Json>, supported: SupportLookup): (r: Result<(), StabuseError>)
    ensures r.Ok? <==> forall j :: 0 <= j < |items| ==> AssetSupported(chain, items[j], supported)
    ensures r.Err? ==> exists k :: 0 <= k < |items| && !AssetSupported(chain, items[k], supported)
                        && (forall j :: 0 <= j < k ==> AssetSupported(chain, items[j], supported))
                        && r.error == AssetError(chain, items[k], supported)
    ensures r.Err? && LookupTotal(supported) && (forall j :: 0 <= j < |items| ==> items[j].Str?)
            ==> r.error.AssetNotSupportedonNetwork?
    ensures r.Err? && LookupTotal(supported) ==> r.error.InvalidData? || r.error.AssetNotSupportedonNetwork?
  {
    if |items| == 0 then Ok(())
    else if !items[0].Str? then Err(InvalidData("Asset is not a valid string: " + Json.Debug(items[0])))
    else
      match supported(chain, Upper(items[0].s))
      case Err(e) => Err(e)
      case Ok(false) => Err(UnsupportedAsset(chain, items[0].s))
      case Ok(true) =>
        var r := CheckAssets(chain, items[1..], supported);
        assert forall j :: 1 <= j < |items| ==> items[j] == items[1..][j - 1];
        if r.Err? then
          var k :| 0 <= k < |items[1..]| && !AssetSupported(chain, items[1..][k], supported)
                   && (forall j :: 0 <= j < k ==> AssetSupported(chain, items[1..][j], supported))
                   && r.error == AssetError(chain, items[1..][k], supported);
          assert !AssetSupported(chain, items[k + 1], supported);
          r
        else r
  }

  function CheckNetworkEntries(entries: seq<(string, Json.Json)>, supported: SupportLookup): (r: Result<(), StabuseError>)
    ensures r.Ok? <==> forall i :: 0 <= i < |entries| ==> NetworkEntryOk(entries[i], supported)
    ensures r.Err? && LookupTotal(supported) && (forall i :: 0 <= i < |entries| ==> NetworkEntryShapeOk(entries[i]))
            ==> r.error.AssetNotSupportedonNetwork?
    ensures r.Err? && LookupTotal(supported) ==> r.error.InvalidData? || r.error.AssetNotSupportedonNetwork?
  {
    if |entries| == 0 then Ok(())
    else
      var (key, assets) := entries[0];
      assert forall i :: 1 <= i < |entries| ==> entries[i] == entries[1..][i - 1];
      match ParseI64(key)
      case None => Err(InvalidData("Invalid chain ID: " + key))
      case Some(chain) =>
        if !assets.Array? then Err(InvalidData("Assets for chain ID " + IntText(chain) + " must be an array"))
        else
          match CheckAssets(chain, assets.items, supported)
          case Err(e) => Err(e)
          case Ok(_) => CheckNetworkEntries(entries[1..], supported)
  }

  /** `validate_supported_networks`: the document must be a JSON object whose
      every entry is acceptable. When the lookup does not fail, shape faults
      are `InvalidData` and an unsupported asset in a well-shaped document is
      `AssetNotSupportedonNetwork`; a failing lookup's error is passed on. */
  function ValidateSupportedNetworks(document: Json.Json, supported: SupportLookup): (r: Result<(), StabuseError>)
    ensures r.Ok? <==> document.Object? && forall i :: 0 <= i < |document.entries| ==> NetworkEntryOk(document.entries[i], supported)
    ensures !document.Object? ==> r == Err(InvalidData("Supported assets must be a JSON object"))
    ensures r.Err? && LookupTotal(supported) && document.Object?
            && (forall i :: 0 <= i < |document.entries| ==> NetworkEntryShapeOk(document.entries[i]))
            ==> r.error.AssetNotSupportedonNetwork?
    ensures r.Err? && LookupTotal(supported) ==> r.error.InvalidData? || r.error.AssetNotSupportedonNetwork?
  {
    if document.Object? then CheckNetworkEntries(document.entries, supported)
    else Err(InvalidData("Supported assets must be a JSON object"))
  }

  /** An empty object, or an object of empty arrays under numeric keys, is
      accepted whatever the lookup would say; a non-numeric key is not. */
  lemma NetworksDocumentExamples(supported: SupportLookup)
    ensures ValidateSupportedNetworks(Json.Object([]), supported).Ok?
    ensures ValidateSupportedNetworks(Json.Object([("1", Json.Array([]))]), supported).Ok?
    ensures ValidateSupportedNetworks(Json.Object([("eth", Json.Array([]))]), supported)
         == Err(InvalidData("Invalid chain ID: eth"))
  {
    assert ParseI64("1") == Some(1) by { assert DigitsValue("1") == 1 by { assert "1"[..0] == ""; } }
    assert ParseI64("eth").None? by {
      assert !IsDigit("eth"[0]);
      assert ParseDecimal("eth").None?;
    }
    var entries := [("eth", Json.Array([]))];
    assert entries[0].0 == "eth";
    assert ParseI64(entries[0].0).None?;
    assert "Invalid chain ID: " + entries[0].0 == "Invalid chain ID: eth";
    assert CheckNetworkEntries(entries, supported) == Err(InvalidData("Invalid chain ID: eth"));
  }

  /** The verdict `validate_supported_assets` reaches, as a recursive
      definition: the first asset whose lookup fails or answers no decides
      the error. */
  function CheckSupportedAssets(chain: int, assets: seq<string>, supported: SupportLookup): (r: Result<(), StabuseError>)
    ensures r.Ok? <==> forall i :: 0 <= i < |assets| ==> supported(chain, Upper(assets[i])) == Ok(true)
  {
    if |assets| == 0 then Ok(())
    else
      match supported(chain, Upper(assets[0]))
      case Err(e) => Err(e)
      case Ok(false) => Err(UnsupportedAsset(chain, assets[0]))
      case Ok(true) =>
        var r := CheckSupportedAssets(chain, assets[1..], supported);
        assert forall i :: 1 <= i < |assets| ==> assets[i] == assets[1..][i - 1];
        r
  }

  /** `validate_supported_assets`: every asset, upper-cased, must be supported
      on the chain; the first that is not, or the first failing lookup,
      decides the error. */
  method ValidateSupportedAssets(chain: int, assets: seq<string>, supported: SupportLookup)
    returns (r: Result<(), StabuseError>)
    ensures r == CheckSupportedAssets(chain, assets, supported)
    ensures r.Ok? <==> forall i :: 0 <= i < |assets| ==> supported(chain, Upper(assets[i])) == Ok(true)
    ensures r.Err? ==> exists i :: 0 <= i < |assets| && supported(chain, Upper(assets[i])) != Ok(true)
                        && (forall j :: 0 <= j < i ==> supported(chain, Upper(assets[j])) == Ok(true))
                        && r.error == (match supported(chain, Upper(assets[i]))
                                       case Err(e) => e
                                       case Ok(_) => UnsupportedAsset(chain, assets[i]))
  {
    var i := 0;
    while i < |assets|
      invariant 0 <= i <= |assets|
      invariant forall j :: 0 <= j < i ==> supported(chain, Upper(assets[j])) == Ok(true)
      invariant CheckSupportedAssets(chain, assets, supported) == CheckSupportedAssets(chain, assets[i..], supported)
    {
      assert assets[i..][1..] == assets[i + 1..];
      var answer := supported(chain, Upper(assets[i]));
      if answer.Err? {
        return Err(answer.error);
      }
      if !answer.value {
        return Err(UnsupportedAsset(chain, assets[i]));
      }
      i := i + 1;
    }
    return Ok(());
  }
}

=== FILE: wrappers.dfy ===
/** Failure-compatible wrappers shared by every module: the Rust `Option` and
    `Result` types of the payment service, usable with Dafny's `:-` operator. */
module Wrappers {

  datatype Option<+T> = None | Some(value: T) {
    predicate IsFailure() { None? }

    function PropagateFailure<U>(): Option<U>
      requires None?
    {
      None
    }

    function Extract(): T
      requires Some?
    {
      value
    }

    /** `Option::unwrap_or`. */
    function GetOr(default: T): T {
      match this
      case Some(v) => v
      case None => default
    }

    /** `Option::ok_or_else`. */
    function ToResult<E>(error: E): Result<T, E> {
      match this
      case Some(v) => Ok(v)
      case None => Err(error)
    }
  }

  datatype Result<+T, +E> = Ok(value: T) | Err(error: E) {
    predicate IsFailure() { Err? }

    function PropagateFailure<U>(): Result<U, E>
      requires Err?
    {
      Err(error)
    }

    function Extract(): T
      requires Ok?
    {
      value
    }

    /** `Result::map_err`. */
    function MapErr<F>(f: E -> F): Result<T, F> {
      match this
      case Ok(v) => Ok(v)
      case Err(e) => Err(f(e))
    }
  }
}
